=== FILE: README.md ===
# Bot Builder transcript stores, memory storage and `.bot` configuration in Dafny

This project models four classes of the Bot Builder SDK for .NET as pure functions over immutable data, and proves what they promise.

- **`MemoryTranscriptStore`** keeps a transcript log per channel and conversation. It applies `messageDelete` activities as tombstones and `messageUpdate` activities as in-place replacements. It pages reads of a log, and listings of a channel, 20 entries at a time with continuation tokens.
- **`FileTranscriptLogger`** keeps one JSON-array file per conversation. The file path is built from sanitised Ids. Writing appends by splicing text onto the end of the file. Deletes and updates rewrite the whole array. Each write is retried up to three times.
- **`MemoryStorage`** is a key/value store. It stamps store items with an ETag from an `int` counter and refuses writes whose ETag conflicts with the stored one.
- **`BotConfiguration`** is the service list of a `.bot` file. It supports connecting, finding and disconnecting services. It also prunes stale dispatch Ids before saving, and its migration moves an old secret key to the padlock and fills in old bot services' AppIds.

How the C# is represented:

- C# `null` is `Option`.
- A thrown exception is `Fail(e)`, with `e` one of the exception kinds in `Wrappers.Exception`.
- An exception thrown after part of the state has already changed is a `Step(state, Some(e))`. This keeps the partial state visible.
- .NET's unchecked `int` arithmetic is written out (`Int32Text.Wrap32`). So are `int.ToString()` (`FormatInt`) and `int.TryParse` (`TryParseInt32`).
- LINQ `OrderBy` is a stable sort, with null keys first (`StableSort`).
- `SkipWhile(Id != token).Skip(1).Take(20)` paging is `Paging.Paginate`.
- Faults in the file system are an explicit parameter of the file logger.
- JSON (de)serialisation is an explicit parameter of the file logger: a `Codec`.

Modules follow the source: `Wrappers`, `Int32Text`, `Sequences`, `Activities`, `StableSort`, `Paging`, `MemoryTranscriptStore`, `FileTranscriptLogger`, `MemoryStorage` and `BotConfiguration`.

Two behaviours of the code are easy to miss:

- **Unmatched update or delete in `MemoryTranscriptStore.LogActivityAsync`.** Only activities that are neither an update nor a delete are appended. An update or delete whose Id matches no entry changes nothing and is not appended (`MemoryTranscriptStore.cs:79-98`).
- **`FileTranscriptLogger`'s writes through `File.OpenWrite`.** `File.OpenWrite` does not truncate. When the new text is shorter than the file, the old tail remains after it (`OverwriteText`). This applies to the delete and update rewrites, and to the first write of a run in unit-test mode over an existing file.

## Model

| member | source | states |
|---|---|---|
| Activities.Tombstone | libraries/Microsoft.Bot.Builder/MemoryTranscriptStore.cs:61-74 | a tombstone keeps the original's Id, timestamps, locale, channel, conversation, service URL and reply-to Id, has Type `messageDelete` and "deleted" accounts with the original roles; an entry without sender or recipient makes it throw |
| Activities.Updated | libraries/Microsoft.Bot.Builder/MemoryTranscriptStore.cs:86-90 | an updated entry carries the incoming content but the original's Type, Timestamp and LocalTimestamp |
| Activities.TombstoneIdempotent | libraries/Microsoft.Bot.Builder/MemoryTranscriptStore.cs:61-74 | tombstoning a tombstone gives the same tombstone |
| Activities.Since | libraries/Microsoft.Bot.Builder/MemoryTranscriptStore.cs:143 | the filter keeps exactly the entries whose Timestamp is present and at or after the start date, as a subsequence in the original order, and the whole log when every entry qualifies |
| Activities.SinceCounts | libraries/Microsoft.Bot.Builder/MemoryTranscriptStore.cs:143 | each qualifying entry is kept as often as the log holds it, and no other entry is kept |
| Activities.ApplyDelete | libraries/Microsoft.Bot.Builder/MemoryTranscriptStore.cs:52-77 | only the first entry with the incoming Id is replaced, by its tombstone; without a match the log is unchanged; the length never changes |
| Activities.ApplyUpdate | libraries/Microsoft.Bot.Builder/MemoryTranscriptStore.cs:79-94 | only the first entry with the incoming Id is replaced, by the updated entry; without a match the log is unchanged |
| Activities.ApplyDeleteIdempotent | libraries/Microsoft.Bot.Builder/MemoryTranscriptStore.cs:52-77 | applying the same delete twice equals applying it once |
| Activities.ApplyUpdateIdempotent | libraries/Microsoft.Bot.Builder/MemoryTranscriptStore.cs:79-94 | applying the same update twice equals applying it once |
| StableSort.Sort | libraries/Microsoft.Bot.Builder/MemoryTranscriptStore.cs:142 | `OrderBy(a => a.Timestamp)` returns a permutation of the log in ascending Timestamp order, nulls first |
| StableSort.SortIsStable | libraries/Microsoft.Bot.Builder/MemoryTranscriptStore.cs:142 | entries with equal Timestamps keep their relative log order |
| StableSort.SortOfSorted | libraries/Microsoft.Bot.Builder/MemoryTranscriptStore.cs:142 | sorting an already ordered log returns it unchanged |
| Paging.Paginate | libraries/Microsoft.Bot.Builder/MemoryTranscriptStore.cs:139-165 | a page holds at most 20 entries: the first 20 without a token, those after the token's first match with one, none for an unknown token; the token is the last Id exactly when the page is full |
| Paging.PageIsSlice | libraries/Microsoft.Bot.Builder/MemoryTranscriptStore.cs:141-147 | a page is a contiguous run of the candidates |
| Paging.PageAfter | libraries/Microsoft.Bot.Builder/MemoryTranscriptStore.cs:144-146 | with unique Ids, resuming after the j-th entry gives the next up to 20 entries |
| Paging.DrainReadsAll | libraries/Microsoft.Bot.Builder/MemoryTranscriptStore.cs:139-165 | following continuation tokens from the first page reads every candidate once, in order, within \|s\|/20 follow-up requests |
| Paging.FullLastPageNeedsOneMoreRequest | libraries/Microsoft.Bot.Builder/MemoryTranscriptStore.cs:149-152 | when the count is a positive multiple of 20, the last full page still carries a token and the next request returns an empty page without one |
| MemoryTranscriptStore.Record | libraries/Microsoft.Bot.Builder/MemoryTranscriptStore.cs:50-103 | an ordinary activity is appended; a delete replaces the first entry with its Id by the tombstone, or throws as the tombstone's construction does; an update replaces the first match by the updated entry; an unmatched delete or update leaves the log as it was |
| MemoryTranscriptStore.LogActivity | libraries/Microsoft.Bot.Builder/MemoryTranscriptStore.cs:29-107 | a null activity throws "activity" and changes nothing; a null channel Id throws the dictionary's "key" and changes nothing; after the channel entry is created, a null conversation dereferences null and a null conversation Id throws "key"; otherwise the conversation entry is created, other conversations are unchanged, and the conversation's log and any exception are those of `Record` |
| MemoryTranscriptStore.SinceKeepsOrder | libraries/Microsoft.Bot.Builder/MemoryTranscriptStore.cs:142-143 | filtering an ordered log by start date keeps it ordered |
| MemoryTranscriptStore.CandidatePageEntries | libraries/Microsoft.Bot.Builder/MemoryTranscriptStore.cs:141-147 | every entry of a page is an entry of the log at or after the start date |
| MemoryTranscriptStore.CandidatePageOrdered | libraries/Microsoft.Bot.Builder/MemoryTranscriptStore.cs:141-147 | every page is in Timestamp order |
| MemoryTranscriptStore.GetTranscriptActivities | libraries/Microsoft.Bot.Builder/MemoryTranscriptStore.cs:118-172 | null channel or conversation Ids throw, naming the parameter; a missing channel or conversation gives an empty page; otherwise the page is the run of the Timestamp-ordered entries at or after the start date that follows the token, at most 20 of them, with the token rule |
| MemoryTranscriptStore.DeleteTranscript | libraries/Microsoft.Bot.Builder/MemoryTranscriptStore.cs:180-204 | null Ids throw; only the named conversation is removed; the channel entry and every other log stay |
| MemoryTranscriptStore.Infos | libraries/Microsoft.Bot.Builder/MemoryTranscriptStore.cs:227-232 | one listing entry per enumerated conversation, with the channel Id, the conversation Id and the first entry's Timestamp or the default instant |
| MemoryTranscriptStore.SortedInfos | libraries/Microsoft.Bot.Builder/MemoryTranscriptStore.cs:246-255 | the ordered listing names each conversation of the channel exactly once, with its creation time |
| MemoryTranscriptStore.ListTranscripts | libraries/Microsoft.Bot.Builder/MemoryTranscriptStore.cs:213-266 | null channel throws "channelId"; an unknown channel gives an empty page; otherwise the page is the run of the creation-ordered listing that follows the token; it holds at most 20 entries and carries a token exactly when full, the Id of its last entry |
| MemoryTranscriptStore.ListingEntries | libraries/Microsoft.Bot.Builder/MemoryTranscriptStore.cs:227-255 | a listing page names distinct conversations of the channel, in creation order, each with its channel Id and creation time |
| MemoryTranscriptStore.ListingFirstPage | libraries/Microsoft.Bot.Builder/MemoryTranscriptStore.cs:246-255 | the first listing page names min(20, count) conversations |
| MemoryTranscriptStore.ListingPage | libraries/Microsoft.Bot.Builder/MemoryTranscriptStore.cs:233-237 | a page of the listing is ordered, has distinct Ids and holds only listing entries |
| MemoryTranscriptStore.LogAllAppends | libraries/Microsoft.Bot.Builder/MemoryTranscriptStore.cs:95-103 | logging ordinary activities for one conversation appends them to its log in call order |
| MemoryTranscriptStore.ReadPagesIsDrain | libraries/Microsoft.Bot.Builder/MemoryTranscriptStore.cs:139-165 | repeated reads following tokens collect what paging through the ordered candidates collects |
| MemoryTranscriptStore.ListingCovers | libraries/Microsoft.Bot.Builder/MemoryTranscriptStore.cs:246-255 | the listing names every conversation of the channel |
| MemoryTranscriptStore.ListingReadsAll | libraries/Microsoft.Bot.Builder/MemoryTranscriptStore.cs:213-266 | following listing tokens from the first page, within count/20 follow-up requests, names every conversation of the channel exactly once, oldest first, each with its creation time |
| MemoryTranscriptStore.DeletedTranscriptIsGone | libraries/Microsoft.Bot.Builder/MemoryTranscriptStore.cs:180-266 | after a delete, reading the conversation gives an empty page and no listing page names it |
| MemoryTranscriptStore.LogThenReadAll | libraries/Microsoft.Bot.Builder/MemoryTranscriptStore.cs:29-172 | round trip: ordinary activities with unique Ids in Timestamp order, logged to an empty conversation, are read back completely and in order by following tokens |
| FileTranscriptLogger.Filter | libraries/Microsoft.Bot.Builder/FileTranscriptLogger.cs:295-305 | the result keeps exactly the characters that are not invalid, in order, and is no longer than the input |
| FileTranscriptLogger.FilterCounts | libraries/Microsoft.Bot.Builder/FileTranscriptLogger.cs:295-305 | each valid character is kept as often as the input holds it, and no invalid one is kept |
| FileTranscriptLogger.Sanitize | libraries/Microsoft.Bot.Builder/FileTranscriptLogger.cs:295-305 | one `Replace` per invalid character, in turn, equals removing all invalid characters in one pass |
| FileTranscriptLogger.FilterCompose | libraries/Microsoft.Bot.Builder/FileTranscriptLogger.cs:299-302 | removing the characters of a, then those of b, equals removing those of a + b |
| FileTranscriptLogger.SanitizeIdempotent | libraries/Microsoft.Bot.Builder/FileTranscriptLogger.cs:295-305 | sanitising twice equals sanitising once |
| FileTranscriptLogger.SanitizeKeepsValid | libraries/Microsoft.Bot.Builder/FileTranscriptLogger.cs:295-305 | the result holds no invalid character, holds each valid character as often as the input does, and is a subsequence of the input |
| FileTranscriptLogger.Combine | libraries/Microsoft.Bot.Builder/FileTranscriptLogger.cs:323 | `Path.Combine(a, b)` is a when b is empty, b when b is rooted or a is empty, and otherwise a followed by at most one inserted separator and b |
| FileTranscriptLogger.TranscriptFile | libraries/Microsoft.Bot.Builder/FileTranscriptLogger.cs:307-324 | a null channel Id throws `ArgumentNullException` with a null parameter name, a null conversation Id one naming "conversationId"; otherwise the path is the sanitised channel folder under the logger's folder, combined with the sanitised conversation Id plus ".transcript", and its file name is that name |
| FileTranscriptLogger.TranscriptNameIsPlain | libraries/Microsoft.Bot.Builder/FileTranscriptLogger.cs:321-323 | a transcript file name is non-empty and holds no separator |
| FileTranscriptLogger.CombinedFileName | libraries/Microsoft.Bot.Builder/FileTranscriptLogger.cs:323 | combining a folder with a plain file name gives a path whose file name is that name |
| FileTranscriptLogger.SanitizedIdsCollide | libraries/Microsoft.Bot.Builder/FileTranscriptLogger.cs:321 | conversation Ids that differ only in invalid file-name characters share one transcript file |
| FileTranscriptLogger.SameFileIffSameSanitizedId | libraries/Microsoft.Bot.Builder/FileTranscriptLogger.cs:307-324 | on a platform whose separators are invalid file-name characters, two conversations of a channel share a file exactly when their sanitised Ids agree |
| FileTranscriptLogger.TranscriptInChannelFolder | libraries/Microsoft.Bot.Builder/FileTranscriptLogger.cs:307-324 | when the sanitised channel Id is not rooted, the transcript path starts with the logger's folder and with the channel folder, and ends with the transcript file name |
| FileTranscriptLogger.RootedChannelLeavesFolder | libraries/Microsoft.Bot.Builder/FileTranscriptLogger.cs:333-335 | a channel Id that is rooted after sanitising replaces the configured folder |
| FileTranscriptLogger.OverwriteText | libraries/Microsoft.Bot.Builder/FileTranscriptLogger.cs:85-89 | writing through `File.OpenWrite` puts the new text first and keeps the old text beyond its length |
| FileTranscriptLogger.OverwriteIsExact | libraries/Microsoft.Bot.Builder/FileTranscriptLogger.cs:244-248 | the file holds exactly the new text if and only if the new text is at least as long as the old |
| FileTranscriptLogger.AppendSplice | libraries/Microsoft.Bot.Builder/FileTranscriptLogger.cs:210-226 | all but the last character of a non-empty file are kept as a prefix, and the result is 3 + \|item\| characters longer than that prefix and ends in "]" |
| FileTranscriptLogger.AppendSpliceExtendsArray | libraries/Microsoft.Bot.Builder/FileTranscriptLogger.cs:210-226 | splicing onto a JSON array text adds one element at its end |
| FileTranscriptLogger.Attempt | libraries/Microsoft.Bot.Builder/FileTranscriptLogger.cs:78-120 | a faulted attempt changes no file; the path is recorded as started exactly when the first-write branch runs, even if it then faults; a successful attempt leaves the file present and other files alone |
| FileTranscriptLogger.Retry | libraries/Microsoft.Bot.Builder/FileTranscriptLogger.cs:76-128 | at most three attempts run; the first attempt that returns ends the loop with its disk, counted, and logged; when every remaining attempt faults, the activity is lost and the files are as they were |
| FileTranscriptLogger.LogActivity | libraries/Microsoft.Bot.Builder/FileTranscriptLogger.cs:57-129 | it throws exactly when the activity, its conversation, channel Id, conversation Id or sender is null; otherwise it never throws, makes one to three attempts and touches only the transcript file |
| FileTranscriptLogger.FirstSuccessStops | libraries/Microsoft.Bot.Builder/FileTranscriptLogger.cs:76-128 | without faults exactly one attempt runs |
| FileTranscriptLogger.FirstWriteCreatesArray | libraries/Microsoft.Bot.Builder/FileTranscriptLogger.cs:80-92 | a first write to a missing file creates a one-element array and records the path |
| FileTranscriptLogger.FirstWriteOverStaleFile | libraries/Microsoft.Bot.Builder/FileTranscriptLogger.cs:80-91 | in unit-test mode, the first write of a run to an existing file writes the one-element array over the old text, keeping any longer old tail, and records the path |
| FileTranscriptLogger.FaultedFirstWriteKeepsStaleFile | libraries/Microsoft.Bot.Builder/FileTranscriptLogger.cs:80-85 | in unit-test mode, a faulted first write to a stale file still records the path, so the retry appends to the stale content |
| FileTranscriptLogger.ThreeFaultsLoseActivity | libraries/Microsoft.Bot.Builder/FileTranscriptLogger.cs:121-127 | three faults lose the activity silently, leaving the files as they were |
| FileTranscriptLogger.UnmatchedRewriteWritesNothing | libraries/Microsoft.Bot.Builder/FileTranscriptLogger.cs:228-293 | a delete or update matching no entry leaves the file unchanged |
| FileTranscriptLogger.MatchedDeleteRewritesArray | libraries/Microsoft.Bot.Builder/FileTranscriptLogger.cs:256-293 | a matched delete succeeds in one attempt: the array with the tombstone in place is written over the old text, whose longer tail survives; no other file changes |
| FileTranscriptLogger.FailedRewriteWritesNothing | libraries/Microsoft.Bot.Builder/FileTranscriptLogger.cs:228-293 | a delete or update on unparseable text throws a JSON error, and a delete whose tombstone cannot be built throws its error; the file and the started set are unchanged |
| FileTranscriptLogger.MatchedUpdateRewritesArray | libraries/Microsoft.Bot.Builder/FileTranscriptLogger.cs:228-254 | a matched update succeeds in one attempt: the array in which only the first entry with the Id is replaced by the updated activity, keeping the original Type and timestamps, is written over the old text; no other file changes |
| FileTranscriptLogger.AppendStep | libraries/Microsoft.Bot.Builder/FileTranscriptLogger.cs:95-119 | an ordinary activity for an existing transcript that skips the first-write branch is spliced onto the end of the file, in one attempt |
| FileTranscriptLogger.LogAllBuildsArray | libraries/Microsoft.Bot.Builder/FileTranscriptLogger.cs:76-119 | ordinary activities logged one call at a time to a missing file build the JSON array of their texts |
| FileTranscriptLogger.GetTranscriptActivities | libraries/Microsoft.Bot.Builder/FileTranscriptLogger.cs:140-149 | null Ids throw; a missing file gives an empty page; unparseable text throws; otherwise the entries at or after the start date in file order, each as often as the file holds it, never with a token |
| FileTranscriptLogger.LogThenRead | libraries/Microsoft.Bot.Builder/FileTranscriptLogger.cs:193-208 | round trip: activities logged to a fresh transcript are read back, filtered by start date, when the serialiser reads its own array text back |
| FileTranscriptLogger.DeleteTranscript | libraries/Microsoft.Bot.Builder/FileTranscriptLogger.cs:186-191 | null Ids throw; only the transcript file is removed; the started set keeps the path |
| FileTranscriptLogger.DeleteThenFresh | libraries/Microsoft.Bot.Builder/FileTranscriptLogger.cs:186-191 | after a delete the transcript reads as empty and the next log starts a new file |
| MemoryStorage.ReadKeys | libraries/Microsoft.Bot.Builder/MemoryStorage.cs:78-91 | the result holds exactly the requested keys whose state is present and not null, with their states; a null key or a repeated readable key throws |
| MemoryStorage.Read | libraries/Microsoft.Bot.Builder/MemoryStorage.cs:71-94 | a null key list throws "keys"; otherwise as the read loop |
| MemoryStorage.DeleteKeys | libraries/Microsoft.Bot.Builder/MemoryStorage.cs:49-55 | the keys before the first null key are removed and all others kept; a null key throws |
| MemoryStorage.Delete | libraries/Microsoft.Bot.Builder/MemoryStorage.cs:42-58 | a null key list throws "keys"; otherwise the keys before the first null key are removed, and a null key then throws "key"; the counter is untouched |
| MemoryStorage.DeleteThenRead | libraries/Microsoft.Bot.Builder/MemoryStorage.cs:53 | a deleted key reads as absent |
| MemoryStorage.StoredETag | libraries/Microsoft.Bot.Builder/MemoryStorage.cs:120-126 | the stored "eTag" string, null when absent, null state or JSON null; a non-string eTag throws |
| MemoryStorage.WriteOne | libraries/Microsoft.Bot.Builder/MemoryStorage.cs:116-148 | an error leaves the dictionary unchanged; success adds exactly the key; other keys are untouched; the counter advances by at most one, wrapped |
| MemoryStorage.WriteChanges | libraries/Microsoft.Bot.Builder/MemoryStorage.cs:112-150 | the loop fails exactly when some change would fail against the original state; the counter advances once per store item run; changes before the failure are stored as `Written`; other keys are untouched |
| MemoryStorage.Write | libraries/Microsoft.Bot.Builder/MemoryStorage.cs:105-153 | a null change set throws "changes"; otherwise as the write loop |
| MemoryStorage.NoStoredETagNoConflict | libraries/Microsoft.Bot.Builder/MemoryStorage.cs:133-140 | with no ETag stored, a store-item write succeeds unless its elements already hold "eTag" |
| MemoryStorage.WriteBackWithETag | libraries/Microsoft.Bot.Builder/MemoryStorage.cs:131-145 | after a store item is written, writing it back with the ETag it received succeeds; any other ETag except "*" is refused without change |
| MemoryStorage.WriteNullThenRead | libraries/Microsoft.Bot.Builder/MemoryStorage.cs:128-148 | writing null stores null, and a later read omits the key |
| MemoryStorage.ETagsDistinct | libraries/Microsoft.Bot.Builder/MemoryStorage.cs:142 | ETags drawn fewer than 2^32 apart from one counter differ |
| MemoryStorage.WriteETagsDistinct | libraries/Microsoft.Bot.Builder/MemoryStorage.cs:114-149 | within one write, distinct store items receive distinct ETags |
| Int32Text.Wrap32 | libraries/Microsoft.Bot.Configuration/BotConfiguration.cs:289 | an unchecked `int` result is in range, equals the true result when that is in range, and `int.MaxValue + 1` wraps to `int.MinValue` |
| Int32Text.Wrap32Injective | libraries/Microsoft.Bot.Builder/MemoryStorage.cs:142 | results fewer than 2^32 apart wrap to different values |
| Int32Text.Wrap32Add | libraries/Microsoft.Bot.Builder/MemoryStorage.cs:142 | incrementing a wrapped counter equals wrapping the unbounded count |
| Int32Text.FormatInt | libraries/Microsoft.Bot.Configuration/BotConfiguration.cs:289 | `ToString()` of an integer parses back to it |
| Int32Text.FormatIntInjective | libraries/Microsoft.Bot.Builder/MemoryStorage.cs:142 | different integers are spelled differently |
| Int32Text.TryParseInt32 | libraries/Microsoft.Bot.Configuration/BotConfiguration.cs:282 | `int.TryParse` succeeds exactly on non-null text that spells an integer in the `int` range, and then yields that integer; a trailing run of '\0' characters is ignored |
| Int32Text.TrailingNullsIgnored | libraries/Microsoft.Bot.Configuration/BotConfiguration.cs:282 | appending '\0' characters changes neither what the text spells nor what `int.TryParse` yields, so "5\0" reads as "5" does |
| Int32Text.TryParseFormat | libraries/Microsoft.Bot.Configuration/BotConfiguration.cs:282-289 | `int.TryParse` reads back every `int` that `ToString()` wrote |
| BotConfiguration.MaxId | libraries/Microsoft.Bot.Configuration/BotConfiguration.cs:279-286 | the maximum is at least 0, at most `int.MaxValue`, and not below any parseable Id |
| BotConfiguration.MaxIdAttained | libraries/Microsoft.Bot.Configuration/BotConfiguration.cs:279-286 | the maximum is 0 or the value of some parseable Id |
| BotConfiguration.ConnectService | libraries/Microsoft.Bot.Configuration/BotConfiguration.cs:270-298 | null throws "newService"; a service without an Id is appended under the assigned Id; one with an Id is refused exactly when a service of the same Type has that Id, and otherwise appended; the rest is kept |
| BotConfiguration.AssignedIdFresh | libraries/Microsoft.Bot.Configuration/BotConfiguration.cs:279-289 | below `int.MaxValue` the assigned Id is not the Id of any service |
| BotConfiguration.ConnectServiceKeepsUnique | libraries/Microsoft.Bot.Configuration/BotConfiguration.cs:270-298 | as written, connecting keeps Type and Id pairs unique while the maximum Id is below `int.MaxValue` |
| BotConfiguration.AssignedIdWrapsToDuplicate | libraries/Microsoft.Bot.Configuration/BotConfiguration.cs:289 | with Ids "2147483647" and "-2147483648" under one Type, an unnamed service of that Type gets "-2147483648" again |
| BotConfiguration.MaxIdIntendedAttained | libraries/Microsoft.Bot.Configuration/BotConfiguration.cs:279-286 | without the range limit, the maximum is 0 or the value of some numeric Id |
| BotConfiguration.AssignedIdIntended | libraries/Microsoft.Bot.Configuration/BotConfiguration.cs:279-289 | the Id assigned without wrap-around is not the Id of any service |
| BotConfiguration.ConnectServiceIntended | libraries/Microsoft.Bot.Configuration/BotConfiguration.cs:270-298 | the same contract as `ConnectService`, with the intended Id, and it always keeps Type and Id pairs unique |
| BotConfiguration.FindServiceByNameOrIdOf | libraries/Microsoft.Bot.Configuration/BotConfiguration.cs:349-359 | an empty argument throws "nameOrId"; the result is the first service of the requested class named or identified by it, or null when there is none |
| BotConfiguration.FindServiceByNameOrId | libraries/Microsoft.Bot.Configuration/BotConfiguration.cs:333-341 | the first service whose Id or Name is the argument, or null; an empty argument throws, and a non-empty one never does |
| BotConfiguration.FindService | libraries/Microsoft.Bot.Configuration/BotConfiguration.cs:366-374 | the first service with the Id, or null; an empty Id throws "id" |
| BotConfiguration.DisconnectServiceByNameOrIdOf | libraries/Microsoft.Bot.Configuration/BotConfiguration.cs:406-422 | an empty argument throws; no match throws `ArgumentException`; otherwise the first match is removed and returned, and the others are kept in order |
| BotConfiguration.DisconnectServiceByNameOrId | libraries/Microsoft.Bot.Configuration/BotConfiguration.cs:382-397 | an empty argument throws; no match throws `ArgumentException`; otherwise the removed service is the one `FindServiceByNameOrId` returns, the first match, and the list loses exactly it, the others kept in order, with the version unchanged |
| BotConfiguration.DisconnectService | libraries/Microsoft.Bot.Configuration/BotConfiguration.cs:428-440 | an empty Id throws; the first service with the Id is removed, and without one nothing changes |
| BotConfiguration.ConnectThenDisconnect | libraries/Microsoft.Bot.Configuration/BotConfiguration.cs:428-440 | as written, connecting a service under an Id no service has and disconnecting that Id restores the configuration |
| BotConfiguration.ConnectThenFind | libraries/Microsoft.Bot.Configuration/BotConfiguration.cs:366-374 | a service connected without an Id is found under the Id it was given |
| BotConfiguration.KeepKnown | libraries/Microsoft.Bot.Configuration/BotConfiguration.cs:215-217 | the kept Ids are exactly those naming some service, as a subsequence of the original list, and the whole list when all are known |
| BotConfiguration.KeepKnownCounts | libraries/Microsoft.Bot.Configuration/BotConfiguration.cs:215-217 | each known Id is kept as often as the list repeats it, and no unknown one |
| BotConfiguration.PruneList | libraries/Microsoft.Bot.Configuration/BotConfiguration.cs:212-218 | the loop succeeds exactly when every dispatch-typed service is a dispatch service with an Id list; no service changes its Type or Id |
| BotConfiguration.PruneListStored | libraries/Microsoft.Bot.Configuration/BotConfiguration.cs:212-218 | each service up to the first failure is stored as pruned |
| BotConfiguration.PruneListStops | libraries/Microsoft.Bot.Configuration/BotConfiguration.cs:212-218 | from the first failing service on, services are left as they were |
| BotConfiguration.PruneDispatchIds | libraries/Microsoft.Bot.Configuration/BotConfiguration.cs:212-218 | the loop succeeds exactly when every dispatch-typed service is a dispatch service with an Id list; then every dispatch service lists exactly its Ids that name a service, in order and with their repetitions; other services are unchanged |
| BotConfiguration.PruneIdempotent | libraries/Microsoft.Bot.Configuration/BotConfiguration.cs:212-218 | pruning a pruned configuration changes nothing |
| BotConfiguration.EndpointAppId | libraries/Microsoft.Bot.Configuration/BotConfiguration.cs:500-503 | the AppId of the first endpoint-typed service with a non-empty AppId, all earlier ones being endpoint services with empty AppIds; null exactly when there is none; `InvalidCastException` exactly when a non-endpoint service of that Type comes before any non-empty AppId |
| BotConfiguration.MigrateFrom | libraries/Microsoft.Bot.Configuration/BotConfiguration.cs:489-512 | the loop fails exactly when a bot-typed service cannot be cast or its AppId lookup throws; on success each service is migrated; non-bot services are never changed |
| BotConfiguration.MigrateSecretKey | libraries/Microsoft.Bot.Configuration/BotConfiguration.cs:477-487 | as written: a missing "secretKey" property throws `KeyNotFoundException` and a non-string, non-null one `InvalidOperationException`; a string key moves to an unset padlock and the property is removed; a null one changes nothing |
| BotConfiguration.MigrateSecretKeyIntended | libraries/Microsoft.Bot.Configuration/BotConfiguration.cs:477-487 | without a "secretKey" property nothing changes; otherwise the same as the step as written |
| BotConfiguration.MigrateServices | libraries/Microsoft.Bot.Configuration/BotConfiguration.cs:489-515 | on success the version is "2.0" and each service is migrated; a failure throws `InvalidCastException` with the version unchanged; padlock and properties are untouched |
| BotConfiguration.MigrateData | libraries/Microsoft.Bot.Configuration/BotConfiguration.cs:475-516 | a throwing secret key step leaves the configuration unchanged; it succeeds exactly when the step does and every service migrates, and then the version is "2.0" and each service is migrated; failures throw `KeyNotFoundException`, `InvalidOperationException` or `InvalidCastException` with the version unchanged |
| BotConfiguration.MigrateDataNotRepeatable | libraries/Microsoft.Bot.Configuration/BotConfiguration.cs:477-487 | as written, a configuration with a string secret key migrates, and migrating the result again throws `KeyNotFoundException` |
| BotConfiguration.MigrateDataIntended | libraries/Microsoft.Bot.Configuration/BotConfiguration.cs:475-516 | the same contract with the intended secret key step: only a non-string, non-null secret key or a failing service throws |
| BotConfiguration.MigrationFillsAppIds | libraries/Microsoft.Bot.Configuration/BotConfiguration.cs:497-503 | a bot service without an AppId receives the AppId of the first endpoint service that has one, or stays without one exactly when every endpoint AppId is empty |
| BotConfiguration.MigrateIdempotent | libraries/Microsoft.Bot.Configuration/BotConfiguration.cs:475-516 | with the intended secret key step, migrating a migrated configuration changes nothing |

## Left out

- Locks, `Task`s and cancellation tokens: every operation is one atomic step on a value.
- Trace output of `FileTranscriptLogger.LogActivityAsync` is not modelled. Only its dereference of `From` is, which throws on a null sender.
- `FileTranscriptLogger.ListTranscriptsAsync` and directory creation are not modelled. Both read or create directories and file creation times, which are outside this model.
- The `FileTranscriptLogger` constructor's default folder and path normalisation are not modelled. The folder is a parameter.
- JSON (de)serialisation is an opaque `Codec` parameter. The round trips assume it reads back its own array text.
- `Activity`'s JSON clone in updates is a plain copy.
- The platform's invalid file-name and path characters and its separators are parameters.
- Rooted paths are those starting with a separator. Drive-letter roots are not modelled.
- `File.Exists` and file faults come from the explicit disk and fault list. A fault is modelled only at the first file operation of an attempt.
- `MemoryStorage`'s `ToJsonElements` conversion is not part of this model. A change carries its JSON elements directly, as a plain value or as a store item with an ETag.
- The `MemoryStorage` constructor's shared dictionary is not modelled. The initial state is a parameter.
- `ServiceTypes` is not part of this model. The Type strings `"abs"`, `"endpoint"` and `"dispatch"` stand in for its Bot, Endpoint and Dispatch values; only their distinctness matters.
- `BotConfiguration` loading, saving, encryption and decryption, the secret and padlock checks, and `ClearSecret` are not modelled. Loading always runs `MigrateData` (BotConfiguration.cs:142), and saving writes `Properties` back; both are outside the model. Of `SaveAsAsync`, only the dispatch pruning is.
- `Properties` holds only what the secret key step reads: each value is a string, a JSON null or something else.
- Aliasing is not modelled. `MemoryTranscriptStore` stores the caller's `Activity` objects (MemoryTranscriptStore.cs:97, 102) and its reads return those same objects. `MemoryStorage.ReadAsync` returns the stored dictionaries themselves (MemoryStorage.cs:84-87). A caller that mutates such an object changes the store. Immutable values cannot show this.
- Null entries in `Services` are not modelled.
- `MemoryStorage.ETagsDistinct`: it states distinctness only for ETags fewer than 2^32 draws apart, because the counter is an `int` that wraps.
- `FileTranscriptLogger.Attempt`: it does not state the resulting file text for each branch. `FirstWriteCreatesArray`, `FirstWriteOverStaleFile`, `AppendStep`, `MatchedDeleteRewritesArray`, `MatchedUpdateRewritesArray` and `UnmatchedRewriteWritesNothing` state those texts. `FailedRewriteWritesNothing` states the error of a rewrite whose text does not parse or whose tombstone fails. A fault at any other point than the first write to a stale file is covered only by `Attempt`'s own clause that a faulted attempt changes no file.
- `FileTranscriptLogger.OverwriteText`: it counts characters, while `File.OpenWrite` overwrites UTF-8 bytes. For text outside ASCII the surviving tail can start in the middle of a character, and the model does not show that.
- `Int32Text.FormatInt`: it is `int.ToString()` under the invariant culture (BotConfiguration.cs:289). A culture with another negative sign is not modelled.
- `Int32Text.TryParseInt32`: it is `int.TryParse` under the invariant culture, with ASCII digits, an optional sign, surrounding white space and a final run of '\0' characters (BotConfiguration.cs:282). Other cultures and number styles are not modelled.
- `MemoryTranscriptStore.Created`: instants are integers counted from `DateTimeOffset.MinValue`, so `default(DateTimeOffset)` is 0. The model does not rule out negative Timestamps. With one, an empty conversation would be listed after a dated one, which the source never does.
- `BotConfiguration.MigrateData` and `BotConfiguration.MigrateServices`: they do not state which services were already migrated when the loop throws. It states only the error and the unchanged version.
- `BotConfiguration.PruneDispatchIds`: it does not state the partial state when the loop throws. `BotConfiguration.PruneListStored` and `BotConfiguration.PruneListStops` state that state.

## Findings

| source | as written | input that shows it | evidently intended | confidence | as-written member | corrected member |
|---|---|---|---|---|---|---|
| libraries/Microsoft.Bot.Configuration/BotConfiguration.cs:279-289 | the new Id is `(++maxValue).ToString()` in unchecked `int` arithmetic, so a maximum Id of 2147483647 wraps to -2147483648 | services of one Type with Ids "2147483647" and "-2147483648", then connecting a service of that Type without an Id: it is given "-2147483648", which that Type already has | an Id greater than every numeric Id, so connected services keep unique Type and Id pairs | not executed | BotConfiguration.AssignedIdWrapsToDuplicate | BotConfiguration.ConnectServiceIntended |
| libraries/Microsoft.Bot.Configuration/BotConfiguration.cs:478 | the old secret key is read with the dictionary indexer, `Properties[SECRETKEY].GetString()`, which throws `KeyNotFoundException` when there is no "secretKey" property; `LoadAsync` runs `MigrateData` on every load (line 142) | a `.bot` file without a "secretKey" property, such as one saved after a load that migrated a string secret key: loading it throws | a file without the old property has nothing to migrate, so the step is skipped and loading continues | not executed | BotConfiguration.MigrateDataNotRepeatable | BotConfiguration.MigrateDataIntended |

=== FILE: activities.dfy ===
/** The Activity record as the transcript stores see it, and the two in-place
    rewrite rules both stores apply to a transcript log: the tombstone for
    `messageDelete` and the content replacement for `messageUpdate`
    (libraries/Microsoft.Bot.Builder/MemoryTranscriptStore.cs and
    FileTranscriptLogger.cs). Instants (`DateTimeOffset`) are integers. */
module Activities {
  import opened Wrappers
  import opened Sequences

  const MessageDelete: string := "messageDelete"
  const MessageUpdate: string := "messageUpdate"
  const Message: string := "message"
  /** The identifier a tombstone puts in place of `From.Id` and `Recipient.Id`. */
  const DeletedMarker: string := "deleted"

  datatype ChannelAccount = ChannelAccount(id: Option<string>, name: Option<string>, role: Option<string>)

  datatype ConversationAccount = ConversationAccount(id: Option<string>, name: Option<string>)

  /** The fields the stores read or write; `text` and `value` stand for every
      content field a tombstone drops. */
  datatype Activity = Activity(
    activityType: Option<string>,
    id: Option<string>,
    timestamp: Option<int>,
    localTimestamp: Option<int>,
    channelId: Option<string>,
    conversation: Option<ConversationAccount>,
    from: Option<ChannelAccount>,
    recipient: Option<ChannelAccount>,
    locale: Option<string>,
    serviceUrl: Option<string>,
    replyToId: Option<string>,
    text: Option<string>,
    value: Option<string>)

  type Log = seq<Activity>

  /** Neither a delete nor an update: such an activity is appended. */
  predicate IsAppended(a: Activity) {
    a.activityType != Some(MessageDelete) && a.activityType != Some(MessageUpdate)
  }

  /** The tombstone that replaces a deleted entry. Reading `From.Role` or
      `Recipient.Role` of an entry without a sender or recipient throws. */
  function Tombstone(original: Activity): (r: Result<Activity>)
    ensures r.Fail? <==> original.from.None? || original.recipient.None?
    ensures r.Fail? ==> r.error == NullReference
    ensures r.Ok? ==>
      var t := r.value;
      && t.activityType == Some(MessageDelete)
      && t.id == original.id
      && t.from == Some(ChannelAccount(Some(DeletedMarker), None, original.from.value.role))
      && t.recipient == Some(ChannelAccount(Some(DeletedMarker), None, original.recipient.value.role))
      && t.timestamp == original.timestamp
      && t.localTimestamp == original.timestamp
      && t.locale == original.locale
      && t.channelId == original.channelId
      && t.conversation == original.conversation
      && t.serviceUrl == original.serviceUrl
      && t.replyToId == original.replyToId
      && t.text.None? && t.value.None?
  {
    if original.from.None? || original.recipient.None? then Fail(NullReference)
    else
      Ok(Activity(
        activityType := Some(MessageDelete),
        id := original.id,
        timestamp := original.timestamp,
        localTimestamp := original.timestamp,
        channelId := original.channelId,
        conversation := original.conversation,
        from := Some(ChannelAccount(Some(DeletedMarker), None, original.from.value.role)),
        recipient := Some(ChannelAccount(Some(DeletedMarker), None, original.recipient.value.role)),
        locale := original.locale,
        serviceUrl := original.serviceUrl,
        replyToId := original.replyToId,
        text := None,
        value := None))
  }

  /** The entry an update leaves behind: the incoming content (its JSON clone
      is a plain copy here) with the original's Type and both timestamps. */
  function Updated(original: Activity, incoming: Activity): (r: Activity)
    ensures r.activityType == original.activityType
    ensures r.timestamp == original.timestamp && r.localTimestamp == original.localTimestamp
    ensures r.(activityType := incoming.activityType, timestamp := incoming.timestamp,
               localTimestamp := incoming.localTimestamp) == incoming
  {
    incoming.(activityType := original.activityType,
              timestamp := original.timestamp,
              localTimestamp := original.localTimestamp)
  }

  /** Re-tombstoning a tombstone changes nothing. */
  lemma TombstoneIdempotent(original: Activity)
    requires Tombstone(original).Ok?
    ensures Tombstone(Tombstone(original).value) == Tombstone(original)
  {
  }

  function IdOf(a: Activity): Option<string> { a.id }

  function TimestampOf(a: Activity): Option<int> { a.timestamp }

  /** C#'s lifted `a.Timestamp >= startDate`: false for a missing Timestamp. */
  predicate AtOrAfter(a: Activity, startDate: int) {
    a.timestamp.Some? && a.timestamp.value >= startDate
  }

  /** `Where(a => a.Timestamp >= startDate)`: the entries at or after
      `startDate`, in their original order. */
  function Since(log: Log, startDate: int): (r: Log)
    ensures forall i :: 0 <= i < |r| ==> AtOrAfter(r[i], startDate)
    ensures forall a :: a in r <==> a in log && AtOrAfter(a, startDate)
    ensures IsSubsequence(r, log)
    ensures (forall i :: 0 <= i < |log| ==> AtOrAfter(log[i], startDate)) ==> r == log
  {
    if |log| == 0 then []
    else
      var prefix := log[..|log| - 1];
      var last := log[|log| - 1];
      var r := Since(prefix, startDate);
      assert log == prefix + [last];
      SubsequenceExtend(r, prefix, last);
      if AtOrAfter(last, startDate) then r + [last] else r
  }

  /** `Since` keeps every dated entry as often as the log holds it, so a
      repeated activity is not collapsed into one. */
  lemma {:induction false} SinceCounts(log: Log, startDate: int)
    ensures forall a :: multiset(Since(log, startDate))[a] == if AtOrAfter(a, startDate) then multiset(log)[a] else 0
  {
    if |log| > 0 {
      var prefix, last := log[..|log| - 1], log[|log| - 1];
      SinceCounts(prefix, startDate);
      assert log == prefix + [last];
      CountsExtend(Since(prefix, startDate), prefix, last, a => AtOrAfter(a, startDate));
    }
  }

  /** The index of the first entry whose Id equals `id` (C# `==` on strings, so
      two null Ids match). */
  function FirstIndexOfId(log: Log, id: Option<string>): Option<nat> {
    FirstIndexOf(log, IdOf, id)
  }

  /** The `messageDelete` rule: tombstone the first entry with the incoming Id,
      or leave the log alone when there is none. */
  function ApplyDelete(log: Log, id: Option<string>): (r: Result<Log>)
    ensures FirstIndexOfId(log, id).None? ==> r == Ok(log)
    ensures FirstIndexOfId(log, id).Some? ==>
      var i := FirstIndexOfId(log, id).value;
      match Tombstone(log[i])
      case Fail(e) => r == Fail(e)
      case Ok(t) => r.Ok? && |r.value| == |log| && r.value[i] == t
                    && forall j :: 0 <= j < |log| && j != i ==> r.value[j] == log[j]
  {
    match FirstIndexOfId(log, id)
    case None => Ok(log)
    case Some(i) =>
      match Tombstone(log[i])
      case Fail(e) => Fail(e)
      case Ok(t) => Ok(log[i := t])
  }

  /** The `messageUpdate` rule: replace the first entry with the incoming Id by
      `Updated`, or leave the log alone when there is none. */
  function ApplyUpdate(log: Log, incoming: Activity): (r: Log)
    ensures |r| == |log|
    ensures FirstIndexOfId(log, incoming.id).None? ==> r == log
    ensures FirstIndexOfId(log, incoming.id).Some? ==>
      var i := FirstIndexOfId(log, incoming.id).value;
      && r[i] == Updated(log[i], incoming)
      && forall j :: 0 <= j < |log| && j != i ==> r[j] == log[j]
  {
    match FirstIndexOfId(log, incoming.id)
    case None => log
    case Some(i) => log[i := Updated(log[i], incoming)]
  }

  /** Deleting the same Id twice has the effect of deleting it once. */
  lemma ApplyDeleteIdempotent(log: Log, id: Option<string>)
    requires ApplyDelete(log, id).Ok?
    ensures ApplyDelete(ApplyDelete(log, id).value, id) == ApplyDelete(log, id)
  {
    var once := ApplyDelete(log, id).value;
    match FirstIndexOfId(log, id)
    case None =>
    case Some(i) =>
      FirstIndexUnchanged(log, id, i, once[i]);
      TombstoneIdempotent(log[i]);
      assert once[i := Tombstone(once[i]).value] == once;
  }

  /** Applying the same update twice has the effect of applying it once. */
  lemma ApplyUpdateIdempotent(log: Log, incoming: Activity)
    ensures ApplyUpdate(ApplyUpdate(log, incoming), incoming) == ApplyUpdate(log, incoming)
  {
    var once := ApplyUpdate(log, incoming);
    match FirstIndexOfId(log, incoming.id)
    case None =>
    case Some(i) =>
      FirstIndexUnchanged(log, incoming.id, i, once[i]);
      assert once[i := Updated(once[i], incoming)] == once;
  }

  /** Overwriting the first match with an entry of the same Id keeps it the
      first match. */
  lemma FirstIndexUnchanged(log: Log, id: Option<string>, i: nat, x: Activity)
    requires FirstIndexOfId(log, id) == Some(i)
    requires x.id == id
    ensures FirstIndexOfId(log[i := x], id) == Some(i)
  {
    var log' := log[i := x];
    assert log'[i].id == id;
    assert forall k :: 0 <= k < i ==> log'[k] == log[k];
  }
}

=== FILE: bot_configuration.dfy ===
/** The service list of a `.bot` configuration
    (libraries/Microsoft.Bot.Configuration/BotConfiguration.cs): connecting,
    finding and disconnecting services, the pruning of dispatch service Ids
    done before saving, and the AppId migration. Services are records; the
    runtime class of a service is its `shape`. */
module BotConfiguration {
  import opened Wrappers
  import opened Sequences
  import opened Int32Text
  import opened JsonElements

  /** `ServiceTypes.Bot`, `ServiceTypes.Endpoint` and `ServiceTypes.Dispatch`. */
  const BotType: string := "abs"
  const EndpointType: string := "endpoint"
  const DispatchType: string := "dispatch"
  const MigratedVersion: string := "2.0"
  const SecretKey: string := "secretKey"

  /** The runtime class of a service, with the fields the modelled code reads:
      `BotService.AppId`, `EndpointService.AppId`, `DispatchService.ServiceIds`. */
  datatype Shape =
    | OtherShape
    | BotShape(appId: Option<string>)
    | EndpointShape(appId: Option<string>)
    | DispatchShape(serviceIds: Option<seq<Option<string>>>)

  datatype Service = Service(serviceType: Option<string>, name: Option<string>, id: Option<string>, shape: Shape)

  /** The configuration: its services, its version, its padlock (the
      encrypted key check), and the JSON properties no field maps. */
  datatype Config = Config(services: seq<Service>, version: Option<string>,
                           padlock: Option<string>, properties: map<string, Json>)

  /** No two services share both Type and Id: what `ConnectService` guards. */
  predicate UniqueTypeIds(services: seq<Service>) {
    forall i, j :: 0 <= i < j < |services| ==>
      services[i].serviceType != services[j].serviceType || services[i].id != services[j].id
  }

  /* --- ConnectService --- */

  /** The largest `int.TryParse`-able Id above 0, or 0. */
  function MaxId(services: seq<Service>): (m: int)
    ensures 0 <= m <= INT32_MAX
    ensures forall i :: 0 <= i < |services| && TryParseInt32(services[i].id).Some? ==> TryParseInt32(services[i].id).value <= m
  {
    if |services| == 0 then 0
    else
      var m := MaxId(services[..|services| - 1]);
      assert forall i :: 0 <= i < |services| - 1 ==> services[..|services| - 1][i] == services[i];
      match TryParseInt32(services[|services| - 1].id)
      case Some(v) => if v > m then v else m
      case None => m
  }

  /** The maximum is 0 or the value of some parseable Id. */
  lemma {:induction false} MaxIdAttained(services: seq<Service>)
    ensures MaxId(services) == 0 || exists i :: 0 <= i < |services| && TryParseInt32(services[i].id) == Some(MaxId(services))
  {
    if |services| > 0 {
      var init := services[..|services| - 1];
      MaxIdAttained(init);
      assert forall i :: 0 <= i < |init| ==> init[i] == services[i];
    }
  }

  /** The Id `ConnectService` assigns: `(++maxValue).ToString()` in unchecked
      `int` arithmetic. */
  function AssignedId(services: seq<Service>): string {
    FormatInt(Wrap32(MaxId(services) + 1))
  }

  /** `ConnectService` as written. A service without an Id gets a new one and
      is appended without the duplicate check; one with an Id is refused when a
      service of the same Type has that Id. */
  function ConnectService(cfg: Config, newService: Option<Service>): (r: Result<Config>)
    ensures newService.None? ==> r == Fail(ArgumentNull(Some("newService")))
    ensures r.Ok? ==> r.value.version == cfg.version && |r.value.services| == |cfg.services| + 1
    ensures r.Ok? ==> r.value.services[..|cfg.services|] == cfg.services
    ensures newService.Some? && IsNullOrEmpty(newService.value.id) ==>
      r.Ok? && r.value.services[|cfg.services|] == newService.value.(id := Some(AssignedId(cfg.services)))
    ensures newService.Some? && !IsNullOrEmpty(newService.value.id) ==>
      && (r.Fail? <==> exists i :: 0 <= i < |cfg.services| && cfg.services[i].serviceType == newService.value.serviceType
                                                          && cfg.services[i].id == newService.value.id)
      && (r.Fail? ==> r.error == InvalidOperation)
      && (r.Ok? ==> r.value.services[|cfg.services|] == newService.value)
  {
    if newService.None? then Fail(ArgumentNull(Some("newService")))
    else
      var s := newService.value;
      if IsNullOrEmpty(s.id) then
        Ok(cfg.(services := cfg.services + [s.(id := Some(AssignedId(cfg.services)))]))
      else if exists i :: 0 <= i < |cfg.services| && cfg.services[i].serviceType == s.serviceType && cfg.services[i].id == s.id then
        Fail(InvalidOperation)
      else
        Ok(cfg.(services := cfg.services + [s]))
  }

  /** Below the top of the `int` range the assigned Id is new: every Id that
      spells it would have parsed to a value above the maximum. */
  lemma AssignedIdFresh(services: seq<Service>)
    requires MaxId(services) < INT32_MAX
    ensures forall i :: 0 <= i < |services| ==> services[i].id != Some(AssignedId(services))
  {
    var m := MaxId(services);
    assert Wrap32(m + 1) == m + 1;
    TryParseFormat(m + 1);
  }

  /** As written, `ConnectService` keeps Type and Id pairs unique while the
      largest numeric Id is below `int.MaxValue`. */
  lemma ConnectServiceKeepsUnique(cfg: Config, newService: Option<Service>)
    requires UniqueTypeIds(cfg.services) && MaxId(cfg.services) < INT32_MAX
    requires ConnectService(cfg, newService).Ok?
    ensures UniqueTypeIds(ConnectService(cfg, newService).value.services)
  {
    AssignedIdFresh(cfg.services);
  }

  /** The wrap-around: with Ids "2147483647" and "-2147483648" present, an
      unnamed service is given "-2147483648" again, under the same Type. */
  lemma AssignedIdWrapsToDuplicate(t: Option<string>)
    ensures var cfg := Config([Service(t, None, Some(FormatInt(INT32_MAX)), OtherShape),
                               Service(t, None, Some(FormatInt(INT32_MIN)), OtherShape)], None, None, map[]);
      var r := ConnectService(cfg, Some(Service(t, None, None, OtherShape)));
      && UniqueTypeIds(cfg.services)
      && r.Ok? && r.value.services[2].id == cfg.services[1].id
      && !UniqueTypeIds(r.value.services)
  {
    WrappedIdAt(t, INT32_MAX, INT32_MIN);
    DuplicateWhenAssignedTaken(Config([Service(t, None, Some(FormatInt(INT32_MAX)), OtherShape),
                                       Service(t, None, Some(FormatInt(INT32_MIN)), OtherShape)], None, None, map[]),
                               Service(t, None, None, OtherShape));
  }

  /** Two services of one Type with distinct Ids, the second of which is the
      Id the next unnamed service gets: connecting such a service of that Type
      duplicates it. */
  lemma DuplicateWhenAssignedTaken(cfg: Config, s: Service)
    requires |cfg.services| == 2 && cfg.services[0].id != cfg.services[1].id
    requires cfg.services[0].serviceType == cfg.services[1].serviceType == s.serviceType
    requires s.id.None? && cfg.services[1].id == Some(AssignedId(cfg.services))
    ensures var r := ConnectService(cfg, Some(s));
      && UniqueTypeIds(cfg.services)
      && r.Ok? && r.value.services[2].id == cfg.services[1].id
      && !UniqueTypeIds(r.value.services)
  {
    var after := ConnectService(cfg, Some(s)).value.services;
    assert after[1].id == after[2].id;
    DistinctPairUnique(cfg.services);
    SharedTypeIdNotUnique(after, 1, 2);
  }

  /** Two services with different Ids never clash. */
  lemma DistinctPairUnique(services: seq<Service>)
    requires |services| == 2 && services[0].id != services[1].id
    ensures UniqueTypeIds(services)
  {
  }

  /** Two services sharing Type and Id break uniqueness. */
  lemma SharedTypeIdNotUnique(services: seq<Service>, i: nat, j: nat)
    requires i < j < |services|
    requires services[i].serviceType == services[j].serviceType && services[i].id == services[j].id
    ensures !UniqueTypeIds(services)
  {
  }

  /** The two Ids differ, and the Id assigned after them is the second one.
      The bounds are passed as values, so that the proof does not unfold the
      functions on the constants. */
  lemma WrappedIdAt(t: Option<string>, hi: int, lo: int)
    requires hi == INT32_MAX && lo == INT32_MIN
    ensures var s := [Service(t, None, Some(FormatInt(hi)), OtherShape),
                      Service(t, None, Some(FormatInt(lo)), OtherShape)];
      && FormatInt(hi) != FormatInt(lo)
      && AssignedId(s) == FormatInt(lo)
  {
    var s := [Service(t, None, Some(FormatInt(hi)), OtherShape),
              Service(t, None, Some(FormatInt(lo)), OtherShape)];
    TryParseFormat(hi);
    TryParseFormat(lo);
    assert MaxId(s[..1]) == hi by {
      assert s[..1][..0] == [];
    }
    assert MaxId(s) == hi;
    assert FormatInt(hi) != FormatInt(lo) by {
      if FormatInt(hi) == FormatInt(lo) {
        FormatIntInjective(hi, lo);
      }
    }
    assert Wrap32(hi + 1) == lo;
  }

  /** The value an Id spells in unbounded arithmetic, or `None`. */
  function IdValue(id: Option<string>): Option<int> {
    if id.None? then None else ParseInteger(id.value)
  }

  /** The largest numeric Id above 0, or 0, without a range limit. */
  function MaxIdIntended(services: seq<Service>): (m: nat)
    ensures forall i :: 0 <= i < |services| && IdValue(services[i].id).Some? ==> IdValue(services[i].id).value <= m
  {
    if |services| == 0 then 0
    else
      var m := MaxIdIntended(services[..|services| - 1]);
      assert forall i :: 0 <= i < |services| - 1 ==> services[..|services| - 1][i] == services[i];
      match IdValue(services[|services| - 1].id)
      case Some(v) => if v > m then v else m
      case None => m
  }

  /** The unbounded maximum is 0 or the value of some numeric Id. */
  lemma {:induction false} MaxIdIntendedAttained(services: seq<Service>)
    ensures MaxIdIntended(services) == 0 || exists i :: 0 <= i < |services| && IdValue(services[i].id) == Some(MaxIdIntended(services))
  {
    if |services| > 0 {
      var init := services[..|services| - 1];
      MaxIdIntendedAttained(init);
      assert forall i :: 0 <= i < |init| ==> init[i] == services[i];
    }
  }

  /** The Id meant to be assigned: one more than every numeric Id. */
  function AssignedIdIntended(services: seq<Service>): (id: string)
    ensures forall i :: 0 <= i < |services| ==> services[i].id != Some(id)
  {
    var id := FormatInt(MaxIdIntended(services) + 1);
    assert IdValue(Some(id)) == Some(MaxIdIntended(services) + 1);
    id
  }

  /** `ConnectService` with the assigned Id computed without wrap-around; it
      always keeps Type and Id pairs unique. */
  function ConnectServiceIntended(cfg: Config, newService: Option<Service>): (r: Result<Config>)
    ensures newService.None? ==> r == Fail(ArgumentNull(Some("newService")))
    ensures r.Ok? && UniqueTypeIds(cfg.services) ==> UniqueTypeIds(r.value.services)
    ensures r.Ok? ==> r.value.version == cfg.version && |r.value.services| == |cfg.services| + 1
    ensures r.Ok? ==> r.value.services[..|cfg.services|] == cfg.services
    ensures newService.Some? && IsNullOrEmpty(newService.value.id) ==>
      r.Ok? && r.value.services[|cfg.services|] == newService.value.(id := Some(AssignedIdIntended(cfg.services)))
    ensures newService.Some? && !IsNullOrEmpty(newService.value.id) ==>
      && (r.Fail? <==> exists i :: 0 <= i < |cfg.services| && cfg.services[i].serviceType == newService.value.serviceType
                                                          && cfg.services[i].id == newService.value.id)
      && (r.Fail? ==> r.error == InvalidOperation)
      && (r.Ok? ==> r.value.services[|cfg.services|] == newService.value)
  {
    if newService.None? then Fail(ArgumentNull(Some("newService")))
    else
      var s := newService.value;
      if IsNullOrEmpty(s.id) then
        Ok(cfg.(services := cfg.services + [s.(id := Some(AssignedIdIntended(cfg.services)))]))
      else if exists i :: 0 <= i < |cfg.services| && cfg.services[i].serviceType == s.serviceType && cfg.services[i].id == s.id then
        Fail(InvalidOperation)
      else
        Ok(cfg.(services := cfg.services + [s]))
  }

  /* --- Finding and disconnecting --- */

  predicate NamedOrIdentified(s: Service, nameOrId: string) {
    s.id == Some(nameOrId) || s.name == Some(nameOrId)
  }

  /** Every service is a `ConnectedService`. */
  predicate AnyService(s: Service) { true }

  /** `FindServiceByNameOrId<T>`: the first service of class `T` (`isT`) whose
      Id or Name is the argument, or null; an empty argument throws. */
  function FindServiceByNameOrIdOf(cfg: Config, isT: Service -> bool, nameOrId: Option<string>): (r: Result<Option<Service>>)
    ensures IsNullOrEmpty(nameOrId) ==> r == Fail(ArgumentNull(Some("nameOrId")))
    ensures !IsNullOrEmpty(nameOrId) ==> r.Ok?
    ensures r.Ok? && r.value.None? ==>
      forall i :: 0 <= i < |cfg.services| ==> !(isT(cfg.services[i]) && NamedOrIdentified(cfg.services[i], nameOrId.value))
    ensures r.Ok? && r.value.Some? ==>
      exists i :: 0 <= i < |cfg.services| && cfg.services[i] == r.value.value
                  && isT(cfg.services[i]) && NamedOrIdentified(cfg.services[i], nameOrId.value)
                  && forall j :: 0 <= j < i ==> !(isT(cfg.services[j]) && NamedOrIdentified(cfg.services[j], nameOrId.value))
  {
    if IsNullOrEmpty(nameOrId) then Fail(ArgumentNull(Some("nameOrId")))
    else
      match FirstWhere(cfg.services, s => isT(s) && NamedOrIdentified(s, nameOrId.value))
      case None => Ok(None)
      case Some(i) => Ok(Some(cfg.services[i]))
  }

  /** `FindServiceByNameOrId`: the first service whose Id or Name is the
      argument, or null. */
  function FindServiceByNameOrId(cfg: Config, nameOrId: Option<string>): (r: Result<Option<Service>>)
    ensures IsNullOrEmpty(nameOrId) ==> r == Fail(ArgumentNull(Some("nameOrId")))
    ensures !IsNullOrEmpty(nameOrId) ==> r.Ok?
    ensures r.Ok? && r.value.None? ==>
      forall i :: 0 <= i < |cfg.services| ==> !NamedOrIdentified(cfg.services[i], nameOrId.value)
    ensures r.Ok? && r.value.Some? ==>
      exists i :: 0 <= i < |cfg.services| && cfg.services[i] == r.value.value
                  && NamedOrIdentified(cfg.services[i], nameOrId.value)
                  && forall j :: 0 <= j < i ==> !NamedOrIdentified(cfg.services[j], nameOrId.value)
  {
    FindServiceByNameOrIdOf(cfg, AnyService, nameOrId)
  }

  /** `FindService`: the first service with the given Id, or null. */
  function FindService(cfg: Config, id: Option<string>): (r: Result<Option<Service>>)
    ensures IsNullOrEmpty(id) ==> r == Fail(ArgumentNull(Some("id")))
    ensures !IsNullOrEmpty(id) ==> r.Ok?
    ensures r.Ok? && r.value.None? ==> forall i :: 0 <= i < |cfg.services| ==> cfg.services[i].id != id
    ensures r.Ok? && r.value.Some? ==>
      exists i :: 0 <= i < |cfg.services| && cfg.services[i] == r.value.value && cfg.services[i].id == id
                  && forall j :: 0 <= j < i ==> cfg.services[j].id != id
  {
    if IsNullOrEmpty(id) then Fail(ArgumentNull(Some("id")))
    else
      match FirstWhere(cfg.services, (s: Service) => s.id == id)
      case None => Ok(None)
      case Some(i) => Ok(Some(cfg.services[i]))
  }

  function RemoveAt<T>(s: seq<T>, i: nat): (r: seq<T>)
    requires i < |s|
    ensures |r| == |s| - 1
    ensures multiset(r) + multiset{s[i]} == multiset(s)
  {
    assert s == s[..i] + [s[i]] + s[i + 1..];
    s[..i] + s[i + 1..]
  }

  /** `DisconnectServiceByNameOrId<T>`: remove the service
      `FindServiceByNameOrId<T>` finds and return it; throw when there is none. */
  function DisconnectServiceByNameOrIdOf(cfg: Config, isT: Service -> bool, nameOrId: Option<string>): (r: Result<(Config, Service)>)
    ensures IsNullOrEmpty(nameOrId) ==> r == Fail(ArgumentNull(Some("nameOrId")))
    ensures !IsNullOrEmpty(nameOrId) ==>
      (r.Fail? <==> forall i :: 0 <= i < |cfg.services| ==> !(isT(cfg.services[i]) && NamedOrIdentified(cfg.services[i], nameOrId.value)))
    ensures r.Fail? && !IsNullOrEmpty(nameOrId) ==> r.error == Argument
    ensures r.Ok? ==>
      var (after, removed) := r.value;
      && after.version == cfg.version
      && |after.services| == |cfg.services| - 1
      && multiset(after.services) + multiset{removed} == multiset(cfg.services)
      && isT(removed) && NamedOrIdentified(removed, nameOrId.value)
      && exists i :: 0 <= i < |cfg.services| && cfg.services[i] == removed
                     && after.services == cfg.services[..i] + cfg.services[i + 1..]
                     && forall j :: 0 <= j < i ==> !(isT(cfg.services[j]) && NamedOrIdentified(cfg.services[j], nameOrId.value))
  {
    if IsNullOrEmpty(nameOrId) then Fail(ArgumentNull(Some("nameOrId")))
    else
      match FirstWhere(cfg.services, s => isT(s) && NamedOrIdentified(s, nameOrId.value))
      case None => Fail(Argument)
      case Some(i) => Ok((cfg.(services := RemoveAt(cfg.services, i)), cfg.services[i]))
  }

  /** `DisconnectServiceByNameOrId`. */
  function DisconnectServiceByNameOrId(cfg: Config, nameOrId: Option<string>): (r: Result<(Config, Service)>)
    ensures IsNullOrEmpty(nameOrId) ==> r == Fail(ArgumentNull(Some("nameOrId")))
    ensures !IsNullOrEmpty(nameOrId) ==>
      (r.Fail? <==> forall i :: 0 <= i < |cfg.services| ==> !NamedOrIdentified(cfg.services[i], nameOrId.value))
    ensures r.Fail? && !IsNullOrEmpty(nameOrId) ==> r.error == Argument
    ensures r.Ok? ==>
      var (after, removed) := r.value;
      && after.version == cfg.version
      && |after.services| == |cfg.services| - 1
      && multiset(after.services) + multiset{removed} == multiset(cfg.services)
      && NamedOrIdentified(removed, nameOrId.value)
      && FindServiceByNameOrId(cfg, nameOrId) == Ok(Some(removed))
      && exists i :: 0 <= i < |cfg.services| && cfg.services[i] == removed
                     && after.services == cfg.services[..i] + cfg.services[i + 1..]
                     && forall j :: 0 <= j < i ==> !NamedOrIdentified(cfg.services[j], nameOrId.value)
  {
    DisconnectServiceByNameOrIdOf(cfg, AnyService, nameOrId)
  }

  /** `DisconnectService`: remove the first service with the Id, if any. */
  function DisconnectService(cfg: Config, id: Option<string>): (r: Result<Config>)
    ensures IsNullOrEmpty(id) ==> r == Fail(ArgumentNull(Some("id")))
    ensures !IsNullOrEmpty(id) ==> r.Ok? && r.value.version == cfg.version
    ensures r.Ok? && (forall i :: 0 <= i < |cfg.services| ==> cfg.services[i].id != id) ==> r.value == cfg
    ensures r.Ok? && (exists i :: 0 <= i < |cfg.services| && cfg.services[i].id == id) ==>
      exists i :: 0 <= i < |cfg.services| && cfg.services[i].id == id
                  && (forall j :: 0 <= j < i ==> cfg.services[j].id != id)
                  && r.value.services == cfg.services[..i] + cfg.services[i + 1..]
  {
    if IsNullOrEmpty(id) then Fail(ArgumentNull(Some("id")))
    else
      match FirstWhere(cfg.services, (s: Service) => s.id == id)
      case None => Ok(cfg)
      case Some(i) => Ok(cfg.(services := RemoveAt(cfg.services, i)))
  }

  /** Connecting a service under an Id no service has, then disconnecting
      that Id, restores the configuration. */
  lemma ConnectThenDisconnect(cfg: Config, s: Service)
    requires !IsNullOrEmpty(s.id)
    requires forall i :: 0 <= i < |cfg.services| ==> cfg.services[i].id != s.id
    ensures ConnectService(cfg, Some(s)).Ok?
    ensures DisconnectService(ConnectService(cfg, Some(s)).value, s.id) == Ok(cfg)
  {
    var after := ConnectService(cfg, Some(s)).value;
    assert after.services[|cfg.services|] == s;
    assert after.services[..|cfg.services|] + after.services[|cfg.services| + 1..] == cfg.services;
  }

  /** A service connected without an Id is found under the Id it was given. */
  lemma ConnectThenFind(cfg: Config, s: Service)
    requires IsNullOrEmpty(s.id)
    ensures var id := AssignedIdIntended(cfg.services);
      var after := ConnectServiceIntended(cfg, Some(s)).value;
      FindService(after, Some(id)) == Ok(Some(s.(id := Some(id))))
  {
    var id := AssignedIdIntended(cfg.services);
    var after := ConnectServiceIntended(cfg, Some(s)).value;
    assert after.services[|cfg.services|].id == Some(id);
    assert forall j :: 0 <= j < |cfg.services| ==> after.services[j] == cfg.services[j];
  }

  /* --- Dispatch Id pruning in SaveAsAsync --- */

  /** Some service in `services` has the Id `x`. */
  predicate Known(services: seq<Service>, x: Option<string>) {
    exists k :: 0 <= k < |services| && services[k].id == x
  }

  /** `ServiceIds.Where(id => Services.Any(s => s.Id == id))`. */
  function KeepKnown(ids: seq<Option<string>>, services: seq<Service>): (r: seq<Option<string>>)
    ensures forall x :: x in r <==> x in ids && Known(services, x)
    ensures IsSubsequence(r, ids)
    ensures (forall i :: 0 <= i < |ids| ==> Known(services, ids[i])) ==> r == ids
  {
    if |ids| == 0 then []
    else
      var init, last := ids[..|ids| - 1], ids[|ids| - 1];
      var r := KeepKnown(init, services);
      assert ids == init + [last];
      SubsequenceExtend(r, init, last);
      if Known(services, last) then r + [last] else r
  }

  /** `KeepKnown` keeps a known Id as often as the list repeats it. */
  lemma {:induction false} KeepKnownCounts(ids: seq<Option<string>>, services: seq<Service>)
    ensures forall x :: multiset(KeepKnown(ids, services))[x] == if Known(services, x) then multiset(ids)[x] else 0
  {
    if |ids| > 0 {
      var init, last := ids[..|ids| - 1], ids[|ids| - 1];
      KeepKnownCounts(init, services);
      assert ids == init + [last];
      CountsExtend(KeepKnown(init, services), init, last, x => Known(services, x));
    }
  }

  /** `KeepKnownCounts` for every list of Ids at once. */
  lemma KeepKnownCountsAll(services: seq<Service>)
    ensures forall ids, x :: multiset(KeepKnown(ids, services))[x] == if Known(services, x) then multiset(ids)[x] else 0
  {
    forall ids {
      KeepKnownCounts(ids, services);
    }
  }

  /** One service of the pruning loop: a dispatch-typed service must be a
      `DispatchService` with a list of Ids. */
  function PruneOne(all: seq<Service>, s: Service): (r: Result<Service>)
    ensures s.serviceType != Some(DispatchType) ==> r == Ok(s)
    ensures r.Ok? ==> r.value.serviceType == s.serviceType && r.value.id == s.id && r.value.name == s.name
    ensures r.Fail? ==> r.error == InvalidCast || r.error == ArgumentNull(Some("source"))
  {
    if s.serviceType != Some(DispatchType) then Ok(s)
    else if !s.shape.DispatchShape? then Fail(InvalidCast)
    else if s.shape.serviceIds.None? then Fail(ArgumentNull(Some("source")))
    else Ok(s.(shape := DispatchShape(Some(KeepKnown(s.shape.serviceIds.value, all)))))
  }

  /** The pruning loop over `s`, looking Ids up in `all`; it stops at the first
      exception with the earlier services already pruned. */
  function PruneList(all: seq<Service>, s: seq<Service>): (r: Step<seq<Service>>)
    ensures |r.state| == |s|
    ensures r.error.None? <==> forall i :: 0 <= i < |s| ==> PruneOne(all, s[i]).Ok?
    ensures forall i :: 0 <= i < |s| ==> r.state[i].id == s[i].id && r.state[i].serviceType == s[i].serviceType
  {
    if |s| == 0 then Step([], None)
    else
      var init, last := s[..|s| - 1], s[|s| - 1];
      var prev := PruneList(all, init);
      assert forall i :: 0 <= i < |init| ==> init[i] == s[i];
      if prev.error.Some? then Step(prev.state + [last], prev.error)
      else
        match PruneOne(all, last)
        case Fail(e) => Step(prev.state + [last], Some(e))
        case Ok(t) => Step(prev.state + [t], None)
  }

  /** Up to the first failure, each service is stored as `PruneOne` made it. */
  lemma {:induction false} PruneListStored(all: seq<Service>, s: seq<Service>)
    ensures var r := PruneList(all, s);
      forall i :: 0 <= i < |s| && (forall j :: 0 <= j <= i ==> PruneOne(all, s[j]).Ok?) ==>
        r.state[i] == PruneOne(all, s[i]).value
  {
    if |s| > 0 {
      var init := s[..|s| - 1];
      PruneListStored(all, init);
      assert forall i :: 0 <= i < |init| ==> init[i] == s[i];
    }
  }

  /** From the first failing service on, the services are left as they were. */
  lemma {:induction false} PruneListStops(all: seq<Service>, s: seq<Service>)
    ensures var r := PruneList(all, s);
      forall i :: 0 <= i < |s| && PruneOne(all, s[i]).Fail? ==> forall j :: i <= j < |s| ==> r.state[j] == s[j]
  {
    if |s| > 0 {
      var init := s[..|s| - 1];
      PruneListStops(all, init);
      assert forall i :: 0 <= i < |init| ==> init[i] == s[i];
    }
  }

  /** The dispatch pruning step of `SaveAsAsync`: afterwards every dispatch
      service lists exactly the Ids, in their order, that name a service. */
  function PruneDispatchIds(cfg: Config): (r: Step<Config>)
    ensures r.state.version == cfg.version
    ensures |r.state.services| == |cfg.services|
    ensures r.error.None? <==> forall i :: 0 <= i < |cfg.services| && cfg.services[i].serviceType == Some(DispatchType) ==>
      cfg.services[i].shape.DispatchShape? && cfg.services[i].shape.serviceIds.Some?
    ensures r.error.None? ==> forall i :: 0 <= i < |cfg.services| && cfg.services[i].serviceType == Some(DispatchType) ==>
      && r.state.services[i].shape.DispatchShape?
      && r.state.services[i].shape.serviceIds.Some?
      && IsSubsequence(r.state.services[i].shape.serviceIds.value, cfg.services[i].shape.serviceIds.value)
      && (forall x :: x in r.state.services[i].shape.serviceIds.value <==>
                        x in cfg.services[i].shape.serviceIds.value && Known(cfg.services, x))
      && forall x :: multiset(r.state.services[i].shape.serviceIds.value)[x] ==
                       if Known(cfg.services, x) then multiset(cfg.services[i].shape.serviceIds.value)[x] else 0
    ensures r.error.None? ==> forall i :: 0 <= i < |cfg.services| && cfg.services[i].serviceType != Some(DispatchType) ==>
      r.state.services[i] == cfg.services[i]
  {
    var p := PruneList(cfg.services, cfg.services);
    PruneListStored(cfg.services, cfg.services);
    KeepKnownCountsAll(cfg.services);
    Step(cfg.(services := p.state), p.error)
  }

  /** Pruning changes no Id, so a pruned list has nothing left to prune. */
  lemma PruneIdempotent(cfg: Config)
    requires PruneDispatchIds(cfg).error.None?
    ensures var once := PruneDispatchIds(cfg).state;
      PruneDispatchIds(once) == Step(once, None)
  {
    var once := PruneDispatchIds(cfg).state;
    var s, t := cfg.services, once.services;
    SameIdsKnown(s, t);
    forall i | 0 <= i < |t|
      ensures PruneOne(t, t[i]) == Ok(t[i])
    {
      PrunedIsFixed(cfg, i);
    }
    PruneListFixed(t, t);
  }

  /** Lists with the same Ids position by position know the same Ids. */
  lemma SameIdsKnown(s: seq<Service>, t: seq<Service>)
    requires |s| == |t| && forall i :: 0 <= i < |s| ==> t[i].id == s[i].id
    ensures forall x :: Known(t, x) <==> Known(s, x)
  {
    forall x
      ensures Known(t, x) <==> Known(s, x)
    {
      if Known(s, x) {
        var k :| 0 <= k < |s| && s[k].id == x;
        assert t[k].id == x;
      }
      if Known(t, x) {
        var k :| 0 <= k < |t| && t[k].id == x;
        assert s[k].id == x;
      }
    }
  }

  /** A pruned service keeps only known Ids, so pruning it again against
      the pruned list changes nothing. */
  lemma PrunedIsFixed(cfg: Config, i: nat)
    requires PruneDispatchIds(cfg).error.None?
    requires i < |cfg.services|
    requires var t := PruneDispatchIds(cfg).state.services;
      forall x :: Known(t, x) <==> Known(cfg.services, x)
    ensures var t := PruneDispatchIds(cfg).state.services;
      PruneOne(t, t[i]) == Ok(t[i])
  {
    var t := PruneDispatchIds(cfg).state.services;
    if t[i].serviceType == Some(DispatchType) {
      KeepKnownFixed(t[i].shape.serviceIds.value, t);
    }
  }

  /** Ids that all name a service are kept as they are. */
  lemma KeepKnownFixed(ids: seq<Option<string>>, services: seq<Service>)
    requires forall x :: x in ids ==> Known(services, x)
    ensures KeepKnown(ids, services) == ids
  {
    assert forall k :: 0 <= k < |ids| ==> ids[k] in ids;
  }

  /** The loop over services that pruning leaves as they are succeeds and
      changes nothing. */
  lemma PruneListFixed(all: seq<Service>, s: seq<Service>)
    requires forall i :: 0 <= i < |s| ==> PruneOne(all, s[i]) == Ok(s[i])
    ensures PruneList(all, s) == Step(s, None)
  {
    var r := PruneList(all, s);
    PruneListStored(all, s);
    assert r.state == s;
  }

  /* --- MigrateData --- */

  /** The AppId lookup reads past `s`: it is not endpoint-typed, or it is an
      `EndpointService` whose AppId is null or empty. */
  predicate PassedOver(s: Service) {
    s.serviceType == Some(EndpointType) ==> s.shape.EndpointShape? && IsNullOrEmpty(s.shape.appId)
  }

  /** The AppId the migration copies: scanning the endpoint-typed services in
      order (each must be an `EndpointService`), the first non-empty AppId. */
  function EndpointAppId(services: seq<Service>): (r: Result<Option<string>>)
    ensures r.Fail? ==> r.error == InvalidCast
    ensures r.Fail? <==>
      exists i :: 0 <= i < |services| && services[i].serviceType == Some(EndpointType)
                  && !services[i].shape.EndpointShape?
                  && forall k :: 0 <= k < i ==> PassedOver(services[k])
    ensures r.Ok? && r.value.Some? ==>
      && |r.value.value| > 0
      && exists i :: 0 <= i < |services| && services[i].serviceType == Some(EndpointType)
                     && services[i].shape == EndpointShape(r.value)
                     && forall k :: 0 <= k < i ==> PassedOver(services[k])
    ensures r.Ok? && r.value.None? <==> forall i :: 0 <= i < |services| ==> PassedOver(services[i])
  {
    if |services| == 0 then Ok(None)
    else
      var s := services[0];
      var rest := EndpointAppId(services[1..]);
      assert forall i :: 1 <= i < |services| ==> services[1..][i - 1] == services[i];
      if s.serviceType != Some(EndpointType) then rest
      else if !s.shape.EndpointShape? then Fail(InvalidCast)
      else if !IsNullOrEmpty(s.shape.appId) then Ok(s.shape.appId)
      else rest
  }

  /** Services that agree on every endpoint-typed entry agree on the AppId. */
  lemma {:induction false} EndpointAppIdFrame(a: seq<Service>, b: seq<Service>)
    requires |a| == |b|
    requires forall i :: 0 <= i < |a| ==> a[i].serviceType == b[i].serviceType
    requires forall i :: 0 <= i < |a| && a[i].serviceType == Some(EndpointType) ==> a[i] == b[i]
    ensures EndpointAppId(a) == EndpointAppId(b)
  {
    if |a| > 0 {
      EndpointAppIdFrame(a[1..], b[1..]);
    }
  }

  /** The bot service's AppId needs filling in. */
  predicate NeedsAppId(s: Service) {
    s.serviceType == Some(BotType) && s.shape.BotShape? && IsNullOrEmpty(s.shape.appId)
  }

  /** The migration succeeds on service `j`: a bot-typed service is a
      `BotService`, and the AppId lookup it may need does not throw. */
  predicate Migratable(services: seq<Service>, j: nat)
    requires j < |services|
  {
    services[j].serviceType == Some(BotType) ==>
      services[j].shape.BotShape? && (NeedsAppId(services[j]) ==> EndpointAppId(services).Ok?)
  }

  /** Service `j` after its migration. */
  function Migrated(services: seq<Service>, j: nat): Service
    requires j < |services|
    requires Migratable(services, j)
  {
    if NeedsAppId(services[j]) then services[j].(shape := BotShape(EndpointAppId(services).value))
    else services[j]
  }

  /** The migration loop from service `i` on, each AppId lookup reading the
      list as it stands. */
  function MigrateFrom(services: seq<Service>, i: nat): (r: Step<seq<Service>>)
    requires i <= |services|
    ensures |r.state| == |services|
    ensures forall j :: 0 <= j < |services| ==> r.state[j].serviceType == services[j].serviceType
    ensures forall j :: 0 <= j < |services| && services[j].serviceType != Some(BotType) ==> r.state[j] == services[j]
    ensures forall j :: 0 <= j < i ==> r.state[j] == services[j]
    ensures r.error.Some? ==> r.error == Some(InvalidCast)
    ensures r.error.None? <==> forall j :: i <= j < |services| ==> Migratable(services, j)
    ensures r.error.None? ==> forall j :: i <= j < |services| ==> r.state[j] == Migrated(services, j)
    decreases |services| - i
  {
    if i == |services| then Step(services, None)
    else
      var s := services[i];
      if s.serviceType != Some(BotType) then
        MigrateFrom(services, i + 1)
      else if !s.shape.BotShape? then
        assert !Migratable(services, i);
        Step(services, Some(InvalidCast))
      else if !IsNullOrEmpty(s.shape.appId) then
        MigrateFrom(services, i + 1)
      else
        match EndpointAppId(services)
        case Fail(e) =>
          assert !Migratable(services, i);
          Step(services, Some(e))
        case Ok(appId) =>
          var next := services[i := s.(shape := BotShape(appId))];
          EndpointAppIdFrame(services, next);
          MigratableFrame(services, next, i);
          MigrateFrom(next, i + 1)
  }

  /** Filling in one bot service's AppId changes neither the verdict nor the
      result of the migration of the services after it. */
  lemma MigratableFrame(services: seq<Service>, next: seq<Service>, i: nat)
    requires i < |services| == |next|
    requires forall j :: 0 <= j < |services| && j != i ==> next[j] == services[j]
    requires EndpointAppId(next) == EndpointAppId(services)
    ensures forall j :: i < j < |services| ==> (Migratable(next, j) <==> Migratable(services, j))
    ensures forall j :: i < j < |services| && Migratable(services, j) ==> Migrated(next, j) == Migrated(services, j)
  {
  }

  /** The service loop and the version bump that end `MigrateData`. */
  function MigrateServices(cfg: Config): (r: Step<Config>)
    ensures |r.state.services| == |cfg.services|
    ensures r.state.padlock == cfg.padlock && r.state.properties == cfg.properties
    ensures r.error.Some? ==> r.error == Some(InvalidCast) && r.state.version == cfg.version
    ensures r.error.None? <==> forall j :: 0 <= j < |cfg.services| ==> Migratable(cfg.services, j)
    ensures r.error.None? ==> r.state.version == Some(MigratedVersion)
    ensures r.error.None? ==> forall j :: 0 <= j < |cfg.services| ==> r.state.services[j] == Migrated(cfg.services, j)
  {
    var m := MigrateFrom(cfg.services, 0);
    if m.error.Some? then Step(cfg.(services := m.state), m.error)
    else Step(cfg.(services := m.state, version := Some(MigratedVersion)), None)
  }

  /** The configuration after a string secret key `k` has moved: the padlock
      takes it unless one is already set, and the property is removed. */
  function SecretMoved(cfg: Config, k: string): Config {
    cfg.(padlock := if cfg.padlock.None? then Some(k) else cfg.padlock,
         properties := cfg.properties - {SecretKey})
  }

  /** The old secret key step of `MigrateData` as written: the dictionary
      indexer throws `KeyNotFoundException` when there is no "secretKey"
      property, and `GetString` throws when its value is neither a string nor
      null. */
  function MigrateSecretKey(cfg: Config): (r: Result<Config>)
    ensures r.Fail? <==> SecretKey !in cfg.properties || cfg.properties[SecretKey].JOther?
    ensures r.Fail? ==> r.error == if SecretKey in cfg.properties then InvalidOperation else KeyNotFound
    ensures r.Ok? ==> r.value.services == cfg.services && r.value.version == cfg.version
    ensures r.Ok? ==> SecretKey in r.value.properties ==> r.value.properties[SecretKey] == JNull
    ensures r.Ok? ==> r.value == cfg || exists k :: cfg.properties[SecretKey] == JString(k) && r.value == SecretMoved(cfg, k)
  {
    if SecretKey !in cfg.properties then Fail(KeyNotFound)
    else match cfg.properties[SecretKey]
      case JString(k) => Ok(SecretMoved(cfg, k))
      case JNull => Ok(cfg)
      case JOther => Fail(InvalidOperation)
  }

  /** The secret key step as evidently intended: a configuration without the
      old property has nothing to migrate. */
  function MigrateSecretKeyIntended(cfg: Config): (r: Result<Config>)
    ensures r.Fail? <==> SecretKey in cfg.properties && cfg.properties[SecretKey].JOther?
    ensures r.Fail? ==> r.error == InvalidOperation
    ensures SecretKey !in cfg.properties ==> r == Ok(cfg)
    ensures SecretKey in cfg.properties ==> r == MigrateSecretKey(cfg)
  {
    if SecretKey !in cfg.properties then Ok(cfg) else MigrateSecretKey(cfg)
  }

  /** `MigrateData` as written: the secret key step, then the service loop and
      the version bump. A throwing secret key step leaves the configuration as
      it was. */
  function MigrateData(cfg: Config): (r: Step<Config>)
    ensures |r.state.services| == |cfg.services|
    ensures MigrateSecretKey(cfg).Fail? ==> r == Step(cfg, Some(MigrateSecretKey(cfg).error))
    ensures r.error.Some? ==> r.error.value in {KeyNotFound, InvalidOperation, InvalidCast} && r.state.version == cfg.version
    ensures r.error.None? <==>
      MigrateSecretKey(cfg).Ok? && forall j :: 0 <= j < |cfg.services| ==> Migratable(cfg.services, j)
    ensures r.error.None? ==> r.state.version == Some(MigratedVersion)
    ensures r.error.None? ==> forall j :: 0 <= j < |cfg.services| ==> r.state.services[j] == Migrated(cfg.services, j)
  {
    match MigrateSecretKey(cfg)
    case Fail(e) => Step(cfg, Some(e))
    case Ok(moved) => MigrateServices(moved)
  }

  /** `MigrateData` with the secret key step as intended. */
  function MigrateDataIntended(cfg: Config): (r: Step<Config>)
    ensures |r.state.services| == |cfg.services|
    ensures r.error.Some? ==> r.error.value in {InvalidOperation, InvalidCast} && r.state.version == cfg.version
    ensures r.error.None? <==>
      MigrateSecretKeyIntended(cfg).Ok? && forall j :: 0 <= j < |cfg.services| ==> Migratable(cfg.services, j)
    ensures r.error.None? ==> r.state.version == Some(MigratedVersion)
    ensures r.error.None? ==> forall j :: 0 <= j < |cfg.services| ==> r.state.services[j] == Migrated(cfg.services, j)
    ensures SecretKey in cfg.properties ==> r == MigrateData(cfg)
  {
    match MigrateSecretKeyIntended(cfg)
    case Fail(e) => Step(cfg, Some(e))
    case Ok(moved) => MigrateServices(moved)
  }

  /** A configuration with a string secret key migrates, but the migrated
      configuration, which no longer holds the property, cannot be migrated
      again: loading what was saved after a load throws. */
  lemma MigrateDataNotRepeatable(cfg: Config, k: string)
    requires SecretKey in cfg.properties && cfg.properties[SecretKey] == JString(k)
    requires forall j :: 0 <= j < |cfg.services| ==> Migratable(cfg.services, j)
    ensures MigrateData(cfg).error.None?
    ensures MigrateData(cfg).state.padlock.Some?
    ensures MigrateData(MigrateData(cfg).state).error == Some(KeyNotFound)
  {
  }

  /** Every bot service without an AppId receives the first non-empty
      endpoint AppId, or stays without one when there is none. */
  lemma MigrationFillsAppIds(cfg: Config, j: nat)
    requires MigrateDataIntended(cfg).error.None? && j < |cfg.services|
    requires NeedsAppId(cfg.services[j])
    ensures var appId := MigrateDataIntended(cfg).state.services[j].shape.appId;
      && MigrateDataIntended(cfg).state.services[j].shape.BotShape?
      && (appId.Some? ==> |appId.value| > 0)
      && (appId.Some? ==> exists i :: 0 <= i < |cfg.services| && cfg.services[i].serviceType == Some(EndpointType)
                                      && cfg.services[i].shape == EndpointShape(appId)
                                      && forall k :: 0 <= k < i ==> PassedOver(cfg.services[k]))
      && (appId.None? <==> forall i :: 0 <= i < |cfg.services| ==> PassedOver(cfg.services[i]))
  {
    assert Migratable(cfg.services, j);
  }

  /** Migrating a migrated configuration changes nothing. */
  lemma MigrateIdempotent(cfg: Config)
    requires MigrateDataIntended(cfg).error.None?
    ensures MigrateDataIntended(MigrateDataIntended(cfg).state) == MigrateDataIntended(cfg)
  {
    var s := cfg.services;
    var once := MigrateDataIntended(cfg).state;
    var t := once.services;
    forall j | 0 <= j < |s|
      ensures t[j].serviceType == s[j].serviceType
      ensures s[j].serviceType != Some(BotType) ==> t[j] == s[j]
    {
      assert Migratable(s, j);
    }
    EndpointAppIdFrame(s, t);
    forall j | 0 <= j < |t|
      ensures Migratable(t, j) && Migrated(t, j) == t[j]
    {
      assert Migratable(s, j);
    }
    assert MigrateSecretKeyIntended(once) == Ok(once);
    var again := MigrateDataIntended(once);
    assert again.state.services == t;
  }
}

=== FILE: file_transcript_logger.dfy ===
/** The file-backed transcript logger (libraries/Microsoft.Bot.Builder/FileTranscriptLogger.cs):
    one `.transcript` file per conversation, holding a JSON array of
    activities. The file system is a map from path to text, JSON
    serialisation is an opaque `Codec`, and the platform's separator and
    invalid-character sets are parameters. */
module FileTranscriptLogger {
  import opened Wrappers
  import opened Sequences
  import opened Activities
  import opened Paging

  /** The platform facts `Path` relies on. */
  datatype Platform = Platform(
    separator: char,
    altSeparator: char,
    invalidFileNameChars: seq<char>,
    invalidPathChars: seq<char>)

  /** JSON serialisation of one activity and of an array, and deserialisation
      of an array (`None` when the text is not a valid array). */
  datatype Codec = Codec(
    ser: Activity -> string,
    serArray: seq<Activity> -> string,
    parse: string -> Option<seq<Activity>>)

  /** The logger's fixed configuration: its (normalised) folder and mode. */
  datatype Logger = Logger(folder: string, unitTestMode: bool, platform: Platform, codec: Codec)

  /** The mutable state: file contents by path, and the paths `_started`. */
  datatype Disk = Disk(files: map<string, string>, started: set<string>)

  const Extension: string := ".transcript"

  /** The file name characters can never form a separator, and the extension
      holds none: true of the Windows and Unix character sets. */
  predicate WellFormed(p: Platform) {
    && p.separator in p.invalidFileNameChars
    && p.altSeparator in p.invalidFileNameChars
    && p.separator !in Extension
    && p.altSeparator !in Extension
  }

  /* --- SanitizeString --- */

  /** `s` with every character of `bad` removed, in one pass. */
  function Filter(s: string, bad: seq<char>): (r: string)
    ensures forall i :: 0 <= i < |r| ==> r[i] !in bad
    ensures forall c :: c in r <==> c in s && c !in bad
    ensures IsSubsequence(r, s)
    ensures |r| <= |s|
  {
    if |s| == 0 then []
    else
      var init := s[..|s| - 1];
      var last := s[|s| - 1];
      var r := Filter(init, bad);
      assert s == init + [last];
      SubsequenceExtend(r, init, last);
      if last in bad then r else r + [last]
  }

  /** `SanitizeString`: one `StringBuilder.Replace(c, "")` per invalid
      character, in the order the platform lists them. It removes exactly the
      invalid characters, as a single filter would. */
  function Sanitize(s: string, bad: seq<char>): (r: string)
    ensures r == Filter(s, bad)
    decreases |bad|
  {
    if |bad| == 0 then
      FilterNothing(s, bad);
      s
    else
      var r := Sanitize(Filter(s, [bad[0]]), bad[1..]);
      FilterCompose(s, [bad[0]], bad[1..]);
      assert [bad[0]] + bad[1..] == bad;
      r
  }

  /** `Filter` keeps every valid character as often as the text holds it. */
  lemma {:induction false} FilterCounts(s: string, bad: seq<char>)
    ensures forall c :: multiset(Filter(s, bad))[c] == if c in bad then 0 else multiset(s)[c]
  {
    if |s| > 0 {
      var init, last := s[..|s| - 1], s[|s| - 1];
      FilterCounts(init, bad);
      assert s == init + [last];
      CountsExtend(Filter(init, bad), init, last, c => c !in bad);
    }
  }

  /** Filtering a text that holds no bad character changes nothing. */
  lemma {:induction false} FilterNothing(s: string, bad: seq<char>)
    requires forall i :: 0 <= i < |s| ==> s[i] !in bad
    ensures Filter(s, bad) == s
  {
    if |s| > 0 {
      FilterNothing(s[..|s| - 1], bad);
    }
  }

  /** Removing the characters of `a`, then those of `b`, removes those of `a + b`. */
  lemma {:induction false} FilterCompose(s: string, a: seq<char>, b: seq<char>)
    ensures Filter(Filter(s, a), b) == Filter(s, a + b)
  {
    if |s| > 0 {
      var init, last := s[..|s| - 1], s[|s| - 1];
      FilterCompose(init, a, b);
      if last !in a {
        var fa := Filter(init, a);
        assert (fa + [last])[..|fa + [last]| - 1] == fa;
      }
    }
  }

  /** Sanitizing twice is sanitizing once. */
  lemma SanitizeIdempotent(s: string, bad: seq<char>)
    ensures Sanitize(Sanitize(s, bad), bad) == Sanitize(s, bad)
  {
    FilterNothing(Filter(s, bad), bad);
  }

  /** Sanitizing keeps exactly the valid characters, in order. */
  lemma SanitizeKeepsValid(s: string, bad: seq<char>)
    ensures forall i :: 0 <= i < |Sanitize(s, bad)| ==> Sanitize(s, bad)[i] !in bad
    ensures forall c :: c in Sanitize(s, bad) <==> c in s && c !in bad
    ensures forall c :: multiset(Sanitize(s, bad))[c] == if c in bad then 0 else multiset(s)[c]
    ensures IsSubsequence(Sanitize(s, bad), s)
  {
    FilterCounts(s, bad);
  }

  /* --- Paths --- */

  predicate IsSeparator(p: Platform, c: char) {
    c == p.separator || c == p.altSeparator
  }

  /** `Path.IsPathRooted`, for roots that start with a separator. */
  predicate IsRooted(p: Platform, s: string) {
    |s| > 0 && IsSeparator(p, s[0])
  }

  /** `Path.Combine(a, b)`. */
  function Combine(p: Platform, a: string, b: string): (r: string)
    ensures |b| == 0 ==> r == a
    ensures IsRooted(p, b) || |a| == 0 ==> r == b
    ensures |b| > 0 && !IsRooted(p, b) && |a| > 0 ==>
      && |a| + |b| <= |r| <= |a| + |b| + 1
      && r[..|a|] == a && r[|r| - |b|..] == b
  {
    if |b| == 0 then a
    else if |a| == 0 || IsRooted(p, b) then b
    else if IsSeparator(p, a[|a| - 1]) then a + b
    else a + [p.separator] + b
  }

  /** `Path.GetFileName`: the text after the last separator. */
  function FileNameOf(p: Platform, path: string): (r: string)
    ensures forall i :: 0 <= i < |r| ==> !IsSeparator(p, r[i])
  {
    if |path| == 0 || IsSeparator(p, path[|path| - 1]) then []
    else FileNameOf(p, path[..|path| - 1]) + [path[|path| - 1]]
  }

  /** The name of the transcript file of a conversation. */
  function TranscriptName(p: Platform, conversationId: string): string {
    Sanitize(conversationId, p.invalidFileNameChars) + Extension
  }

  /** `GetChannelFolder` (without creating the directory). */
  function ChannelFolder(cfg: Logger, channelId: string): string {
    Combine(cfg.platform, cfg.folder, Sanitize(channelId, cfg.platform.invalidPathChars))
  }

  /** `GetTranscriptFile`. A null channel Id throws an `ArgumentNullException`
      whose parameter name is that null value. */
  function TranscriptFile(cfg: Logger, channelId: Option<string>, conversationId: Option<string>): (r: Result<string>)
    ensures channelId.None? ==> r == Fail(ArgumentNull(None))
    ensures channelId.Some? && conversationId.None? ==> r == Fail(ArgumentNull(Some("conversationId")))
    ensures r.Ok? <==> channelId.Some? && conversationId.Some?
    ensures r.Ok? ==>
      r.value == Combine(cfg.platform, ChannelFolder(cfg, channelId.value), TranscriptName(cfg.platform, conversationId.value))
    ensures r.Ok? && WellFormed(cfg.platform) ==>
      FileNameOf(cfg.platform, r.value) == TranscriptName(cfg.platform, conversationId.value)
  {
    if channelId.None? then Fail(ArgumentNull(None))
    else if conversationId.None? then Fail(ArgumentNull(Some("conversationId")))
    else
      var dir := ChannelFolder(cfg, channelId.value);
      var name := TranscriptName(cfg.platform, conversationId.value);
      var path := Combine(cfg.platform, dir, name);
      TranscriptNameIsPlain(cfg.platform, conversationId.value);
      CombinedFileName(cfg.platform, dir, name);
      Ok(path)
  }

  /** On a well-formed platform a transcript name is a non-empty name
      without separators, so it never resets the path. */
  lemma TranscriptNameIsPlain(p: Platform, conversationId: string)
    ensures WellFormed(p) ==> PlainName(p, TranscriptName(p, conversationId))
    ensures |TranscriptName(p, conversationId)| > 0
  {
    var s := Sanitize(conversationId, p.invalidFileNameChars);
    var name := s + Extension;
    if WellFormed(p) {
      forall i | 0 <= i < |name|
        ensures !IsSeparator(p, name[i])
      {
        if i >= |s| {
          assert name[i] == Extension[i - |s|];
        }
      }
    }
  }

  /** A name without separators. */
  predicate PlainName(p: Platform, name: string) {
    forall i :: 0 <= i < |name| ==> !IsSeparator(p, name[i])
  }

  /** Combining a directory with a non-empty plain name gives a path whose
      file name is that name. */
  lemma CombinedFileName(p: Platform, dir: string, name: string)
    requires |name| > 0
    ensures PlainName(p, name) ==> FileNameOf(p, Combine(p, dir, name)) == name
  {
    if PlainName(p, name) {
      if |dir| == 0 {
        FileNameAfter(p, [], name);
        assert [] + name == name;
      } else if IsSeparator(p, dir[|dir| - 1]) {
        FileNameAfter(p, dir, name);
      } else {
        FileNameAfter(p, dir + [p.separator], name);
        assert Combine(p, dir, name) == (dir + [p.separator]) + name;
      }
    }
  }

  /** A separator-free name after a directory prefix is the path's file name. */
  lemma {:induction false} FileNameAfter(p: Platform, dir: string, name: string)
    requires |dir| == 0 || IsSeparator(p, dir[|dir| - 1])
    requires PlainName(p, name)
    ensures FileNameOf(p, dir + name) == name
    decreases |name|
  {
    if |name| == 0 {
      assert dir + name == dir;
    } else {
      var init := name[..|name| - 1];
      FileNameAfter(p, dir, init);
      assert (dir + name)[..|dir + name| - 1] == dir + init;
    }
  }

  /** Conversation Ids that differ only in invalid file-name characters share
      one transcript file. */
  lemma SanitizedIdsCollide(cfg: Logger, channelId: string, a: string, b: string)
    requires Filter(a, cfg.platform.invalidFileNameChars) == Filter(b, cfg.platform.invalidFileNameChars)
    ensures TranscriptFile(cfg, Some(channelId), Some(a)) == TranscriptFile(cfg, Some(channelId), Some(b))
  {
  }

  /** On a well-formed platform two conversations of a channel share a file
      exactly when their Ids agree once sanitized. */
  lemma SameFileIffSameSanitizedId(cfg: Logger, channelId: string, a: string, b: string)
    requires WellFormed(cfg.platform)
    ensures TranscriptFile(cfg, Some(channelId), Some(a)) == TranscriptFile(cfg, Some(channelId), Some(b))
            <==> Filter(a, cfg.platform.invalidFileNameChars) == Filter(b, cfg.platform.invalidFileNameChars)
  {
    var bad := cfg.platform.invalidFileNameChars;
    var x, y := Sanitize(a, bad), Sanitize(b, bad);
    if TranscriptFile(cfg, Some(channelId), Some(a)) == TranscriptFile(cfg, Some(channelId), Some(b)) {
      assert x + Extension == y + Extension;
      assert x == (x + Extension)[..|x|];
      assert y == (y + Extension)[..|y|];
    }
  }

  /** A transcript whose sanitized channel Id is not rooted lies inside the
      logger's folder, directly under the channel's folder. */
  lemma TranscriptInChannelFolder(cfg: Logger, channelId: string, conversationId: string)
    requires WellFormed(cfg.platform)
    requires !IsRooted(cfg.platform, Sanitize(channelId, cfg.platform.invalidPathChars))
    ensures var path := TranscriptFile(cfg, Some(channelId), Some(conversationId)).value;
      var folder := ChannelFolder(cfg, channelId);
      && path[..|cfg.folder|] == cfg.folder
      && path[..|folder|] == folder
      && path[|path| - |TranscriptName(cfg.platform, conversationId)|..] == TranscriptName(cfg.platform, conversationId)
  {
    var p := cfg.platform;
    var name := TranscriptName(p, conversationId);
    var folder := ChannelFolder(cfg, channelId);
    var path := Combine(p, folder, name);
    TranscriptNameIsPlain(p, conversationId);
    assert !IsRooted(p, name) by {
      assert !IsSeparator(p, name[0]);
    }
    CombineKeepsPrefix(p, cfg.folder, Sanitize(channelId, p.invalidPathChars));
    CombineKeepsPrefix(p, folder, name);
    PrefixOfPrefix(cfg.folder, folder, path);
  }

  /** Combining with a relative part keeps the first part as a prefix and
      the second as a suffix. */
  lemma CombineKeepsPrefix(p: Platform, a: string, b: string)
    requires !IsRooted(p, b)
    ensures var r := Combine(p, a, b);
      |a| <= |r| && r[..|a|] == a && (|b| > 0 ==> |b| <= |r| && r[|r| - |b|..] == b)
  {
  }

  /** A prefix of a prefix is a prefix. */
  lemma PrefixOfPrefix(a: string, b: string, c: string)
    requires |a| <= |b| <= |c| && b[..|a|] == a && c[..|b|] == b
    ensures c[..|a|] == a
  {
    assert c[..|a|] == c[..|b|][..|a|];
  }

  /** A channel Id that is still rooted after sanitizing replaces the
      configured folder instead of naming a folder inside it. */
  lemma RootedChannelLeavesFolder(cfg: Logger, channelId: string)
    requires IsRooted(cfg.platform, Sanitize(channelId, cfg.platform.invalidPathChars))
    ensures ChannelFolder(cfg, channelId) == Sanitize(channelId, cfg.platform.invalidPathChars)
  {
  }

  /* --- File text --- */

  /** The text a first write puts down: a one-element JSON array. */
  function InitialContent(codec: Codec, a: Activity): string {
    "[" + codec.ser(a) + "]"
  }

  /** `File.OpenWrite` followed by a write of `text`: the file is not
      truncated, so a shorter text leaves the old tail in place. */
  function OverwriteText(previous: string, text: string): (r: string)
    ensures |r| == if |text| >= |previous| then |text| else |previous|
    ensures r[..|text|] == text
    ensures |text| < |previous| ==> r[|text|..] == previous[|text|..]
  {
    if |text| >= |previous| then text else text + previous[|text|..]
  }

  /** The written file holds exactly the new text if and only if the new text
      is at least as long as the old one. */
  lemma OverwriteIsExact(previous: string, text: string)
    ensures OverwriteText(previous, text) == text <==> |text| >= |previous|
  {
    if |text| < |previous| {
      assert |OverwriteText(previous, text)| != |text|;
    }
  }

  /** The private `LogActivityAsync`: seek one character back from the end of a
      non-empty file, then write `",\n" + ser(a) + "]"`. */
  function AppendSplice(content: string, item: string): (r: string)
    ensures |r| == (if |content| > 0 then |content| - 1 else 0) + 3 + |item|
    ensures |content| > 0 ==> r[..|content| - 1] == content[..|content| - 1]
    ensures r[|r| - 1] == ']'
  {
    (if |content| > 0 then content[..|content| - 1] else "") + ",\n" + item + "]"
  }

  /** Splicing into a JSON array text adds one element at its end. */
  lemma AppendSpliceExtendsArray(body: string, item: string)
    ensures AppendSplice("[" + body + "]", item) == "[" + body + ",\n" + item + "]"
  {
    var c := "[" + body + "]";
    assert c[..|c| - 1] == "[" + body;
  }

  /** The elements' texts joined with `",\n"`. */
  function Join(codec: Codec, xs: seq<Activity>): string {
    if |xs| == 0 then ""
    else if |xs| == 1 then codec.ser(xs[0])
    else Join(codec, xs[..|xs| - 1]) + ",\n" + codec.ser(xs[|xs| - 1])
  }

  /** The text a transcript of `xs` has when it was written element by element. */
  function ArrayText(codec: Codec, xs: seq<Activity>): string {
    "[" + Join(codec, xs) + "]"
  }

  function Content(disk: Disk, path: string): string {
    if path in disk.files then disk.files[path] else ""
  }

  /* --- LogActivityAsync --- */

  /** The first-write branch is taken when the file is missing, or in unit-test
      mode when this logger has not written the path yet. */
  predicate StartsFresh(cfg: Logger, disk: Disk, path: string) {
    (cfg.unitTestMode && path !in disk.started) || path !in disk.files
  }

  /** One pass of the retry loop's body. `fault` says whether the file system
      throws at the attempt's first file operation. The delete and update
      branches load the array and, when an entry matches, rewrite the whole
      array; the others splice the activity onto the end. */
  function Attempt(cfg: Logger, disk: Disk, a: Activity, path: string, fault: bool): (r: Step<Disk>)
    ensures r.error.Some? ==> r.state.files == disk.files
    ensures r.state.started == if StartsFresh(cfg, disk, path) then disk.started + {path} else disk.started
    ensures forall q :: q != path ==> (q in r.state.files <==> q in disk.files)
    ensures forall q :: q in disk.files && q != path ==> r.state.files[q] == disk.files[q]
    ensures r.error.None? ==> path in r.state.files
    ensures fault ==> r.error.Some?
  {
    if StartsFresh(cfg, disk, path) then
      var started := disk.started + {path};
      if fault then Step(disk.(started := started), Some(Io))
      else
        var text := OverwriteText(Content(disk, path), InitialContent(cfg.codec, a));
        Step(Disk(disk.files[path := text], started), None)
    else if fault then Step(disk, Some(Io))
    else if a.activityType == Some(MessageDelete) || a.activityType == Some(MessageUpdate) then
      match cfg.codec.parse(disk.files[path])
      case None => Step(disk, Some(Json))
      case Some(log) =>
        var rewritten := if a.activityType == Some(MessageDelete) then ApplyDelete(log, a.id) else Ok(ApplyUpdate(log, a));
        if rewritten.Fail? then Step(disk, Some(rewritten.error))
        else if FirstIndexOfId(log, a.id).None? then Step(disk, None)
        else
          var text := OverwriteText(disk.files[path], cfg.codec.serArray(rewritten.value));
          Step(disk.(files := disk.files[path := text]), None)
    else
      Step(disk.(files := disk.files[path := AppendSplice(disk.files[path], cfg.codec.ser(a))]), None)
  }

  /** What the retry loop leaves: the disk, how many attempts ran, and whether
      one of them returned. */
  datatype Outcome = Outcome(disk: Disk, attempts: nat, logged: bool)

  const MaxAttempts: nat := 3

  function Faulty(faults: seq<bool>, i: nat): bool {
    i < |faults| && faults[i]
  }

  /** The `for (i = 0; i < 3; i++)` loop from attempt `i` on: a thrown
      exception is swallowed and the next attempt runs on whatever state the
      failed one left. */
  function Retry(cfg: Logger, disk: Disk, a: Activity, path: string, faults: seq<bool>, i: nat): (r: Outcome)
    requires i <= MaxAttempts
    ensures i <= r.attempts <= MaxAttempts
    ensures r.logged ==> r.attempts >= i + 1
    ensures !r.logged ==> r.attempts == MaxAttempts && r.disk.files == disk.files
    ensures forall q :: q != path ==> (q in r.disk.files <==> q in disk.files)
    ensures forall q :: q in disk.files && q != path ==> r.disk.files[q] == disk.files[q]
    ensures disk.started <= r.disk.started <= disk.started + {path}
    ensures var s := Attempt(cfg, disk, a, path, Faulty(faults, i));
      i < MaxAttempts && s.error.None? ==> r == Outcome(s.state, i + 1, true)
    ensures (forall k :: i <= k < MaxAttempts ==> Faulty(faults, k)) ==> !r.logged
    decreases MaxAttempts - i
  {
    if i == MaxAttempts then Outcome(disk, MaxAttempts, false)
    else
      var step := Attempt(cfg, disk, a, path, Faulty(faults, i));
      if step.error.None? then Outcome(step.state, i + 1, true)
      else Retry(cfg, step.state, a, path, faults, i + 1)
  }

  /** `LogActivityAsync`. Only the checks before the loop throw: a null
      activity, a null `Conversation` (read for its Id), a null channel or
      conversation Id, and a null `From` (read by the trace line). */
  function LogActivity(cfg: Logger, disk: Disk, activity: Option<Activity>, faults: seq<bool>): (r: Result<Outcome>)
    ensures activity.None? ==> r == Fail(ArgumentNull(Some("activity")))
    ensures r.Ok? <==>
      && activity.Some?
      && activity.value.conversation.Some?
      && activity.value.channelId.Some?
      && activity.value.conversation.value.id.Some?
      && activity.value.from.Some?
    ensures r.Ok? ==>
      var path := TranscriptFile(cfg, activity.value.channelId, activity.value.conversation.value.id).value;
      && 1 <= r.value.attempts <= MaxAttempts
      && (!r.value.logged ==> r.value.attempts == MaxAttempts && r.value.disk.files == disk.files)
      && (forall q :: q != path ==> (q in r.value.disk.files <==> q in disk.files))
      && (forall q :: q in disk.files && q != path ==> r.value.disk.files[q] == disk.files[q])
      && disk.started <= r.value.disk.started <= disk.started + {path}
  {
    if activity.None? then Fail(ArgumentNull(Some("activity")))
    else
      var a := activity.value;
      if a.conversation.None? then Fail(NullReference)
      else
        match TranscriptFile(cfg, a.channelId, a.conversation.value.id)
        case Fail(e) => Fail(e)
        case Ok(path) =>
          if a.from.None? then Fail(NullReference)
          else Ok(Retry(cfg, disk, a, path, faults, 0))
  }

  /** The path an activity is logged to. */
  predicate LogsTo(cfg: Logger, a: Activity, path: string) {
    && a.conversation.Some?
    && a.from.Some?
    && TranscriptFile(cfg, a.channelId, a.conversation.value.id) == Ok(path)
  }

  /** Without faults, an attempt that returns is the only one. */
  lemma FirstSuccessStops(cfg: Logger, disk: Disk, a: Activity, path: string, faults: seq<bool>)
    requires LogsTo(cfg, a, path)
    requires !Faulty(faults, 0)
    requires Attempt(cfg, disk, a, path, false).error.None?
    ensures LogActivity(cfg, disk, Some(a), faults) == Ok(Outcome(Attempt(cfg, disk, a, path, false).state, 1, true))
  {
  }

  /** A first write to a missing file, without faults, creates it holding a
      one-element array and records the path. */
  lemma FirstWriteCreatesArray(cfg: Logger, disk: Disk, a: Activity, path: string)
    requires LogsTo(cfg, a, path) && path !in disk.files
    ensures var r := LogActivity(cfg, disk, Some(a), []);
      && r.Ok? && r.value.logged && r.value.attempts == 1
      && r.value.disk.files == disk.files[path := InitialContent(cfg.codec, a)]
      && r.value.disk.started == disk.started + {path}
  {
  }

  /** In unit-test mode the first write of a run goes through `File.OpenWrite`
      even over an existing file: the new one-element array is written over
      the old text, whose tail survives when it is longer. */
  lemma FirstWriteOverStaleFile(cfg: Logger, disk: Disk, a: Activity, path: string)
    requires LogsTo(cfg, a, path)
    requires cfg.unitTestMode && path in disk.files && path !in disk.started
    ensures var r := LogActivity(cfg, disk, Some(a), []);
      && r.Ok? && r.value.logged && r.value.attempts == 1
      && r.value.disk.files == disk.files[path := OverwriteText(disk.files[path], InitialContent(cfg.codec, a))]
      && r.value.disk.started == disk.started + {path}
  {
  }

  /** In unit-test mode, when the first write to a stale file faults, the path
      is recorded anyway, so the second attempt splices the activity onto the
      stale content instead of replacing it. */
  lemma FaultedFirstWriteKeepsStaleFile(cfg: Logger, disk: Disk, a: Activity, path: string)
    requires LogsTo(cfg, a, path) && IsAppended(a)
    requires cfg.unitTestMode && path in disk.files && path !in disk.started
    ensures var r := LogActivity(cfg, disk, Some(a), [true]);
      && r.Ok? && r.value.logged && r.value.attempts == 2
      && r.value.disk.files == disk.files[path := AppendSplice(disk.files[path], cfg.codec.ser(a))]
  {
    var first := Attempt(cfg, disk, a, path, true);
    assert first.state == disk.(started := disk.started + {path});
    assert !StartsFresh(cfg, first.state, path);
  }

  /** Three faults in a row lose the activity without an exception; the files
      are as before. */
  lemma ThreeFaultsLoseActivity(cfg: Logger, disk: Disk, a: Activity, path: string)
    requires LogsTo(cfg, a, path)
    ensures var r := LogActivity(cfg, disk, Some(a), [true, true, true]);
      && r.Ok? && !r.value.logged && r.value.attempts == MaxAttempts
      && r.value.disk.files == disk.files
  {
    var s1 := Attempt(cfg, disk, a, path, true).state;
    var s2 := Attempt(cfg, s1, a, path, true).state;
    var s3 := Attempt(cfg, s2, a, path, true).state;
    assert Retry(cfg, s2, a, path, [true, true, true], 2) == Retry(cfg, s3, a, path, [true, true, true], 3);
  }

  /** A delete or update whose Id matches no entry leaves the file alone. */
  lemma UnmatchedRewriteWritesNothing(cfg: Logger, disk: Disk, a: Activity, path: string, log: Log)
    requires LogsTo(cfg, a, path) && !IsAppended(a)
    requires !StartsFresh(cfg, disk, path)
    requires cfg.codec.parse(disk.files[path]) == Some(log)
    requires FirstIndexOfId(log, a.id).None?
    ensures LogActivity(cfg, disk, Some(a), []) == Ok(Outcome(disk, 1, true))
  {
  }

  /** A delete or update on a file whose text does not parse, or a delete
      whose tombstone cannot be built, throws without touching the file; the
      retry loop then tries again. */
  lemma FailedRewriteWritesNothing(cfg: Logger, disk: Disk, a: Activity, path: string)
    requires !IsAppended(a) && !StartsFresh(cfg, disk, path)
    requires var log := cfg.codec.parse(disk.files[path]);
      log.None? || (a.activityType == Some(MessageDelete) && ApplyDelete(log.value, a.id).Fail?)
    ensures var log := cfg.codec.parse(disk.files[path]);
      Attempt(cfg, disk, a, path, false)
      == Step(disk, Some(if log.None? then Json else ApplyDelete(log.value, a.id).error))
  {
  }

  /** A matched delete rewrites the array with the tombstone in place; the
      file holds that text followed by any longer old tail. */
  lemma MatchedDeleteRewritesArray(cfg: Logger, disk: Disk, a: Activity, path: string, log: Log)
    requires LogsTo(cfg, a, path) && a.activityType == Some(MessageDelete)
    requires !StartsFresh(cfg, disk, path)
    requires cfg.codec.parse(disk.files[path]) == Some(log)
    requires FirstIndexOfId(log, a.id).Some? && ApplyDelete(log, a.id).Ok?
    ensures var r := LogActivity(cfg, disk, Some(a), []);
      var text := cfg.codec.serArray(ApplyDelete(log, a.id).value);
      && r == Ok(Outcome(disk.(files := disk.files[path := OverwriteText(disk.files[path], text)]), 1, true))
      && r.value.disk.files[path][..|text|] == text
      && (|text| < |disk.files[path]| ==> r.value.disk.files[path] != text)
  {
    var text := cfg.codec.serArray(ApplyDelete(log, a.id).value);
    OverwriteIsExact(disk.files[path], text);
  }

  /** `MessageUpdateAsync` on a transcript holding an entry with the incoming
      Id: the array with the first such entry replaced by the updated one is
      written over the old text, in one attempt. */
  lemma MatchedUpdateRewritesArray(cfg: Logger, disk: Disk, a: Activity, path: string, log: Log)
    requires LogsTo(cfg, a, path) && a.activityType == Some(MessageUpdate)
    requires !StartsFresh(cfg, disk, path)
    requires cfg.codec.parse(disk.files[path]) == Some(log)
    requires FirstIndexOfId(log, a.id).Some?
    ensures var text := cfg.codec.serArray(ApplyUpdate(log, a));
      && LogActivity(cfg, disk, Some(a), [])
         == Ok(Outcome(disk.(files := disk.files[path := OverwriteText(disk.files[path], text)]), 1, true))
      && var i := FirstIndexOfId(log, a.id).value;
         var updated := ApplyUpdate(log, a);
         && |updated| == |log| && updated[i] == Updated(log[i], a)
         && forall j :: 0 <= j < |log| && j != i ==> updated[j] == log[j]
  {
  }

  /** Without faults, an ordinary activity for an existing transcript that
      does not take the first-write branch is spliced onto the end of the
      file. */
  lemma AppendStep(cfg: Logger, disk: Disk, a: Activity, path: string)
    requires LogsTo(cfg, a, path) && IsAppended(a)
    requires !StartsFresh(cfg, disk, path)
    ensures LogActivity(cfg, disk, Some(a), [])
            == Ok(Outcome(disk.(files := disk.files[path := AppendSplice(disk.files[path], cfg.codec.ser(a))]), 1, true))
  {
    FirstSuccessStops(cfg, disk, a, path, []);
  }

  /** Logging a sequence of activities, one call each, without faults. */
  function LogAll(cfg: Logger, disk: Disk, xs: seq<Activity>): Disk {
    if |xs| == 0 then disk
    else
      var before := LogAll(cfg, disk, xs[..|xs| - 1]);
      match LogActivity(cfg, before, Some(xs[|xs| - 1]), [])
      case Ok(o) => o.disk
      case Fail(_) => before
  }

  /** Ordinary activities logged to a missing file build the JSON array of
      their texts, one `",\n"`-separated element per call. */
  lemma {:induction false} LogAllBuildsArray(cfg: Logger, disk: Disk, xs: seq<Activity>, path: string)
    requires path !in disk.files
    requires forall i :: 0 <= i < |xs| ==> LogsTo(cfg, xs[i], path) && IsAppended(xs[i])
    ensures |xs| > 0 ==>
      && path in LogAll(cfg, disk, xs).files
      && path in LogAll(cfg, disk, xs).started
      && LogAll(cfg, disk, xs).files[path] == ArrayText(cfg.codec, xs)
    ensures |xs| == 0 ==> LogAll(cfg, disk, xs) == disk
  {
    if |xs| > 0 {
      var init, last := xs[..|xs| - 1], xs[|xs| - 1];
      assert forall i :: 0 <= i < |init| ==> init[i] == xs[i];
      LogAllBuildsArray(cfg, disk, init, path);
      if |init| == 0 {
        LogFirst(cfg, disk, xs, path);
      } else {
        LogNext(cfg, disk, xs, path);
      }
    }
  }

  /** The base case of `LogAllBuildsArray`: one activity to a missing file. */
  lemma LogFirst(cfg: Logger, disk: Disk, xs: seq<Activity>, path: string)
    requires path !in disk.files && |xs| == 1
    requires LogsTo(cfg, xs[0], path)
    ensures path in LogAll(cfg, disk, xs).files && path in LogAll(cfg, disk, xs).started
    ensures LogAll(cfg, disk, xs).files[path] == ArrayText(cfg.codec, xs)
  {
    assert xs[..0] == [];
    FirstWriteCreatesArray(cfg, disk, xs[0], path);
  }

  /** The step of `LogAllBuildsArray`: one more activity spliced on. */
  lemma LogNext(cfg: Logger, disk: Disk, xs: seq<Activity>, path: string)
    requires |xs| > 1
    requires LogsTo(cfg, xs[|xs| - 1], path) && IsAppended(xs[|xs| - 1])
    requires var before := LogAll(cfg, disk, xs[..|xs| - 1]);
      path in before.files && path in before.started
      && before.files[path] == ArrayText(cfg.codec, xs[..|xs| - 1])
    ensures path in LogAll(cfg, disk, xs).files && path in LogAll(cfg, disk, xs).started
    ensures LogAll(cfg, disk, xs).files[path] == ArrayText(cfg.codec, xs)
  {
    var init, last := xs[..|xs| - 1], xs[|xs| - 1];
    var before := LogAll(cfg, disk, init);
    var item := cfg.codec.ser(last);
    AppendStep(cfg, before, last, path);
    LogAllLast(cfg, disk, xs);
    AppendSpliceExtendsArray(Join(cfg.codec, init), item);
    ArrayTextLast(cfg.codec, xs);
  }

  lemma LogAllLast(cfg: Logger, disk: Disk, xs: seq<Activity>)
    requires |xs| > 0
    ensures var o := LogActivity(cfg, LogAll(cfg, disk, xs[..|xs| - 1]), Some(xs[|xs| - 1]), []);
      o.Ok? ==> LogAll(cfg, disk, xs) == o.value.disk
  {
  }

  lemma ArrayTextLast(codec: Codec, xs: seq<Activity>)
    requires |xs| > 1
    ensures ArrayText(codec, xs) == "[" + Join(codec, xs[..|xs| - 1]) + ",\n" + codec.ser(xs[|xs| - 1]) + "]"
  {
  }

  /* --- GetTranscriptActivitiesAsync and DeleteTranscriptAsync --- */

  /** `GetTranscriptActivitiesAsync`: every loaded entry with
      `Timestamp >= startDate`, in file order, never a continuation token; the
      token argument is ignored. A missing file reads as an empty array, text
      that does not parse throws. */
  function GetTranscriptActivities(cfg: Logger, disk: Disk, channelId: Option<string>, conversationId: Option<string>,
                                   continuationToken: Option<string>, startDate: int): (r: Result<Page<Activity>>)
    ensures TranscriptFile(cfg, channelId, conversationId).Fail? ==> r == Fail(TranscriptFile(cfg, channelId, conversationId).error)
    ensures r.Ok? ==> r.value.continuationToken.None?
    ensures r.Ok? ==> forall i :: 0 <= i < |r.value.items| ==> AtOrAfter(r.value.items[i], startDate)
    ensures TranscriptFile(cfg, channelId, conversationId).Ok? ==>
      var path := TranscriptFile(cfg, channelId, conversationId).value;
      && (path !in disk.files ==> r == Ok(Page([], None)))
      && (path in disk.files ==>
            match cfg.codec.parse(disk.files[path])
            case None => r == Fail(Json)
            case Some(log) => r.Ok? && IsSubsequence(r.value.items, log)
                              && (forall x :: x in r.value.items <==> x in log && AtOrAfter(x, startDate))
                              && forall x :: multiset(r.value.items)[x] == if AtOrAfter(x, startDate) then multiset(log)[x] else 0)
  {
    match TranscriptFile(cfg, channelId, conversationId)
    case Fail(e) => Fail(e)
    case Ok(path) =>
      if path !in disk.files then Ok(Page([], None))
      else
        match cfg.codec.parse(disk.files[path])
        case None => Fail(Json)
        case Some(log) =>
          SinceCounts(log, startDate);
          Ok(Page(Since(log, startDate), None))
  }

  /** Round trip: when the codec reads back the array text it was written as,
      logging ordinary activities to a fresh transcript and reading it returns
      those at or after `startDate`, all of them when all qualify. */
  lemma LogThenRead(cfg: Logger, disk: Disk, xs: seq<Activity>, channelId: string, conversationId: string,
                    token: Option<string>, startDate: int)
    requires TranscriptFile(cfg, Some(channelId), Some(conversationId)).Ok?
    requires var path := TranscriptFile(cfg, Some(channelId), Some(conversationId)).value;
      && path !in disk.files
      && forall i :: 0 <= i < |xs| ==> LogsTo(cfg, xs[i], path) && IsAppended(xs[i])
    requires |xs| > 0 ==> cfg.codec.parse(ArrayText(cfg.codec, xs)) == Some(xs)
    ensures GetTranscriptActivities(cfg, LogAll(cfg, disk, xs), Some(channelId), Some(conversationId), token, startDate)
            == Ok(Page(Since(xs, startDate), None))
  {
    var path := TranscriptFile(cfg, Some(channelId), Some(conversationId)).value;
    LogAllBuildsArray(cfg, disk, xs, path);
  }

  /** `DeleteTranscriptAsync`: the file goes, `_started` keeps the path. */
  function DeleteTranscript(cfg: Logger, disk: Disk, channelId: Option<string>, conversationId: Option<string>): (r: Result<Disk>)
    ensures r.Fail? <==> TranscriptFile(cfg, channelId, conversationId).Fail?
    ensures r.Ok? ==>
      var path := TranscriptFile(cfg, channelId, conversationId).value;
      && r.value.files.Keys == disk.files.Keys - {path}
      && (forall q :: q in r.value.files ==> r.value.files[q] == disk.files[q])
      && r.value.started == disk.started
  {
    match TranscriptFile(cfg, channelId, conversationId)
    case Fail(e) => Fail(e)
    case Ok(path) => Ok(disk.(files := disk.files - {path}))
  }

  /** After a delete the transcript reads as empty, and the next log starts
      the file afresh. */
  lemma DeleteThenFresh(cfg: Logger, disk: Disk, channelId: string, conversationId: string,
                        token: Option<string>, startDate: int)
    ensures var after := DeleteTranscript(cfg, disk, Some(channelId), Some(conversationId)).value;
      var path := TranscriptFile(cfg, Some(channelId), Some(conversationId)).value;
      && GetTranscriptActivities(cfg, after, Some(channelId), Some(conversationId), token, startDate) == Ok(Page([], None))
      && StartsFresh(cfg, after, path)
  {
  }
}

=== FILE: int32_text.dfy ===
/** The .NET integer behaviour the modelled code relies on: unchecked 32-bit
    `int` arithmetic, `int.ToString()` and `int.TryParse(string, out int)`
    (integer number style: surrounding white space and one leading sign). */
module Int32Text {
  import opened Wrappers

  const INT32_MIN: int := -0x8000_0000
  const INT32_MAX: int := 0x7FFF_FFFF
  const TWO_TO_32: int := 0x1_0000_0000

  predicate IsInt32(x: int) {
    INT32_MIN <= x <= INT32_MAX
  }

  type Int32 = x: int | INT32_MIN <= x <= INT32_MAX

  /** The value an unchecked C# `int` holds after an arithmetic result `x`. */
  function Wrap32(x: int): (r: int)
    ensures IsInt32(r)
    ensures IsInt32(x) ==> r == x
    ensures x == INT32_MAX + 1 ==> r == INT32_MIN
  {
    (x - INT32_MIN) % TWO_TO_32 + INT32_MIN
  }

  /** Two results closer than 2^32 to each other never wrap to the same `int`. */
  lemma Wrap32Injective(a: int, b: int)
    requires a <= b < a + TWO_TO_32
    requires Wrap32(a) == Wrap32(b)
    ensures a == b
  {
    var x, y := a - INT32_MIN, b - INT32_MIN;
    assert x % TWO_TO_32 == y % TWO_TO_32;
    var qx, qy := x / TWO_TO_32, y / TWO_TO_32;
    assert x == qx * TWO_TO_32 + x % TWO_TO_32;
    assert y == qy * TWO_TO_32 + y % TWO_TO_32;
    assert y - x == (qy - qx) * TWO_TO_32;
  }

  /** Adding after a wrap wraps like adding first: a counter kept as an
      `int` is the unbounded count, wrapped. */
  lemma Wrap32Add(a: int, d: int)
    ensures Wrap32(Wrap32(a) + d) == Wrap32(a + d)
  {
    var x := a - INT32_MIN;
    var q := x / TWO_TO_32;
    assert x == q * TWO_TO_32 + x % TWO_TO_32;
    assert Wrap32(a) + d - INT32_MIN == (x + d) - q * TWO_TO_32;
    ModMultiple(x + d, q);
  }

  /** Removing whole multiples of 2^32 does not change the remainder. */
  lemma ModMultiple(y: int, q: int)
    ensures (y - q * TWO_TO_32) % TWO_TO_32 == y % TWO_TO_32
  {
    var r := y % TWO_TO_32;
    var k := y / TWO_TO_32;
    assert y == k * TWO_TO_32 + r;
    assert y - q * TWO_TO_32 == (k - q) * TWO_TO_32 + r;
  }

  predicate IsDigit(c: char) {
    '0' <= c <= '9'
  }

  predicate AllDigits(s: string) {
    forall i :: 0 <= i < |s| ==> IsDigit(s[i])
  }

  function DigitValue(c: char): nat
    requires IsDigit(c)
  {
    (c as int) - ('0' as int)
  }

  function DigitChar(d: nat): (c: char)
    requires d < 10
    ensures IsDigit(c) && DigitValue(c) == d
  {
    (('0' as int) + d) as char
  }

  /** The value of a run of decimal digits, most significant first. */
  function DigitsValue(s: string): nat
    requires AllDigits(s)
  {
    if |s| == 0 then 0 else DigitsValue(s[..|s| - 1]) * 10 + DigitValue(s[|s| - 1])
  }

  /** The shortest decimal spelling of `n`: it reads back as `n` and has no
      leading zero. */
  function NatDigits(n: nat): (r: string)
    ensures |r| >= 1 && AllDigits(r)
    ensures DigitsValue(r) == n
    ensures r[0] == '0' ==> n == 0
  {
    if n < 10 then [DigitChar(n)]
    else
      var prefix := NatDigits(n / 10);
      var r := prefix + [DigitChar(n % 10)];
      assert r[..|r| - 1] == prefix;
      r
  }

  /** `int.ToString()` with a "-" negative sign. */
  function FormatInt(x: int): (r: string)
    ensures |r| >= 1 && IsDigit(r[|r| - 1])
    ensures ParseInteger(r) == Some(x)
  {
    if x < 0 then
      var digits := NatDigits(-x);
      var r := "-" + digits;
      assert r[1..] == digits;
      assert TrimEnd(r) == r;
      r
    else
      NatDigits(x)
  }

  /** Distinct integers are spelled differently. */
  lemma FormatIntInjective(x: int, y: int)
    requires FormatInt(x) == FormatInt(y)
    ensures x == y
  {
    assert Some(x) == ParseInteger(FormatInt(x)) == ParseInteger(FormatInt(y)) == Some(y);
  }

  /** The white space `NumberStyles.AllowLeadingWhite/AllowTrailingWhite` skip. */
  predicate IsWhite(c: char) {
    c == ' ' || '\t' <= c <= '\r'
  }

  function TrimStart(s: string): string {
    if |s| > 0 && IsWhite(s[0]) then TrimStart(s[1..]) else s
  }

  function TrimEnd(s: string): string {
    if |s| > 0 && IsWhite(s[|s| - 1]) then TrimEnd(s[..|s| - 1]) else s
  }

  /** The trailing run of '\0' characters, which .NET's number parser
      accepts after the number and its trailing white space. */
  function TrimNulls(s: string): string {
    if |s| > 0 && s[|s| - 1] == '\0' then TrimNulls(s[..|s| - 1]) else s
  }

  /** The integer a string spells with unbounded range: optional surrounding
      white space, an optional leading '+' or '-', then one or more digits,
      and at the very end any number of '\0' characters. */
  function ParseInteger(s: string): Option<int> {
    var t := TrimEnd(TrimStart(TrimNulls(s)));
    if |t| > 0 && (t[0] == '-' || t[0] == '+') then
      var body := t[1..];
      if |body| > 0 && AllDigits(body) then
        var magnitude: int := DigitsValue(body);
        Some(if t[0] == '-' then -magnitude else magnitude)
      else None
    else if |t| > 0 && AllDigits(t) then Some(DigitsValue(t))
    else None
  }

  /** `int.TryParse(s, out v)`: fails on null and on values outside `int`. */
  function TryParseInt32(s: Option<string>): (r: Option<int>)
    ensures r.Some? ==> IsInt32(r.value)
    ensures r.Some? <==> s.Some? && ParseInteger(s.value).Some? && IsInt32(ParseInteger(s.value).value)
    ensures r.Some? ==> r == ParseInteger(s.value)
  {
    if s.None? then None
    else
      match ParseInteger(s.value)
      case Some(v) => if IsInt32(v) then Some(v) else None
      case None => None
  }

  /** Appending '\0' characters never changes what a string parses to. */
  lemma {:induction false} TrailingNullsIgnored(s: string, n: nat)
    ensures ParseInteger(s + seq(n, _ => '\0')) == ParseInteger(s)
    ensures TryParseInt32(Some(s + seq(n, _ => '\0'))) == TryParseInt32(Some(s))
  {
    if n > 0 {
      var longer := s + seq(n, _ => '\0');
      assert longer[..|longer| - 1] == s + seq(n - 1, _ => '\0');
      assert longer[|longer| - 1] == '\0';
      assert TrimNulls(longer) == TrimNulls(s + seq(n - 1, _ => '\0'));
      TrailingNullsIgnored(s, n - 1);
    } else {
      assert s + seq(n, _ => '\0') == s;
    }
  }

  /** `int.TryParse` reads back what `ToString()` wrote, for every `int`. */
  lemma TryParseFormat(x: int)
    requires IsInt32(x)
    ensures TryParseInt32(Some(FormatInt(x))) == Some(x)
  {
  }
}

=== FILE: json_elements.dfy ===
/** The JSON values the modelled code inspects, shared by the storage and the
    bot configuration. */
module JsonElements {

  /** A `JsonElement`, as far as `GetString` cares: a string, a JSON null, or
      anything else (on which `GetString` throws `InvalidOperationException`). */
  datatype Json = JString(s: string) | JNull | JOther
}

=== FILE: memory_storage.dfy ===
/** The in-memory key/value storage with optimistic concurrency
    (libraries/Microsoft.Bot.Builder/MemoryStorage.cs). State is a dictionary
    from key to a JSON object (or null) and an `int` counter that numbers
    ETags. Each public call is one atomic step under the storage's lock. */
module MemoryStorage {
  import opened Wrappers
  import opened Sequences
  import opened Int32Text
  import opened JsonElements

  /** The JSON object `ToJsonElements` makes of a value. */
  type Doc = map<string, Json>

  /** A value handed to `WriteAsync`: null, an object that is not an
      `IStoreItem`, or an `IStoreItem` with its ETag; `elements` is what
      `ToJsonElements` produced from it. */
  datatype Value =
    | NullValue
    | PlainValue(elements: Doc)
    | StoreItemValue(eTag: Option<string>, elements: Doc)

  /** The dictionary and the `int` field `_eTag`. */
  datatype Storage = Storage(memory: map<string, Option<Doc>>, counter: Int32)

  const ETagKey: string := "eTag"
  const AnyETag: string := "*"

  /** A key whose state is present and not null. */
  predicate Readable(memory: map<string, Option<Doc>>, key: string) {
    key in memory && memory[key].Some?
  }

  /* --- ReadAsync --- */

  /** The read loop over `keys`: a null key makes `TryGetValue` throw, and a
      second occurrence of a readable key makes `Dictionary.Add` throw. */
  function ReadKeys(memory: map<string, Option<Doc>>, keys: seq<Option<string>>): (r: Result<map<string, Doc>>)
    ensures r.Ok? ==> forall k :: k in r.value <==> Some(k) in keys && Readable(memory, k)
    ensures r.Ok? ==> forall k :: k in r.value ==> Readable(memory, k) && r.value[k] == memory[k].value
    ensures r.Fail? ==> r.error == ArgumentNull(Some("key")) || r.error == Argument
    ensures r.Ok? <==>
      && (forall i :: 0 <= i < |keys| ==> keys[i].Some?)
      && (forall i, j :: 0 <= i < j < |keys| && keys[i] == keys[j] && keys[i].Some? ==> !Readable(memory, keys[i].value))
  {
    if |keys| == 0 then Ok(map[])
    else
      var init, last := keys[..|keys| - 1], keys[|keys| - 1];
      assert forall i :: 0 <= i < |init| ==> init[i] == keys[i];
      match ReadKeys(memory, init)
      case Fail(e) => Fail(e)
      case Ok(m) =>
        if last.None? then Fail(ArgumentNull(Some("key")))
        else if !Readable(memory, last.value) then Ok(m)
        else if last.value in m then
          assert last in init;
          Fail(Argument)
        else Ok(m[last.value := memory[last.value].value])
  }

  /** `ReadAsync`: exactly the requested keys whose state is present and not
      null, each with its stored object. */
  function Read(st: Storage, keys: Option<seq<Option<string>>>): (r: Result<map<string, Doc>>)
    ensures keys.None? ==> r == Fail(ArgumentNull(Some("keys")))
    ensures keys.Some? ==> r == ReadKeys(st.memory, keys.value)
  {
    if keys.None? then Fail(ArgumentNull(Some("keys"))) else ReadKeys(st.memory, keys.value)
  }

  /* --- DeleteAsync --- */

  /** The keys named in `keys`. */
  function KeySet(keys: seq<Option<string>>): set<string> {
    set i | 0 <= i < |keys| && keys[i].Some? :: keys[i].value
  }

  function Self(k: Option<string>): Option<string> { k }

  /** The position of the first null key, where `Remove` throws. */
  function FirstNull(keys: seq<Option<string>>): (n: nat)
    ensures n <= |keys|
    ensures forall i :: 0 <= i < n ==> keys[i].Some?
    ensures n < |keys| ==> keys[n].None?
  {
    match FirstIndexOf(keys, Self, None)
    case None => |keys|
    case Some(i) => i
  }

  /** The delete loop: remove each key in turn; at a null key, throw with the
      earlier removals done. */
  function DeleteKeys(memory: map<string, Option<Doc>>, keys: seq<Option<string>>): (r: Step<map<string, Option<Doc>>>)
    ensures r.state == memory - KeySet(keys[..FirstNull(keys)])
    ensures r.error == if FirstNull(keys) < |keys| then Some(ArgumentNull(Some("key"))) else None
  {
    if |keys| == 0 then
      assert KeySet(keys[..0]) == {};
      Step(memory, None)
    else
      var init, last := keys[..|keys| - 1], keys[|keys| - 1];
      var prev := DeleteKeys(memory, init);
      assert forall i :: 0 <= i < |init| ==> init[i] == keys[i];
      if prev.error.Some? then
        assert keys[..FirstNull(keys)] == init[..FirstNull(init)];
        prev
      else if last.None? then
        assert keys[..FirstNull(keys)] == init;
        Step(prev.state, Some(ArgumentNull(Some("key"))))
      else
        assert keys[..FirstNull(keys)] == keys && init[..FirstNull(init)] == init;
        assert KeySet(keys) == KeySet(init) + {last.value};
        Step(prev.state - {last.value}, None)
  }

  /** `DeleteAsync`: the listed keys are gone, every other entry and the
      counter are untouched. */
  function Delete(st: Storage, keys: Option<seq<Option<string>>>): (r: Step<Storage>)
    ensures keys.None? ==> r == Step(st, Some(ArgumentNull(Some("keys"))))
    ensures r.state.counter == st.counter
    ensures keys.Some? && (forall i :: 0 <= i < |keys.value| ==> keys.value[i].Some?) ==>
      && r.error.None?
      && r.state.memory.Keys == st.memory.Keys - KeySet(keys.value)
      && forall k :: k in r.state.memory ==> r.state.memory[k] == st.memory[k]
    ensures keys.Some? ==>
      && r.state.memory == st.memory - KeySet(keys.value[..FirstNull(keys.value)])
      && r.error == if FirstNull(keys.value) < |keys.value| then Some(ArgumentNull(Some("key"))) else None
  {
    if keys.None? then Step(st, Some(ArgumentNull(Some("keys"))))
    else
      var d := DeleteKeys(st.memory, keys.value);
      assert FirstNull(keys.value) == |keys.value| ==> keys.value[..FirstNull(keys.value)] == keys.value;
      Step(st.(memory := d.state), d.error)
  }

  /** A deleted key reads as absent. */
  lemma DeleteThenRead(st: Storage, key: string)
    ensures Read(Delete(st, Some([Some(key)])).state, Some([Some(key)])) == Ok(map[])
  {
    assert [Some(key)][0] == Some(key);
    assert KeySet([Some(key)]) == {key};
  }

  /* --- WriteAsync --- */

  /** The stored ETag of a key: `GetString` of its "eTag" element, which is
      null for a JSON null and throws for a non-string. */
  function StoredETag(memory: map<string, Option<Doc>>, key: string): (r: Result<Option<string>>)
    ensures r.Fail? ==> r.error == InvalidOperation
    ensures !Readable(memory, key) || ETagKey !in memory[key].value ==> r == Ok(None)
  {
    if Readable(memory, key) && ETagKey in memory[key].value then
      match memory[key].value[ETagKey]
      case JString(s) => Ok(Some(s))
      case JNull => Ok(None)
      case JOther => Fail(InvalidOperation)
    else Ok(None)
  }

  /** The optimistic-concurrency test: the stored state has an ETag, and the
      incoming one is neither the wildcard nor equal to it. */
  predicate Conflicts(stored: Option<string>, incoming: Option<string>) {
    stored.Some? && incoming != Some(AnyETag) && incoming != stored
  }

  /** One change of the write loop. The counter advances for every store item
      that passes the conflict test, even when adding its "eTag" element then
      throws because `ToJsonElements` already produced one. */
  function WriteOne(st: Storage, key: string, value: Value): (r: Step<Storage>)
    ensures r.error.Some? ==> r.state.memory == st.memory
    ensures r.error.None? ==> r.state.memory.Keys == st.memory.Keys + {key}
    ensures forall k :: k in st.memory && k != key ==> r.state.memory[k] == st.memory[k]
    ensures r.state.counter == st.counter || r.state.counter == Wrap32(st.counter + 1)
  {
    match StoredETag(st.memory, key)
    case Fail(e) => Step(st, Some(e))
    case Ok(stored) =>
      match value
      case NullValue => Step(st.(memory := st.memory[key := None]), None)
      case PlainValue(doc) => Step(st.(memory := st.memory[key := Some(doc)]), None)
      case StoreItemValue(incoming, doc) =>
        if Conflicts(stored, incoming) then Step(st, Some(Argument))
        else
          var tag := FormatInt(st.counter);
          var counter := Wrap32(st.counter + 1);
          if ETagKey in doc then Step(st.(counter := counter), Some(Argument))
          else Step(Storage(st.memory[key := Some(doc[ETagKey := JString(tag)])], counter), None)
  }

  /** What one change stores when the counter stands at `count`, or the
      exception it raises: the reference meaning of `WriteOne`. */
  function Written(memory: map<string, Option<Doc>>, key: string, value: Value, count: int): Result<Option<Doc>> {
    match StoredETag(memory, key)
    case Fail(e) => Fail(e)
    case Ok(stored) =>
      match value
      case NullValue => Ok(None)
      case PlainValue(doc) => Ok(Some(doc))
      case StoreItemValue(incoming, doc) =>
        if Conflicts(stored, incoming) || ETagKey in doc then Fail(Argument)
        else Ok(Some(doc[ETagKey := JString(FormatInt(count))]))
  }

  /** `WriteOne` stores what `Written` describes, with the current counter. */
  lemma WriteOneIsWritten(st: Storage, key: string, value: Value)
    ensures var r := WriteOne(st, key, value);
      var w := Written(st.memory, key, value, st.counter);
      && (r.error.None? <==> w.Ok?)
      && (w.Ok? ==> r.state.memory == st.memory[key := w.value])
      && (w.Fail? ==> r.error == Some(w.error))
  {
  }

  /** The number of store items among the changes: each one draws an ETag. */
  function StoreItems(changes: seq<(string, Value)>): (n: nat)
    ensures n <= |changes|
  {
    if |changes| == 0 then 0
    else StoreItems(changes[..|changes| - 1]) + (if changes[|changes| - 1].1.StoreItemValue? then 1 else 0)
  }

  /** The counter when change `j` runs, if every earlier change succeeded. */
  function CountAt(st: Storage, changes: seq<(string, Value)>, j: nat): int
    requires j <= |changes|
  {
    Wrap32(st.counter + StoreItems(changes[..j]))
  }

  /** Change `j`, run against the original state: keys are distinct, so no
      earlier change touches its key. */
  predicate Accepted(st: Storage, changes: seq<(string, Value)>, j: nat)
    requires j < |changes|
  {
    Written(st.memory, changes[j].0, changes[j].1, CountAt(st, changes, j)).Ok?
  }

  predicate AcceptedBefore(st: Storage, changes: seq<(string, Value)>, n: nat)
    requires n <= |changes|
  {
    forall j :: 0 <= j < n ==> Accepted(st, changes, j)
  }

  /** `IDictionary` keys are distinct. */
  predicate DistinctKeys(changes: seq<(string, Value)>) {
    forall i, j :: 0 <= i < j < |changes| ==> changes[i].0 != changes[j].0
  }

  predicate Changes(changes: seq<(string, Value)>, k: string) {
    exists j :: 0 <= j < |changes| && changes[j].0 == k
  }

  /** What the write loop leaves: every change succeeded exactly when each
      would, run against the original state; the counter advanced once per
      store item; the changes before the first failing one are stored as
      `Written` says; every other key is untouched. */
  ghost predicate WriteSpec(st: Storage, changes: seq<(string, Value)>, r: Step<Storage>) {
    && (r.error.None? <==> AcceptedBefore(st, changes, |changes|))
    && (r.error.None? ==> r.state.counter == CountAt(st, changes, |changes|))
    && (forall k :: !Changes(changes, k) ==> Untouched(st.memory, r.state.memory, k))
    && (forall j :: 0 <= j < |changes| && AcceptedBefore(st, changes, j) && Accepted(st, changes, j) ==>
          var k := changes[j].0;
          k in r.state.memory && r.state.memory[k] == Written(st.memory, k, changes[j].1, CountAt(st, changes, j)).value)
    && (forall j :: 0 <= j < |changes| && !AcceptedBefore(st, changes, j) ==> Untouched(st.memory, r.state.memory, changes[j].0))
  }

  /** The entry of `k` is the same in both dictionaries. */
  predicate Untouched(a: map<string, Option<Doc>>, b: map<string, Option<Doc>>, k: string) {
    (k in b <==> k in a) && (k in a ==> b[k] == a[k])
  }

  /** The write loop in dictionary order. It stops at the first exception,
      keeping the changes made before it. */
  function WriteChanges(st: Storage, changes: seq<(string, Value)>): (r: Step<Storage>)
    requires DistinctKeys(changes)
    ensures WriteSpec(st, changes, r)
    decreases |changes|
  {
    if |changes| == 0 then
      assert CountAt(st, changes, 0) == st.counter;
      Step(st, None)
    else
      var n := |changes| - 1;
      var prev := WriteChanges(st, changes[..n]);
      if prev.error.Some? then
        WriteStopped(st, changes, prev);
        prev
      else
        WriteNext(st, changes, prev);
        WriteOne(prev.state, changes[n].0, changes[n].1)
  }

  /** Once a change has failed, the loop has stopped. */
  lemma WriteStopped(st: Storage, changes: seq<(string, Value)>, prev: Step<Storage>)
    requires |changes| > 0 && DistinctKeys(changes)
    requires WriteSpec(st, changes[..|changes| - 1], prev) && prev.error.Some?
    ensures WriteSpec(st, changes, prev)
  {
    StoppedVerdict(st, changes, prev);
    StoppedFrame(st, changes, prev);
    StoppedStored(st, changes, prev);
  }

  lemma StoppedVerdict(st: Storage, changes: seq<(string, Value)>, prev: Step<Storage>)
    requires |changes| > 0 && DistinctKeys(changes)
    requires WriteSpec(st, changes[..|changes| - 1], prev) && prev.error.Some?
    ensures !AcceptedBefore(st, changes, |changes|)
  {
    var n := |changes| - 1;
    WritePrefix(st, changes);
    AcceptedBeforeNext(st, changes, n);
  }

  lemma StoppedFrame(st: Storage, changes: seq<(string, Value)>, prev: Step<Storage>)
    requires |changes| > 0 && DistinctKeys(changes)
    requires WriteSpec(st, changes[..|changes| - 1], prev) && prev.error.Some?
    ensures forall k :: !Changes(changes, k) ==> Untouched(st.memory, prev.state.memory, k)
    ensures forall j :: 0 <= j < |changes| && !AcceptedBefore(st, changes, j) ==> Untouched(st.memory, prev.state.memory, changes[j].0)
  {
    var n := |changes| - 1;
    var init := changes[..n];
    WritePrefix(st, changes);
    LastKeyFresh(changes);
    forall j | 0 <= j < n && !AcceptedBefore(st, changes, j)
      ensures Untouched(st.memory, prev.state.memory, changes[j].0)
    {
      assert !AcceptedBefore(st, init, j) && init[j] == changes[j];
    }
  }

  /** Keys are distinct, so the last change's key is not among the earlier ones. */
  lemma LastKeyFresh(changes: seq<(string, Value)>)
    requires |changes| > 0 && DistinctKeys(changes)
    ensures !Changes(changes[..|changes| - 1], changes[|changes| - 1].0)
  {
  }

  lemma StoppedStored(st: Storage, changes: seq<(string, Value)>, prev: Step<Storage>)
    requires |changes| > 0 && DistinctKeys(changes)
    requires WriteSpec(st, changes[..|changes| - 1], prev) && prev.error.Some?
    ensures forall j :: 0 <= j < |changes| && AcceptedBefore(st, changes, j) && Accepted(st, changes, j) ==>
          var k := changes[j].0;
          k in prev.state.memory && prev.state.memory[k] == Written(st.memory, k, changes[j].1, CountAt(st, changes, j)).value
  {
    var n := |changes| - 1;
    var init := changes[..n];
    WritePrefix(st, changes);
    StoppedVerdict(st, changes, prev);
    forall j | 0 <= j < |changes| && AcceptedBefore(st, changes, j) && Accepted(st, changes, j)
      ensures changes[j].0 in prev.state.memory
      ensures prev.state.memory[changes[j].0] == Written(st.memory, changes[j].0, changes[j].1, CountAt(st, changes, j)).value
    {
      AcceptedBeforeNext(st, changes, n);
      assert j < n;
      assert init[j] == changes[j];
    }
  }

  /** After successful changes, the next one runs as `WriteOne` on the
      state they left. */
  lemma WriteNext(st: Storage, changes: seq<(string, Value)>, prev: Step<Storage>)
    requires |changes| > 0 && DistinctKeys(changes)
    requires WriteSpec(st, changes[..|changes| - 1], prev) && prev.error.None?
    ensures WriteSpec(st, changes, WriteOne(prev.state, changes[|changes| - 1].0, changes[|changes| - 1].1))
  {
    NextVerdict(st, changes, prev);
    NextFrame(st, changes, prev);
    NextStored(st, changes, prev);
  }

  lemma NextVerdict(st: Storage, changes: seq<(string, Value)>, prev: Step<Storage>)
    requires |changes| > 0 && DistinctKeys(changes)
    requires WriteSpec(st, changes[..|changes| - 1], prev) && prev.error.None?
    ensures var r := WriteOne(prev.state, changes[|changes| - 1].0, changes[|changes| - 1].1);
      && (r.error.None? <==> AcceptedBefore(st, changes, |changes|))
      && (r.error.None? ==> r.state.counter == CountAt(st, changes, |changes|))
  {
    var n := |changes| - 1;
    WritePrefix(st, changes);
    assert !Changes(changes[..n], changes[n].0);
    assert AcceptedBefore(st, changes, n);
    NextChange(st, changes, prev.state);
    AcceptedBeforeNext(st, changes, n);
  }

  lemma NextFrame(st: Storage, changes: seq<(string, Value)>, prev: Step<Storage>)
    requires |changes| > 0 && DistinctKeys(changes)
    requires WriteSpec(st, changes[..|changes| - 1], prev) && prev.error.None?
    ensures var r := WriteOne(prev.state, changes[|changes| - 1].0, changes[|changes| - 1].1);
      && (forall k :: !Changes(changes, k) ==> Untouched(st.memory, r.state.memory, k))
      && (forall j :: 0 <= j < |changes| && !AcceptedBefore(st, changes, j) ==> Untouched(st.memory, r.state.memory, changes[j].0))
  {
    var n := |changes| - 1;
    var init := changes[..n];
    var r := WriteOne(prev.state, changes[n].0, changes[n].1);
    WritePrefix(st, changes);
    assert AcceptedBefore(st, changes, n);
    forall k | !Changes(changes, k)
      ensures Untouched(st.memory, r.state.memory, k)
    {
      assert !Changes(init, k);
    }
  }

  lemma NextStored(st: Storage, changes: seq<(string, Value)>, prev: Step<Storage>)
    requires |changes| > 0 && DistinctKeys(changes)
    requires WriteSpec(st, changes[..|changes| - 1], prev) && prev.error.None?
    ensures var r := WriteOne(prev.state, changes[|changes| - 1].0, changes[|changes| - 1].1);
      forall j :: 0 <= j < |changes| && AcceptedBefore(st, changes, j) && Accepted(st, changes, j) ==>
          var k := changes[j].0;
          k in r.state.memory && r.state.memory[k] == Written(st.memory, k, changes[j].1, CountAt(st, changes, j)).value
  {
    var n := |changes| - 1;
    WritePrefix(st, changes);
    assert !Changes(changes[..n], changes[n].0);
    assert AcceptedBefore(st, changes, n);
    NextChange(st, changes, prev.state);
  }

  lemma AcceptedBeforeNext(st: Storage, changes: seq<(string, Value)>, n: nat)
    requires n < |changes|
    ensures AcceptedBefore(st, changes, n + 1) <==> AcceptedBefore(st, changes, n) && Accepted(st, changes, n)
  {
  }

  /** The last change sees its key as in the original state, with the
      counter the earlier store items left, so it does what `Written` says. */
  lemma NextChange(st: Storage, changes: seq<(string, Value)>, before: Storage)
    requires |changes| > 0
    requires Untouched(st.memory, before.memory, changes[|changes| - 1].0)
    requires before.counter == CountAt(st, changes, |changes| - 1)
    ensures var n := |changes| - 1;
      var key, value := changes[n].0, changes[n].1;
      var r := WriteOne(before, key, value);
      var w := Written(st.memory, key, value, CountAt(st, changes, n));
      && (r.error.None? <==> w.Ok?)
      && (w.Ok? ==> r.state.memory == before.memory[key := w.value])
      && (w.Fail? ==> r.state.memory == before.memory)
      && (r.error.None? ==> r.state.counter == CountAt(st, changes, |changes|))
  {
    var n := |changes| - 1;
    var key, value := changes[n].0, changes[n].1;
    WriteOneIsWritten(before, key, value);
    StoredETagFrame(st.memory, before.memory, key);
    CountAtNext(st, changes);
  }

  /** The counter after `n + 1` changes is one further for a store item. */
  lemma CountAtNext(st: Storage, changes: seq<(string, Value)>)
    requires |changes| > 0
    ensures var n := |changes| - 1;
      CountAt(st, changes, n + 1) == Wrap32(CountAt(st, changes, n) + if changes[n].1.StoreItemValue? then 1 else 0)
  {
    var n := |changes| - 1;
    assert changes[..n + 1] == changes;
    assert changes[..n + 1][..n] == changes[..n];
    Wrap32Add(st.counter + StoreItems(changes[..n]), if changes[n].1.StoreItemValue? then 1 else 0);
  }

  /** The facts about a prefix that `WriteChanges` carries to the next
      change: distinct keys, the same counters and the same verdicts. */
  lemma WritePrefix(st: Storage, changes: seq<(string, Value)>)
    requires |changes| > 0 && DistinctKeys(changes)
    ensures var init := changes[..|changes| - 1];
      && DistinctKeys(init)
      && (forall j :: 0 <= j <= |init| ==> CountAt(st, init, j) == CountAt(st, changes, j))
      && (forall j :: 0 <= j < |init| ==> (Accepted(st, init, j) <==> Accepted(st, changes, j)))
      && (forall j :: 0 <= j <= |init| ==> (AcceptedBefore(st, init, j) <==> AcceptedBefore(st, changes, j)))
      && (forall k :: Changes(changes, k) <==> Changes(init, k) || k == changes[|changes| - 1].0)
  {
    var init := changes[..|changes| - 1];
    assert forall j :: 0 <= j <= |init| ==> init[..j] == changes[..j];
    forall k | Changes(changes, k)
      ensures Changes(init, k) || k == changes[|changes| - 1].0
    {
      var j :| 0 <= j < |changes| && changes[j].0 == k;
      if j < |init| {
        assert init[j].0 == k;
      }
    }
    forall k | Changes(init, k)
      ensures Changes(changes, k)
    {
      var j :| 0 <= j < |init| && init[j].0 == k;
      assert changes[j].0 == k;
    }
  }

  /** A key's stored ETag depends only on that key's entry. */
  lemma StoredETagFrame(a: map<string, Option<Doc>>, b: map<string, Option<Doc>>, key: string)
    requires (key in a <==> key in b) && (key in a ==> a[key] == b[key])
    ensures StoredETag(a, key) == StoredETag(b, key)
  {
  }

  /** `WriteAsync`. */
  function Write(st: Storage, changes: Option<seq<(string, Value)>>): (r: Step<Storage>)
    requires changes.Some? ==> DistinctKeys(changes.value)
    ensures changes.None? ==> r == Step(st, Some(ArgumentNull(Some("changes"))))
    ensures changes.Some? ==> r == WriteChanges(st, changes.value)
  {
    if changes.None? then Step(st, Some(ArgumentNull(Some("changes"))))
    else WriteChanges(st, changes.value)
  }

  /** With no ETag stored for a key, a store-item write to it never conflicts:
      it succeeds unless `ToJsonElements` already produced an "eTag". */
  lemma NoStoredETagNoConflict(st: Storage, key: string, incoming: Option<string>, doc: Doc)
    requires StoredETag(st.memory, key) == Ok(None)
    ensures WriteOne(st, key, StoreItemValue(incoming, doc)).error.None? <==> ETagKey !in doc
  {
  }

  /** The concurrency round trip: after a store item is written, writing it
      back with the ETag it received succeeds, and writing it with any other
      ETag except the wildcard is rejected without a change. */
  lemma WriteBackWithETag(st: Storage, key: string, incoming: Option<string>, doc: Doc, other: Option<string>, doc2: Doc)
    requires WriteOne(st, key, StoreItemValue(incoming, doc)).error.None?
    requires ETagKey !in doc2
    ensures var after := WriteOne(st, key, StoreItemValue(incoming, doc)).state;
      var tag := FormatInt(st.counter);
      && StoredETag(after.memory, key) == Ok(Some(tag))
      && WriteOne(after, key, StoreItemValue(Some(tag), doc2)).error.None?
      && WriteOne(after, key, StoreItemValue(Some(AnyETag), doc2)).error.None?
      && (other != Some(tag) && other != Some(AnyETag) ==>
            WriteOne(after, key, StoreItemValue(other, doc2)) == Step(after, Some(Argument)))
  {
  }

  /** Writing null stores null, so a later read omits the key. */
  lemma WriteNullThenRead(st: Storage, key: string)
    requires StoredETag(st.memory, key).Ok?
    ensures var w := Write(st, Some([(key, NullValue)]));
      && w.error.None?
      && Read(w.state, Some([Some(key)])) == Ok(map[])
  {
    WriteOneIsWritten(st, key, NullValue);
    assert [(key, NullValue)][..0] == [];
  }

  /** ETags handed out by one storage are pairwise distinct as long as fewer
      than 2^32 of them lie between: the `n`-th store item written from
      counter `c` gets `FormatInt(Wrap32(c + n))`. */
  lemma ETagsDistinct(c: int, n1: nat, n2: nat)
    requires n1 < n2 < n1 + TWO_TO_32
    ensures FormatInt(Wrap32(c + n1)) != FormatInt(Wrap32(c + n2))
  {
    if FormatInt(Wrap32(c + n1)) == FormatInt(Wrap32(c + n2)) {
      FormatIntInjective(Wrap32(c + n1), Wrap32(c + n2));
      Wrap32Injective(c + n1, c + n2);
    }
  }

  /** Within one write, distinct accepted store items receive distinct ETags. */
  lemma WriteETagsDistinct(st: Storage, changes: seq<(string, Value)>, i: nat, j: nat)
    requires i < j < |changes|
    requires changes[i].1.StoreItemValue? && |changes| < TWO_TO_32
    ensures CountAt(st, changes, i) != CountAt(st, changes, j)
  {
    StoreItemsGrow(changes, i, j);
    if CountAt(st, changes, i) == CountAt(st, changes, j) {
      Wrap32Injective(st.counter + StoreItems(changes[..i]), st.counter + StoreItems(changes[..j]));
    }
  }

  /** A store item in `changes[i..j]` makes the count of the longer prefix
      larger, by at most the length of the difference. */
  lemma {:induction false} StoreItemsGrow(changes: seq<(string, Value)>, i: nat, j: nat)
    requires i < j <= |changes| && changes[i].1.StoreItemValue?
    ensures StoreItems(changes[..i]) < StoreItems(changes[..j]) <= StoreItems(changes[..i]) + (j - i)
    decreases j
  {
    assert changes[..j][..j - 1] == changes[..j - 1];
    if j - 1 > i {
      StoreItemsGrow(changes, i, j - 1);
    } else {
      assert changes[..i + 1][..i] == changes[..i];
    }
  }
}

=== FILE: memory_transcript_store.dfy ===
/** `MemoryTranscriptStore`: channel -> conversation -> ordered log of
    activities, held in memory. Each public call is one atomic step (the
    source holds one lock over the whole table for every call). */
module MemoryTranscriptStore {
  import opened Wrappers
  import opened Sequences
  import opened Activities
  import opened StableSort
  import opened Paging

  type Conversations = map<string, Log>
  type Store = map<string, Conversations>

  datatype TranscriptInfo = TranscriptInfo(channelId: string, id: string, created: int)

  /** `default(DateTimeOffset)`. */
  const DefaultInstant: int := 0

  /** The channel and conversation an activity is filed under, when it names both. */
  function Target(a: Activity): Option<(string, string)> {
    if a.channelId.Some? && a.conversation.Some? && a.conversation.value.id.Some?
    then Some((a.channelId.value, a.conversation.value.id.value))
    else None
  }

  /** The conversations of a channel, none when the store has no such channel. */
  function ChannelAt(store: Store, ch: string): Conversations {
    if ch in store then store[ch] else map[]
  }

  /** The log of a conversation, empty when the store has none. */
  function LogAt(store: Store, ch: string, conv: string): Log {
    if ch in store && conv in store[ch] then store[ch][conv] else []
  }

  /** What `LogActivityAsync` does to the log of the activity's conversation:
      a delete tombstones the first entry with its Id, an update replaces it,
      and any other activity is appended. */
  function Record(log: Log, a: Activity): (r: Step<Log>)
    ensures IsAppended(a) ==> r == Step(log + [a], None)
    ensures a.activityType == Some(MessageDelete) ==>
      match FirstIndexOfId(log, a.id)
      case None => r == Step(log, None)
      case Some(i) =>
        match Tombstone(log[i])
        case Fail(e) => r == Step(log, Some(e))
        case Ok(t) => r.error.None? && |r.state| == |log| && r.state[i] == t
                      && forall j :: 0 <= j < |log| && j != i ==> r.state[j] == log[j]
    ensures a.activityType == Some(MessageUpdate) ==>
      && r.error.None? && |r.state| == |log|
      && match FirstIndexOfId(log, a.id)
         case None => r.state == log
         case Some(i) => r.state[i] == Updated(log[i], a)
                         && forall j :: 0 <= j < |log| && j != i ==> r.state[j] == log[j]
  {
    if a.activityType == Some(MessageDelete) then
      match ApplyDelete(log, a.id)
      case Fail(e) => Step(log, Some(e))
      case Ok(deleted) => Step(deleted, None)
    else if a.activityType == Some(MessageUpdate) then Step(ApplyUpdate(log, a), None)
    else Step(log + [a], None)
  }

  /** `LogActivityAsync`. The channel entry is created before the conversation
      Id is read, and the conversation entry before the log is scanned, so a
      call that throws late leaves those (empty) entries behind. */
  function LogActivity(store: Store, activity: Option<Activity>): (r: Step<Store>)
    ensures activity.None? ==> r == Step(store, Some(ArgumentNull(Some("activity"))))
    ensures forall ch :: ch in store ==> ch in r.state && store[ch].Keys <= r.state[ch].Keys
    ensures forall ch :: ch in store && (activity.None? || activity.value.channelId != Some(ch))
                         ==> r.state[ch] == store[ch]
    ensures activity.Some? && Target(activity.value).None? ==>
      && r.error.Some?
      && forall ch, conv :: LogAt(r.state, ch, conv) == LogAt(store, ch, conv)
    ensures activity.Some? && activity.value.channelId.None? ==>
      r == Step(store, Some(ArgumentNull(Some("key"))))
    ensures activity.Some? && activity.value.channelId.Some? && Target(activity.value).None? ==>
      var ch := activity.value.channelId.value;
      && r.state == store[ch := ChannelAt(store, ch)]
      && r.error == if activity.value.conversation.None? then Some(NullReference) else Some(ArgumentNull(Some("key")))
    ensures activity.Some? && Target(activity.value).Some? ==>
      var (ch, conv) := Target(activity.value).value;
      && ch in r.state && conv in r.state[ch]
      && r.state[ch].Keys == ChannelAt(store, ch).Keys + {conv}
      && (forall c :: c in ChannelAt(store, ch) && c != conv ==> r.state[ch][c] == store[ch][c])
      && r == Step(r.state, Record(LogAt(store, ch, conv), activity.value).error)
      && LogAt(r.state, ch, conv) == Record(LogAt(store, ch, conv), activity.value).state
  {
    if activity.None? then Step(store, Some(ArgumentNull(Some("activity"))))
    else
      var a := activity.value;
      if a.channelId.None? then Step(store, Some(ArgumentNull(Some("key"))))
      else
        var ch := a.channelId.value;
        var channel := if ch in store then store[ch] else map[];
        var withChannel := store[ch := channel];
        if a.conversation.None? then Step(withChannel, Some(NullReference))
        else if a.conversation.value.id.None? then Step(withChannel, Some(ArgumentNull(Some("key"))))
        else
          var conv := a.conversation.value.id.value;
          var log := if conv in channel then channel[conv] else [];
          var recorded := Record(log, a);
          var after := store[ch := channel[conv := recorded.state]];
          assert LogAt(after, ch, conv) == recorded.state;
          Step(after, recorded.error)
  }

  /** The entries a page is cut from: the log in stable Timestamp order, then
      those at or after `startDate`. */
  function Candidates(log: Log, startDate: int): Log {
    Since(Sort(log, TimestampOf), startDate)
  }

  /** Filtering keeps an ordered log ordered. */
  lemma {:induction false} SinceKeepsOrder(s: Log, startDate: int)
    requires SortedBy(s, TimestampOf)
    ensures SortedBy(Since(s, startDate), TimestampOf)
  {
    if |s| > 0 {
      var init, last := s[..|s| - 1], s[|s| - 1];
      assert SortedBy(init, TimestampOf);
      SinceKeepsOrder(init, startDate);
      var r := Since(init, startDate);
      if AtOrAfter(last, startDate) {
        forall i | 0 <= i < |r|
          ensures KeyLe(TimestampOf(r[i]), TimestampOf(last))
        {
          assert r[i] in r;
          var m :| 0 <= m < |init| && init[m] == r[i];
          assert s[m] == init[m];
        }
      }
    }
  }

  /** Every entry of a page of `Candidates(log, startDate)` is an entry of
      `log` at or after `startDate`. */
  lemma CandidatePageEntries(log: Log, startDate: int, token: Option<string>)
    ensures var items := Paginate(Candidates(log, startDate), IdOf, token).items;
      forall i :: 0 <= i < |items| ==> AtOrAfter(items[i], startDate) && items[i] in log
  {
    var sorted := Sort(log, TimestampOf);
    var cands := Candidates(log, startDate);
    PageIsSlice(cands, IdOf, token);
    var items := Paginate(cands, IdOf, token).items;
    var lo := PageStart(cands, IdOf, token);
    forall i | 0 <= i < |items|
      ensures AtOrAfter(items[i], startDate) && items[i] in log
    {
      assert items[i] == cands[lo + i];
      assert items[i] in cands;
      assert items[i] in multiset(sorted);
    }
  }

  /** A page of an ordered sequence is ordered. */
  lemma PageOrdered<T>(s: seq<T>, id: T -> Option<string>, token: Option<string>, key: T -> Option<int>)
    requires SortedBy(s, key)
    ensures SortedBy(Paginate(s, id, token).items, key)
  {
    PageIsSlice(s, id, token);
    RunSorted(Paginate(s, id, token).items, s, PageStart(s, id, token), key);
  }

  lemma CandidatesOrdered(log: Log, startDate: int)
    ensures SortedBy(Candidates(log, startDate), TimestampOf)
  {
    SinceKeepsOrder(Sort(log, TimestampOf), startDate);
  }

  /** A page of `Candidates(log, startDate)` is in Timestamp order. */
  lemma CandidatePageOrdered(log: Log, startDate: int, token: Option<string>)
    ensures SortedBy(Paginate(Candidates(log, startDate), IdOf, token).items, TimestampOf)
  {
    CandidatesOrdered(log, startDate);
    PageOrdered(Candidates(log, startDate), IdOf, token, TimestampOf);
  }

  /** `GetTranscriptActivitiesAsync`: a missing channel or conversation gives
      an empty page. */
  function GetTranscriptActivities(store: Store, channelId: Option<string>, conversationId: Option<string>,
                                   continuationToken: Option<string>, startDate: int): (r: Result<Page<Activity>>)
    ensures channelId.None? ==> r == Fail(ArgumentNull(Some("channelId")))
    ensures channelId.Some? && conversationId.None? ==> r == Fail(ArgumentNull(Some("conversationId")))
    ensures channelId.Some? && conversationId.Some? ==> r.Ok?
    ensures channelId.Some? && conversationId.Some? &&
            !(channelId.value in store && conversationId.value in store[channelId.value])
            ==> r == Ok(Page([], None))
    ensures r.Ok? ==>
      var items := r.value.items;
      var log := LogAt(store, channelId.value, conversationId.value);
      && |items| <= PageSize
      && (forall i :: 0 <= i < |items| ==> AtOrAfter(items[i], startDate) && items[i] in log)
      && SortedBy(items, TimestampOf)
      && (r.value.continuationToken.Some? ==> |items| == PageSize)
      && (|items| == PageSize ==> r.value.continuationToken == items[PageSize - 1].id)
    ensures channelId.Some? && conversationId.Some? && channelId.value in store && conversationId.value in store[channelId.value]
            ==> r == Ok(Paginate(Candidates(store[channelId.value][conversationId.value], startDate), IdOf, continuationToken))
  {
    if channelId.None? then Fail(ArgumentNull(Some("channelId")))
    else if conversationId.None? then Fail(ArgumentNull(Some("conversationId")))
    else
      var ch, conv := channelId.value, conversationId.value;
      if ch in store && conv in store[ch] then
        CandidatePageEntries(store[ch][conv], startDate, continuationToken);
        CandidatePageOrdered(store[ch][conv], startDate, continuationToken);
        Ok(Paginate(Candidates(store[ch][conv], startDate), IdOf, continuationToken))
      else Ok(Page([], None))
  }

  /** `DeleteTranscriptAsync`: removes one conversation, keeps the channel entry. */
  function DeleteTranscript(store: Store, channelId: Option<string>, conversationId: Option<string>): (r: Result<Store>)
    ensures channelId.None? ==> r == Fail(ArgumentNull(Some("channelId")))
    ensures channelId.Some? && conversationId.None? ==> r == Fail(ArgumentNull(Some("conversationId")))
    ensures channelId.Some? && conversationId.Some? ==>
      && r.Ok? && r.value.Keys == store.Keys
      && (forall ch :: ch in store && ch != channelId.value ==> r.value[ch] == store[ch])
      && (channelId.value in store ==>
            && r.value[channelId.value].Keys == store[channelId.value].Keys - {conversationId.value}
            && forall c :: c in r.value[channelId.value] ==> r.value[channelId.value][c] == store[channelId.value][c])
  {
    if channelId.None? then Fail(ArgumentNull(Some("channelId")))
    else if conversationId.None? then Fail(ArgumentNull(Some("conversationId")))
    else
      var ch, conv := channelId.value, conversationId.value;
      if ch in store && conv in store[ch] then Ok(store[ch := store[ch] - {conv}])
      else Ok(store)
  }

  /** `Created` of a listing entry: the first entry's Timestamp, or the default
      instant for an empty log or a first entry without one. */
  function Created(log: Log): int {
    if |log| > 0 && log[0].timestamp.Some? then log[0].timestamp.value else DefaultInstant
  }

  function CreatedKey(info: TranscriptInfo): Option<int> { Some(info.created) }

  function InfoId(info: TranscriptInfo): Option<string> { Some(info.id) }

  /** `order` enumerates the keys of `m` exactly once each (the dictionary's
      enumeration order, which the source does not fix). */
  predicate Enumerates<V>(order: seq<string>, m: map<string, V>) {
    && (forall i :: 0 <= i < |order| ==> order[i] in m)
    && (forall k :: k in m ==> k in order)
    && (forall i, j :: 0 <= i < j < |order| ==> order[i] != order[j])
  }

  function Infos(channelId: string, channel: Conversations, order: seq<string>): (r: seq<TranscriptInfo>)
    requires forall i :: 0 <= i < |order| ==> order[i] in channel
    ensures |r| == |order|
    ensures forall i :: 0 <= i < |r| ==> r[i] == TranscriptInfo(channelId, order[i], Created(channel[order[i]]))
  {
    if |order| == 0 then []
    else Infos(channelId, channel, order[..|order| - 1])
         + [TranscriptInfo(channelId, order[|order| - 1], Created(channel[order[|order| - 1]]))]
  }

  /** Every conversation of the channel, oldest first (a stable sort of the
      enumeration by creation time). */
  function Listing(channelId: string, channel: Conversations, order: seq<string>): seq<TranscriptInfo>
    requires forall i :: 0 <= i < |order| ==> order[i] in channel
  {
    Sort(Infos(channelId, channel, order), CreatedKey)
  }

  /** Ids drawn from an enumeration are pairwise distinct. */
  predicate DistinctIds(s: seq<TranscriptInfo>) {
    forall i, j :: 0 <= i < j < |s| ==> s[i].id != s[j].id
  }

  /** An element found at two positions occurs at least twice. */
  lemma TwoPositions<T>(s: seq<T>, i: nat, j: nat)
    requires i < j < |s| && s[i] == s[j]
    ensures multiset(s)[s[i]] >= 2
  {
    assert s == s[..j] + [s[j]] + s[j + 1..];
    assert s[..j][i] == s[i];
    assert s[i] in multiset(s[..j]);
  }

  /** Reordering keeps the Ids distinct. */
  lemma DistinctIdsPermutation(a: seq<TranscriptInfo>, b: seq<TranscriptInfo>)
    requires multiset(a) == multiset(b) && DistinctIds(b)
    ensures DistinctIds(a)
  {
    forall i, j | 0 <= i < j < |a|
      ensures a[i].id != a[j].id
    {
      if a[i].id == a[j].id {
        assert a[i] in multiset(b) && a[j] in multiset(b);
        var p :| 0 <= p < |b| && b[p] == a[i];
        var q :| 0 <= q < |b| && b[q] == a[j];
        assert p == q;
        TwoPositions(a, i, j);
        MultiplicityOfDistinct(b, p);
      }
    }
  }

  /** An element that occurs once by position occurs once by count. */
  lemma MultiplicityOfDistinct(s: seq<TranscriptInfo>, a: nat)
    requires a < |s| && DistinctIds(s)
    ensures multiset(s)[s[a]] == 1
  {
    var x := s[a];
    assert s == s[..a] + [x] + s[a + 1..];
    assert x !in s[..a] && x !in s[a + 1..];
  }

  /** The sorted listing names each conversation of the channel once. */
  lemma SortedInfos(channelId: string, channel: Conversations, order: seq<string>)
    requires Enumerates(order, channel)
    ensures var s := Sort(Infos(channelId, channel, order), CreatedKey);
      && |s| == |channel|
      && DistinctIds(s)
      && (forall i :: 0 <= i < |s| ==> s[i].channelId == channelId && s[i].id in channel
                                        && s[i].created == Created(channel[s[i].id]))
  {
    SortedInfosCount(channelId, channel, order);
    SortedInfosDistinct(channelId, channel, order);
    SortedInfosEntries(channelId, channel, order);
  }

  lemma SortedInfosDistinct(channelId: string, channel: Conversations, order: seq<string>)
    requires Enumerates(order, channel)
    ensures DistinctIds(Sort(Infos(channelId, channel, order), CreatedKey))
  {
    var infos := Infos(channelId, channel, order);
    assert DistinctIds(infos);
    DistinctIdsPermutation(Sort(infos, CreatedKey), infos);
  }

  lemma SortedInfosEntries(channelId: string, channel: Conversations, order: seq<string>)
    requires Enumerates(order, channel)
    ensures var s := Sort(Infos(channelId, channel, order), CreatedKey);
      forall i :: 0 <= i < |s| ==> s[i].channelId == channelId && s[i].id in channel
                                   && s[i].created == Created(channel[s[i].id])
  {
    var infos := Infos(channelId, channel, order);
    var s := Sort(infos, CreatedKey);
    forall i | 0 <= i < |s|
      ensures s[i].channelId == channelId && s[i].id in channel && s[i].created == Created(channel[s[i].id])
    {
      assert s[i] in multiset(infos) by {
        assert s[i] in multiset(s);
      }
      var k :| 0 <= k < |infos| && infos[k] == s[i];
      assert infos[k] == TranscriptInfo(channelId, order[k], Created(channel[order[k]]));
    }
  }

  /** `ListTranscriptsAsync`, given the order in which the channel's dictionary
      enumerates its conversations. */
  function ListTranscripts(store: Store, channelId: Option<string>, continuationToken: Option<string>,
                           order: seq<string>): (r: Result<Page<TranscriptInfo>>)
    requires channelId.Some? && channelId.value in store ==> Enumerates(order, store[channelId.value])
    ensures channelId.None? ==> r == Fail(ArgumentNull(Some("channelId")))
    ensures channelId.Some? ==> r.Ok?
    ensures channelId.Some? && channelId.value !in store ==> r == Ok(Page([], None))
    ensures r.Ok? ==> |r.value.items| <= PageSize
    ensures r.Ok? ==> (r.value.continuationToken.Some? <==> |r.value.items| == PageSize)
    ensures r.Ok? && |r.value.items| == PageSize ==> r.value.continuationToken == Some(r.value.items[PageSize - 1].id)
    ensures channelId.Some? && channelId.value in store ==>
      r == Ok(Paginate(Listing(channelId.value, store[channelId.value], order), InfoId, continuationToken))
  {
    if channelId.None? then Fail(ArgumentNull(Some("channelId")))
    else if channelId.value !in store then Ok(Page([], None))
    else
      var channel := store[channelId.value];
      Ok(Paginate(Listing(channelId.value, channel, order), InfoId, continuationToken))
  }

  /** A listing page holds distinct conversations of the channel, in creation
      order, each with its creation time. */
  lemma ListingEntries(store: Store, ch: string, continuationToken: Option<string>, order: seq<string>)
    requires ch in store && Enumerates(order, store[ch])
    ensures var items := ListTranscripts(store, Some(ch), continuationToken, order).value.items;
      && SortedBy(items, CreatedKey)
      && DistinctIds(items)
      && forall i :: 0 <= i < |items| ==>
           && items[i].channelId == ch
           && items[i].id in store[ch]
           && items[i].created == Created(store[ch][items[i].id])
  {
    var sorted := Sort(Infos(ch, store[ch], order), CreatedKey);
    SortedInfos(ch, store[ch], order);
    ListingPage(sorted, continuationToken);
  }

  /** The first listing page names min(20, count) conversations. */
  lemma ListingFirstPage(store: Store, ch: string, order: seq<string>)
    requires ch in store && Enumerates(order, store[ch])
    ensures |ListTranscripts(store, Some(ch), None, order).value.items| == Min(PageSize, |store[ch]|)
  {
    SortedInfosCount(ch, store[ch], order);
  }

  /** The sorted listing has one entry per conversation. */
  lemma SortedInfosCount(channelId: string, channel: Conversations, order: seq<string>)
    requires Enumerates(order, channel)
    ensures |Sort(Infos(channelId, channel, order), CreatedKey)| == |channel|
  {
    var infos := Infos(channelId, channel, order);
    var s := Sort(infos, CreatedKey);
    assert |s| == |multiset(s)| == |multiset(infos)| == |infos|;
    EnumeratesCount(order, channel);
  }

  /** A page of an ordered listing with distinct Ids is ordered, has distinct
      Ids, and holds only listing entries. */
  lemma ListingPage(s: seq<TranscriptInfo>, token: Option<string>)
    requires SortedBy(s, CreatedKey) && DistinctIds(s)
    ensures var items := Paginate(s, InfoId, token).items;
      && SortedBy(items, CreatedKey)
      && DistinctIds(items)
      && forall i :: 0 <= i < |items| ==> items[i] in s
  {
    PageOrdered(s, InfoId, token, CreatedKey);
    PageDistinct(s, token);
    PageMembers(s, InfoId, token);
  }

  lemma PageDistinct(s: seq<TranscriptInfo>, token: Option<string>)
    requires DistinctIds(s)
    ensures DistinctIds(Paginate(s, InfoId, token).items)
  {
    PageIsSlice(s, InfoId, token);
    RunDistinct(Paginate(s, InfoId, token).items, s, PageStart(s, InfoId, token));
  }

  /** A run of consecutive entries of a listing with distinct Ids has distinct Ids. */
  lemma RunDistinct(a: seq<TranscriptInfo>, b: seq<TranscriptInfo>, lo: nat)
    requires DistinctIds(b)
    requires lo + |a| <= |b|
    requires forall i :: 0 <= i < |a| ==> a[i] == b[lo + i]
    ensures DistinctIds(a)
  {
    forall i, j | 0 <= i < j < |a|
      ensures a[i].id != a[j].id
    {
      assert a[i] == b[lo + i] && a[j] == b[lo + j];
    }
  }

  /** Every entry of a page is a candidate. */
  lemma PageMembers<T>(s: seq<T>, id: T -> Option<string>, token: Option<string>)
    ensures var items := Paginate(s, id, token).items;
      forall i :: 0 <= i < |items| ==> items[i] in s
  {
    PageIsSlice(s, id, token);
    var items := Paginate(s, id, token).items;
    var lo := PageStart(s, id, token);
    forall i | 0 <= i < |items|
      ensures items[i] in s
    {
      assert items[i] == s[lo + i];
    }
  }

  /** An enumeration of a map's keys has as many entries as the map. */
  lemma EnumeratesCount<V>(order: seq<string>, m: map<string, V>)
    requires Enumerates(order, m)
    ensures |order| == |m|
  {
    var keys := set i | 0 <= i < |order| :: order[i];
    assert keys == m.Keys;
    DistinctCount(order);
  }

  lemma {:induction false} DistinctCount(order: seq<string>)
    requires forall i, j :: 0 <= i < j < |order| ==> order[i] != order[j]
    ensures |set i | 0 <= i < |order| :: order[i]| == |order|
  {
    if |order| > 0 {
      var init := order[..|order| - 1];
      DistinctCount(init);
      var s := set i | 0 <= i < |order| :: order[i];
      var s' := set i | 0 <= i < |init| :: init[i];
      assert s == s' + {order[|order| - 1]};
      assert order[|order| - 1] !in s';
    }
  }

  /** Logging each activity of `xs` in turn. */
  function LogAll(store: Store, xs: seq<Activity>): Store
    decreases |xs|
  {
    if |xs| == 0 then store else LogAll(LogActivity(store, Some(xs[0])).state, xs[1..])
  }

  /** Ordinary activities for one conversation are appended in call order. */
  lemma {:induction false} LogAllAppends(store: Store, xs: seq<Activity>, ch: string, conv: string)
    requires forall i :: 0 <= i < |xs| ==> Target(xs[i]) == Some((ch, conv)) && IsAppended(xs[i])
    ensures LogAt(LogAll(store, xs), ch, conv) == LogAt(store, ch, conv) + xs
    ensures |xs| > 0 ==> ch in LogAll(store, xs) && conv in LogAll(store, xs)[ch]
    decreases |xs|
  {
    if |xs| > 0 {
      var next := LogActivity(store, Some(xs[0])).state;
      AppendOne(store, xs[0], ch, conv);
      LogAllAppends(next, xs[1..], ch, conv);
      AppendFirst(LogAt(store, ch, conv), xs);
    }
  }

  /** Logging one ordinary activity appends it to its conversation's log. */
  lemma AppendOne(store: Store, a: Activity, ch: string, conv: string)
    requires Target(a) == Some((ch, conv)) && IsAppended(a)
    ensures var next := LogActivity(store, Some(a)).state;
      ch in next && conv in next[ch] && LogAt(next, ch, conv) == LogAt(store, ch, conv) + [a]
  {
  }

  /** One call of `GetTranscriptActivities` for a known channel and
      conversation: a page of the conversation's candidates. */
  function ReadOnce(store: Store, ch: string, conv: string, startDate: int, token: Option<string>): (p: Page<Activity>)
    ensures ch in store && conv in store[ch] ==> p == Paginate(Candidates(store[ch][conv], startDate), IdOf, token)
    ensures !(ch in store && conv in store[ch]) ==> p == Page([], None)
  {
    match GetTranscriptActivities(store, Some(ch), Some(conv), token, startDate)
    case Fail(_) => Page([], None)
    case Ok(p) => p
  }

  /** What a caller collects by calling `GetTranscriptActivities` and
      following continuation tokens, for at most `fuel` further calls. */
  function ReadPages(store: Store, ch: string, conv: string, startDate: int, token: Option<string>, fuel: nat): seq<Activity> {
    Follow(t => ReadOnce(store, ch, conv, startDate, t), token, fuel)
  }

  /** Reading a stored conversation page by page is draining its candidates. */
  lemma ReadPagesIsDrain(store: Store, ch: string, conv: string, startDate: int, token: Option<string>, fuel: nat)
    requires ch in store && conv in store[ch]
    ensures ReadPages(store, ch, conv, startDate, token, fuel)
            == Drain(Candidates(store[ch][conv], startDate), IdOf, token, fuel)
  {
    var cands := Candidates(store[ch][conv], startDate);
    FollowSame(t => ReadOnce(store, ch, conv, startDate, t), t => Paginate(cands, IdOf, t), token, fuel);
  }

  /** Round trip and exhaustiveness: ordinary activities with unique Ids,
      logged in Timestamp order to a conversation that had no entries, are
      read back completely and in order by following continuation tokens
      from the first page, using |xs| / 20 follow-up calls. */
  lemma LogThenReadAll(store: Store, xs: seq<Activity>, ch: string, conv: string, startDate: int)
    requires LogAt(store, ch, conv) == []
    requires |xs| > 0
    requires forall i :: 0 <= i < |xs| ==> Target(xs[i]) == Some((ch, conv)) && IsAppended(xs[i])
    requires forall i :: 0 <= i < |xs| ==> AtOrAfter(xs[i], startDate)
    requires SortedBy(xs, TimestampOf) && UniqueIds(xs, IdOf)
    ensures ReadPages(LogAll(store, xs), ch, conv, startDate, None, |xs| / PageSize) == xs
  {
    var after := LogAll(store, xs);
    LogAllAppends(store, xs, ch, conv);
    assert after[ch][conv] == xs;
    SortOfSorted(xs, TimestampOf);
    assert Candidates(xs, startDate) == xs;
    ReadPagesIsDrain(after, ch, conv, startDate, None, |xs| / PageSize);
    FuelCovers(|xs|, |xs| / PageSize);
    DrainReadsAll(xs, IdOf, 0, |xs| / PageSize);
    assert xs[0..] == xs;
  }

  /** After `DeleteTranscript`, reading the conversation yields an empty page
      and listing the channel no longer names it. */
  lemma DeletedTranscriptIsGone(store: Store, ch: string, conv: string, token: Option<string>,
                                startDate: int, listToken: Option<string>, order: seq<string>)
    requires ch in store
    requires Enumerates(order, DeleteTranscript(store, Some(ch), Some(conv)).value[ch])
    ensures var after := DeleteTranscript(store, Some(ch), Some(conv)).value;
      && GetTranscriptActivities(after, Some(ch), Some(conv), token, startDate) == Ok(Page([], None))
      && forall info :: info in ListTranscripts(after, Some(ch), listToken, order).value.items ==> info.id != conv
  {
    var after := DeleteTranscript(store, Some(ch), Some(conv)).value;
    ListingEntries(after, ch, listToken, order);
  }

  /** One `ListTranscripts` call on a channel the store holds. */
  function ListOnce(store: Store, ch: string, order: seq<string>, token: Option<string>): (p: Page<TranscriptInfo>)
    requires ch in store && Enumerates(order, store[ch])
    ensures p == Paginate(Listing(ch, store[ch], order), InfoId, token)
  {
    ListTranscripts(store, Some(ch), token, order).value
  }

  /** What a caller collects by calling `ListTranscripts` and following
      continuation tokens, for at most `fuel` further calls. */
  function ListPages(store: Store, ch: string, order: seq<string>, token: Option<string>, fuel: nat): seq<TranscriptInfo>
    requires ch in store && Enumerates(order, store[ch])
  {
    Follow(t => ListOnce(store, ch, order, t), token, fuel)
  }

  /** Exhaustiveness of the listing: following continuation tokens from the
      first page, with |conversations| / 20 follow-up calls, names every
      conversation of the channel exactly once, oldest first. */
  lemma ListingReadsAll(store: Store, ch: string, order: seq<string>)
    requires ch in store && Enumerates(order, store[ch])
    ensures var all := ListPages(store, ch, order, None, |store[ch]| / PageSize);
      && |all| == |store[ch]|
      && DistinctIds(all)
      && SortedBy(all, CreatedKey)
      && (forall i :: 0 <= i < |all| ==> all[i].channelId == ch && all[i].id in store[ch]
                                         && all[i].created == Created(store[ch][all[i].id]))
      && forall conv :: conv in store[ch] ==> exists i :: 0 <= i < |all| && all[i].id == conv
  {
    var listing := Listing(ch, store[ch], order);
    var fuel := |store[ch]| / PageSize;
    FollowSame(t => ListOnce(store, ch, order, t), t => Paginate(listing, InfoId, t), None, fuel);
    SortedInfos(ch, store[ch], order);
    ListingUnique(listing);
    FuelCovers(|listing|, fuel);
    DrainReadsAll(listing, InfoId, 0, fuel);
    assert listing[0..] == listing;
    ListingCovers(ch, store[ch], order);
  }

  /** Distinct Ids make a listing's Ids unique tokens. */
  lemma ListingUnique(s: seq<TranscriptInfo>)
    requires DistinctIds(s)
    ensures UniqueIds(s, InfoId)
  {
  }

  /** The listing names every conversation of the channel. */
  lemma ListingCovers(channelId: string, channel: Conversations, order: seq<string>)
    requires Enumerates(order, channel)
    ensures var s := Listing(channelId, channel, order);
      forall conv :: conv in channel ==> exists i :: 0 <= i < |s| && s[i].id == conv
  {
    var infos := Infos(channelId, channel, order);
    var s := Listing(channelId, channel, order);
    assert multiset(s) == multiset(infos);
    forall conv | conv in channel
      ensures exists i :: 0 <= i < |s| && s[i].id == conv
    {
      var k :| 0 <= k < |order| && order[k] == conv;
      assert infos[k].id == conv;
      var i := PermutedAt(s, infos, k);
      assert s[i].id == conv;
    }
  }

  /** Where an element of `b` sits in a permutation `a` of it. */
  lemma PermutedAt<T>(a: seq<T>, b: seq<T>, k: nat) returns (i: nat)
    requires multiset(a) == multiset(b) && k < |b|
    ensures i < |a| && a[i] == b[k]
  {
    assert b[k] in multiset(b);
    assert b[k] in multiset(a);
    i :| 0 <= i < |a| && a[i] == b[k];
  }
}

=== FILE: paging.dfy ===
/** The continuation-token paging shared by `GetTranscriptActivitiesAsync` and
    `ListTranscriptsAsync` of the memory transcript store: resume strictly after
    the first element whose Id is the token, take at most 20, and hand out the
    last Id as the next token exactly when the page is full. */
module Paging {
  import opened Wrappers
  import opened Sequences

  const PageSize: nat := 20

  datatype Page<T> = Page(items: seq<T>, continuationToken: Option<string>)

  function Min(a: nat, b: nat): nat { if a <= b then a else b }

  /** `SkipWhile(x => x.Id != token).Skip(1)`. */
  function SkipPast<T>(s: seq<T>, id: T -> Option<string>, token: string): seq<T> {
    match FirstIndexOf(s, id, Some(token))
    case None => []
    case Some(i) => s[i + 1..]
  }

  /** One page of the ordered candidates `s`. */
  function Paginate<T>(s: seq<T>, id: T -> Option<string>, token: Option<string>): (p: Page<T>)
    ensures |p.items| <= PageSize
    ensures token.None? ==> p.items == s[..Min(PageSize, |s|)]
    ensures token.Some? && FirstIndexOf(s, id, token).None? ==> p.items == []
    ensures token.Some? && FirstIndexOf(s, id, token).Some? ==>
      var j := FirstIndexOf(s, id, token).value;
      p.items == s[j + 1..][..Min(PageSize, |s| - j - 1)]
    ensures |p.items| == PageSize ==> p.continuationToken == id(p.items[PageSize - 1])
    ensures |p.items| < PageSize ==> p.continuationToken.None?
  {
    var rest := if token.Some? then SkipPast(s, id, token.value) else s;
    var items := rest[..Min(PageSize, |rest|)];
    Page(items, if |items| == PageSize then id(items[PageSize - 1]) else None)
  }

  /** Where a page starts in the candidates: at 0 without a token, just after
      the token's first match, or at the end when nothing matches. */
  function PageStart<T>(s: seq<T>, id: T -> Option<string>, token: Option<string>): (lo: nat)
    ensures lo <= |s|
  {
    if token.None? then 0
    else match FirstIndexOf(s, id, token)
      case None => |s|
      case Some(i) => i + 1
  }

  /** A page is the run of candidates that starts at `PageStart`. */
  lemma PageIsSlice<T>(s: seq<T>, id: T -> Option<string>, token: Option<string>)
    ensures var p := Paginate(s, id, token);
      var lo := PageStart(s, id, token);
      && lo + |p.items| <= |s|
      && forall i :: 0 <= i < |p.items| ==> p.items[i] == s[lo + i]
  {
  }

  /** Every element has an Id and no two share one. */
  predicate UniqueIds<T>(s: seq<T>, id: T -> Option<string>) {
    && (forall i :: 0 <= i < |s| ==> id(s[i]).Some?)
    && (forall i, j :: 0 <= i < j < |s| ==> id(s[i]) != id(s[j]))
  }

  /** The caller's loop: read a page with `token`, keep its items and, while
      a token comes back and `fuel` further requests remain, read on. */
  function Follow<T>(read: Option<string> -> Page<T>, token: Option<string>, fuel: nat): seq<T>
    decreases fuel
  {
    var p := read(token);
    if p.continuationToken.None? || fuel == 0 then p.items
    else p.items + Follow(read, p.continuationToken, fuel - 1)
  }

  /** Two readers that answer every token alike collect the same items. */
  lemma {:induction false} FollowSame<T>(f: Option<string> -> Page<T>, g: Option<string> -> Page<T>, token: Option<string>, fuel: nat)
    requires forall t :: f(t) == g(t)
    ensures Follow(f, token, fuel) == Follow(g, token, fuel)
    decreases fuel
  {
    if f(token).continuationToken.Some? && fuel > 0 {
      FollowSame(f, g, f(token).continuationToken, fuel - 1);
    }
  }

  /** What a caller collects by following continuation tokens from `token`
      over the candidates `s`, asking for at most `fuel` further pages. */
  function Drain<T>(s: seq<T>, id: T -> Option<string>, token: Option<string>, fuel: nat): seq<T> {
    Follow(t => Paginate(s, id, t), token, fuel)
  }

  /** The token a caller holds after having read the first `j` elements. */
  function TokenAfter<T>(s: seq<T>, id: T -> Option<string>, j: nat): Option<string>
    requires j <= |s|
  {
    if j == 0 then None else id(s[j - 1])
  }

  /** Resuming after the `j`-th element yields the next (up to) 20 elements. */
  lemma PageAfter<T>(s: seq<T>, id: T -> Option<string>, j: nat)
    requires UniqueIds(s, id) && j <= |s|
    ensures Paginate(s, id, TokenAfter(s, id, j)).items == s[j..][..Min(PageSize, |s| - j)]
  {
    if j > 0 {
      FirstMatchIsOnly(s, id, j - 1);
    }
  }

  /** With unique Ids, an element is the first match of its own Id. */
  lemma FirstMatchIsOnly<T>(s: seq<T>, id: T -> Option<string>, k: nat)
    requires UniqueIds(s, id) && k < |s|
    ensures FirstIndexOf(s, id, id(s[k])) == Some(k)
  {
  }

  /** A full page from position `j` is followed by the pages from `j + 20`. */
  lemma DrainFullPage<T>(s: seq<T>, id: T -> Option<string>, j: nat, fuel: nat)
    requires UniqueIds(s, id) && j + PageSize <= |s| && fuel > 0
    ensures Drain(s, id, TokenAfter(s, id, j), fuel)
            == s[j..j + PageSize] + Drain(s, id, TokenAfter(s, id, j + PageSize), fuel - 1)
  {
    PageAfter(s, id, j);
    var p := Paginate(s, id, TokenAfter(s, id, j));
    assert p.items == s[j..j + PageSize];
    assert p.continuationToken == TokenAfter(s, id, j + PageSize);
  }

  /** A page from position `j` that is not full is the last one. */
  lemma DrainLastPage<T>(s: seq<T>, id: T -> Option<string>, j: nat, fuel: nat)
    requires UniqueIds(s, id) && j <= |s| && |s| - j < PageSize
    ensures Drain(s, id, TokenAfter(s, id, j), fuel) == s[j..]
  {
    PageAfter(s, id, j);
  }

  /** `fuel` follow-up requests cover `n` elements exactly when `n / 20 <= fuel`. */
  lemma FuelCovers(n: nat, fuel: nat)
    ensures n / PageSize <= fuel <==> n < 20 * (fuel + 1)
  {
  }

  /** Exhaustiveness: with unique Ids, following the tokens from the first
      page returns every element once, in order, when the caller may make
      `(|s| - j) / 20` follow-up requests. */
  lemma {:induction false} DrainReadsAll<T>(s: seq<T>, id: T -> Option<string>, j: nat, fuel: nat)
    requires UniqueIds(s, id) && j <= |s|
    requires |s| - j < 20 * (fuel + 1)
    ensures Drain(s, id, TokenAfter(s, id, j), fuel) == s[j..]
    decreases fuel
  {
    if |s| - j >= PageSize {
      DrainFullPage(s, id, j, fuel);
      DrainReadsAll(s, id, j + PageSize, fuel - 1);
      SplitAt(s, j, j + PageSize);
    } else {
      DrainLastPage(s, id, j, fuel);
    }
  }

  /** When the element count is a positive multiple of 20, the last full
      page still carries a token, so the caller makes one more request,
      which comes back empty and without a token. */
  lemma FullLastPageNeedsOneMoreRequest<T>(s: seq<T>, id: T -> Option<string>)
    requires UniqueIds(s, id) && |s| >= PageSize && |s| % PageSize == 0
    ensures Paginate(s, id, TokenAfter(s, id, |s| - PageSize)).continuationToken == id(s[|s| - 1])
    ensures id(s[|s| - 1]).Some?
    ensures Paginate(s, id, TokenAfter(s, id, |s|)) == Page([], None)
  {
    LastFullPage(s, id);
    PastTheEnd(s, id);
  }

  lemma LastFullPage<T>(s: seq<T>, id: T -> Option<string>)
    requires UniqueIds(s, id) && |s| >= PageSize
    ensures Paginate(s, id, TokenAfter(s, id, |s| - PageSize)).continuationToken == id(s[|s| - 1])
  {
    PageAfter(s, id, |s| - PageSize);
    var items := Paginate(s, id, TokenAfter(s, id, |s| - PageSize)).items;
    assert items[PageSize - 1] == s[|s| - 1];
  }

  /** Resuming after the last element yields an empty, final page. */
  lemma PastTheEnd<T>(s: seq<T>, id: T -> Option<string>)
    requires UniqueIds(s, id)
    ensures Paginate(s, id, TokenAfter(s, id, |s|)) == Page([], None)
  {
    PageAfter(s, id, |s|);
  }
}

=== FILE: sequences.dfy ===
/** Sequence searches shared by the stores and the configuration model. */
module Sequences {
  import opened Wrappers

  /** The position of the first element whose identifier equals `target`
      (a linear scan, as `SkipWhile`, `FirstOrDefault` and the `for` loops of
      the modelled code do). */
  function FirstIndexOf<T>(s: seq<T>, id: T -> Option<string>, target: Option<string>): (r: Option<nat>)
    ensures r.Some? ==> r.value < |s| && id(s[r.value]) == target
    ensures r.Some? ==> forall j :: 0 <= j < r.value ==> id(s[j]) != target
    ensures r.None? ==> forall j :: 0 <= j < |s| ==> id(s[j]) != target
  {
    if |s| == 0 then None
    else if id(s[0]) == target then Some(0)
    else
      match FirstIndexOf(s[1..], id, target)
      case None => None
      case Some(k) => Some(k + 1)
  }

  /** The position of the first element satisfying `p` (`FirstOrDefault`
      with a predicate). */
  function FirstWhere<T>(s: seq<T>, p: T -> bool): (r: Option<nat>)
    ensures r.Some? ==> r.value < |s| && p(s[r.value])
    ensures r.Some? ==> forall j :: 0 <= j < r.value ==> !p(s[j])
    ensures r.None? ==> forall j :: 0 <= j < |s| ==> !p(s[j])
  {
    if |s| == 0 then None
    else if p(s[0]) then Some(0)
    else
      match FirstWhere(s[1..], p)
      case None => None
      case Some(k) => Some(k + 1)
  }

  /** A suffix is the slice up to `k` followed by the suffix from `k`. */
  lemma SplitAt<T>(s: seq<T>, i: nat, k: nat)
    requires i <= k <= |s|
    ensures s[i..] == s[i..k] + s[k..]
  {
  }

  /** Appending the first element, then the rest, appends the whole. */
  lemma AppendFirst<T>(a: seq<T>, xs: seq<T>)
    requires |xs| > 0
    ensures (a + [xs[0]]) + xs[1..] == a + xs
  {
  }

  /** `a` is `b` with some elements left out, the rest kept in order. */
  predicate IsSubsequence<T(==)>(a: seq<T>, b: seq<T>)
    decreases |b|
  {
    if |a| == 0 then true
    else if |b| == 0 then false
    else if a[|a| - 1] == b[|b| - 1] then IsSubsequence(a[..|a| - 1], b[..|b| - 1])
    else IsSubsequence(a, b[..|b| - 1])
  }

  /** Every sequence is a subsequence of itself. */
  lemma {:induction false} SubsequenceReflexive<T>(s: seq<T>)
    ensures IsSubsequence(s, s)
  {
    if |s| > 0 {
      SubsequenceReflexive(s[..|s| - 1]);
    }
  }

  /** Appending one element to the longer sequence keeps the relation, and so
      does appending it to both. */
  lemma {:induction false} SubsequenceExtend<T>(a: seq<T>, b: seq<T>, x: T)
    requires IsSubsequence(a, b)
    ensures IsSubsequence(a, b + [x])
    ensures IsSubsequence(a + [x], b + [x])
    decreases |b|, 1
  {
    assert (b + [x])[..|b + [x]| - 1] == b;
    assert (a + [x])[..|a + [x]| - 1] == a;
    if |a| > 0 && a[|a| - 1] == x {
      SubsequenceDropLast(a, b);
    }
  }

  /** Leaving out the last element of the shorter sequence keeps the relation. */
  lemma {:induction false} SubsequenceDropLast<T>(a: seq<T>, b: seq<T>)
    requires |a| > 0 && IsSubsequence(a, b)
    ensures IsSubsequence(a[..|a| - 1], b)
    decreases |b|, 0
  {
    var a', b' := a[..|a| - 1], b[..|b| - 1];
    assert b == b' + [b[|b| - 1]];
    if a[|a| - 1] == b[|b| - 1] {
      SubsequenceExtend(a', b', b[|b| - 1]);
    } else {
      SubsequenceDropLast(a, b');
      SubsequenceExtend(a', b', b[|b| - 1]);
    }
  }

  /** Extending a filtered sequence the way a filter does keeps it holding
      every accepted element as often as the source does, and nothing else. */
  lemma CountsExtend<T>(a: seq<T>, b: seq<T>, x: T, keep: T -> bool)
    requires forall y :: multiset(a)[y] == if keep(y) then multiset(b)[y] else 0
    ensures var a' := if keep(x) then a + [x] else a;
      forall y :: multiset(a')[y] == if keep(y) then multiset(b + [x])[y] else 0
  {
    assert multiset(b + [x]) == multiset(b) + multiset{x};
    assert multiset(a + [x]) == multiset(a) + multiset{x};
  }
}

=== FILE: stable_sort.dfy ===
/** LINQ's `OrderBy` on a nullable instant: a stable sort in which a missing
    key comes first. It is defined as an insertion sort and characterised by
    its three properties: the result is ordered, it is a permutation of the
    input, and entries with equal keys keep their relative order. */
module StableSort {
  import opened Wrappers

  /** The default comparer of `DateTimeOffset?`: null before every value. */
  predicate KeyLe(a: Option<int>, b: Option<int>) {
    a.None? || (b.Some? && a.value <= b.value)
  }

  predicate SortedBy<T>(s: seq<T>, key: T -> Option<int>) {
    forall i, j :: 0 <= i < j < |s| ==> KeyLe(key(s[i]), key(s[j]))
  }

  /** A run of consecutive entries of an ordered sequence is ordered. */
  lemma RunSorted<T>(a: seq<T>, b: seq<T>, lo: nat, key: T -> Option<int>)
    requires SortedBy(b, key)
    requires lo + |a| <= |b|
    requires forall i :: 0 <= i < |a| ==> a[i] == b[lo + i]
    ensures SortedBy(a, key)
  {
    forall i, j | 0 <= i < j < |a|
      ensures KeyLe(key(a[i]), key(a[j]))
    {
      assert a[i] == b[lo + i] && a[j] == b[lo + j];
    }
  }

  /** The entries whose key is `k`, in their order in `s`. */
  function Select<T>(s: seq<T>, key: T -> Option<int>, k: Option<int>): seq<T> {
    if |s| == 0 then []
    else Select(s[..|s| - 1], key, k) + (if key(s[|s| - 1]) == k then [s[|s| - 1]] else [])
  }

  lemma {:induction false} SelectAppend<T>(a: seq<T>, b: seq<T>, key: T -> Option<int>, k: Option<int>)
    ensures Select(a + b, key, k) == Select(a, key, k) + Select(b, key, k)
    decreases |b|
  {
    if |b| == 0 {
      assert a + b == a;
    } else {
      assert (a + b)[..|a + b| - 1] == a + b[..|b| - 1];
      SelectAppend(a, b[..|b| - 1], key, k);
    }
  }

  /** Places `x` after every entry of the ordered `t` whose key is not above
      its own, so that `x` follows the entries that came before it. */
  function Insert<T>(t: seq<T>, x: T, key: T -> Option<int>): (r: seq<T>)
    ensures |r| == |t| + 1
  {
    if |t| == 0 || KeyLe(key(t[|t| - 1]), key(x)) then t + [x]
    else Insert(t[..|t| - 1], x, key) + [t[|t| - 1]]
  }

  /** Inserting into an ordered sequence adds exactly `x` and keeps it ordered. */
  lemma {:induction false} InsertSorted<T>(t: seq<T>, x: T, key: T -> Option<int>)
    requires SortedBy(t, key)
    ensures multiset(Insert(t, x, key)) == multiset(t) + multiset{x}
    ensures SortedBy(Insert(t, x, key), key)
  {
    if |t| > 0 && !KeyLe(key(t[|t| - 1]), key(x)) {
      var init, last := t[..|t| - 1], t[|t| - 1];
      assert t == init + [last];
      assert SortedBy(init, key);
      InsertSorted(init, x, key);
      var r' := Insert(init, x, key);
      forall i | 0 <= i < |r'|
        ensures KeyLe(key(r'[i]), key(last))
      {
        assert r'[i] in multiset(r');
        if r'[i] != x {
          assert r'[i] in multiset(init);
          var m :| 0 <= m < |init| && init[m] == r'[i];
          assert t[m] == init[m];
        }
      }
    }
  }

  /** Stable sort by `key`. */
  function Sort<T>(s: seq<T>, key: T -> Option<int>): (r: seq<T>)
    ensures multiset(r) == multiset(s)
    ensures SortedBy(r, key)
  {
    if |s| == 0 then []
    else
      var init, last := s[..|s| - 1], s[|s| - 1];
      assert s == init + [last];
      InsertSorted(Sort(init, key), last, key);
      Insert(Sort(init, key), last, key)
  }

  lemma {:induction false} InsertSelect<T>(t: seq<T>, x: T, key: T -> Option<int>, k: Option<int>)
    requires SortedBy(t, key)
    ensures Select(Insert(t, x, key), key, k) == Select(t, key, k) + Select([x], key, k)
  {
    if |t| == 0 || KeyLe(key(t[|t| - 1]), key(x)) {
      SelectAppend(t, [x], key, k);
    } else {
      var init, last := t[..|t| - 1], t[|t| - 1];
      assert t == init + [last];
      assert SortedBy(init, key);
      InsertSelect(init, x, key, k);
      SelectAppend(Insert(init, x, key), [last], key, k);
      SelectAppend(init, [last], key, k);
      assert Select([x], key, k) == [] || Select([last], key, k) == [];
    }
  }

  /** Stability: for every key, the entries with that key appear in the sorted
      result exactly as they appear in the input. */
  lemma {:induction false} SortIsStable<T>(s: seq<T>, key: T -> Option<int>, k: Option<int>)
    ensures Select(Sort(s, key), key, k) == Select(s, key, k)
  {
    if |s| > 0 {
      var init, last := s[..|s| - 1], s[|s| - 1];
      SortIsStable(init, key, k);
      InsertSelect(Sort(init, key), last, key, k);
      assert s == init + [last];
      SelectAppend(init, [last], key, k);
    }
  }

  /** Sorting input that is already ordered returns it unchanged. */
  lemma {:induction false} SortOfSorted<T>(s: seq<T>, key: T -> Option<int>)
    requires SortedBy(s, key)
    ensures Sort(s, key) == s
  {
    if |s| > 0 {
      var init := s[..|s| - 1];
      assert SortedBy(init, key);
      SortOfSorted(init, key);
    }
  }
}

=== FILE: wrappers.dfy ===
/** Shared result types: the model's stand-ins for C# null, exceptions and
    operations that throw after having mutated part of their state. */
module Wrappers {

  /** A C# reference or nullable value: `None` is `null`. */
  datatype Option<+T> = None | Some(value: T) {
    function GetOr(default: T): T {
      match this
      case Some(v) => v
      case None => default
    }
  }

  /** The exceptions the modelled code throws, by .NET type. */
  datatype Exception =
    | ArgumentNull(paramName: Option<string>)
    | Argument
    | InvalidOperation
    | InvalidCast
    | KeyNotFound
    | NullReference
    | Json
    | Io

  /** A call that either returns a value or throws before changing anything. */
  datatype Result<+T> = Ok(value: T) | Fail(error: Exception) {
    predicate IsFailure() { Fail? }
  }

  /** A call on mutable state that may throw part-way: `state` is the state the
      caller observes afterwards, `error` the exception that escaped, if any. */
  datatype Step<+S> = Step(state: S, error: Option<Exception>)

  /** `string.IsNullOrEmpty`. */
  predicate IsNullOrEmpty(s: Option<string>) {
    s.None? || |s.value| == 0
  }
}
